=== FILE: README.md ===
# Flowboard core, modelled in Dafny

Flowboard is a Django backend. It takes gradebook uploads and runs each one through a fixed five-step processing pipeline. When a run fails it raises an incident and a system ticket. Staff then triage, retry, resolve and archive those incidents. This project models the logic at the centre of that flow as pure functions over immutable records. It also proves what the code promises about them.

The modules follow the source files:

| module | file | what it covers | source |
|---|---|---|---|
| `Common` | `common.dfy` | `Option` and `Result`; request-body fields that may be absent, `null` or given; Python truthiness and `f"{}"` rendering of optional strings; the opaque `Timestamp` | — |
| `Text` | `text.dfy` | the Python string operations the code relies on: `split()`, `split(c)` and `join`, `strip()`, `lower()`, slicing, decimal rendering | — |
| `Models` | `models.dfy` | the `User`, `Upload`, `JobRun`, `Incident`, `Ticket` and `KnownError` records with their field domains and defaults; the user role predicates; `Ticket.resolve` with its cascade to the linked incident | `backend/core/models.py` |
| `Metrics` | `metrics.dfy` | the two in-process counters, their increments, and the sorted Prometheus text | `backend/core/metrics.py` |
| `Incidents` | `incidents.dfy` | known-error matching, the timeline event append, automatic triage with its retry counter, and incident plus ticket creation | `backend/core/workers.py` |
| `KnownErrors` | `known_errors.dfy` | the default known-error library and its idempotent seeding | `backend/core/workers.py` |
| `Loader` | `loader.dfy` | `_load_df`'s dispatch by existence and lower-cased extension, and the PDF header extraction | `backend/core/workers.py` |
| `Pipeline` | `pipeline.dfy` | `job_chain_standardize` as a fold over the five steps, with step records, log truncation, per-step metrics and the failure path | `backend/core/workers.py` |
| `RetryBudget` | `retry_budget.dfy` | the as-written retry behaviour across repeated failures, and the corrected creation and job with a carried counter (see Findings) | `backend/core/workers.py` |
| `Permissions` | `permissions.dfy` | `_role`, `is_admin`, `is_moderator` and the five `has_permission` tables | `backend/core/permissions.py` |
| `Views` | `views.dfy` | the handlers that change uploads, incidents and tickets, and the target and format choice of `reports_summary` | `backend/core/views.py` |

## How the outside world is represented

- **Regular expressions.** A rule's pattern is checked against the error by an abstract `Search` function. It answers matched, no match, or malformed pattern. Case-insensitivity is part of what it decides.
- **Parsers and the file system.** The CSV, Excel and PDF parsers and `os.path.exists` are fields of `Loader.Files`.
- **Later pipeline steps.** The numeric content of the transform, summary and publish steps (pandas) is a field of `Pipeline.Env`. Each of those steps yields success or an exception text.
- **Queueing.** Work handed to Redis/RQ is an `Effect` value in the result: `RunPipelineNow(uploadId)` or `RunPipelineLater(delaySeconds, uploadId)`.
- **Stored records.** Database rows are values passed in and returned. The known-error table is a sequence in the order the recency query returns. Lookups by id are functions.
- **Request bodies.** A field read with `request.data.get(key)` and no default is an `Option`: an absent key and a JSON `null` both read as `None` there. A field read with a default is a `Common.Field`, which tells absent (the default applies), `null` (`None`) and a given value apart.
- **UUID columns.** Which texts a UUID column accepts in a lookup is a parameter `wellFormed` of the report request. A text it refuses raises a validation error that the view does not catch.
- **Time.** Every `timezone.now()` inside one operation is the same `now: Timestamp`.

## Behaviour worth knowing

The code behaves as follows, and the model with it:

- Triage overwrites `severity` and `category` whenever the matched fix supplies them. It does not limit itself to empty fields.
- A successful run does not resolve open incidents. The success path only finishes the run.
- Header labels are collapsed and lower-cased, but spaces are not turned into underscores. A header "Student Id" becomes "student id", so an upload with that header fails validation for a missing `student_id` (`Pipeline.SpacedHeaderFailsValidation`).
- There is no heuristic PDF header scoring, column aliasing or processing-plan applier. `views.py` imports such helpers from `workers.py`, but they are not defined there.
- Incident resolve sets `resolved_at` only through the ticket cascade. An incident without an open or in-progress ticket is resolved with no `resolved_at` (`Views.ResolvedAtNeedsAnOpenTicket`).
- Ticket resolve refuses only tickets already `resolved`. A `closed` ticket can be resolved.
- Ticket assign moves a resolved ticket back to `in_progress` (`Views.AssignReopensResolvedTicket`).
- A manual incident retry raises `auto_retry_count` with no bound (`Views.ManualRetriesAreUnbounded`). The bound `count <= max` belongs to triage only.
- A report request for an upload whose processing mode is blank but not empty gets the "processed" file prefix, not the default's "summary" (`Views.ModeNormalisationKeepsPrefix`).
- Every view sets `AllowAny`, so the permission tables of `permissions.py` decide nothing at run time. They are modelled as the policy they state.

## Model

| member | source | states |
|---|---|---|
| Text.NormalizeLabel | backend/core/workers.py:415 | the cleaned label has the words of the original, each lower-cased, separated by single spaces, with no upper-case letters and no outer or doubled whitespace |
| Text.NormalizeIdempotent | backend/core/workers.py:415 | cleaning an already cleaned label changes nothing |
| Text.Truncate | backend/core/workers.py:174 | the kept logs are a prefix of the logs, at most the limit long, the whole text when it fits, and exactly the limit long otherwise |
| Text.TruncateIdempotent | backend/core/workers.py:174 | truncating truncated logs again changes nothing |
| Text.Lower | backend/core/workers.py:326 | lower-casing keeps the length and maps every character independently |
| Text.LowerIdempotent | backend/core/workers.py:326 | a lower-cased text has no upper-case letter, and lower-casing is a no-op exactly on such texts |
| Text.Strip | backend/core/views.py:454 | the stripped mode is the mode with whitespace cut off at both ends only, and it neither starts nor ends with whitespace |
| Text.StripLeft | backend/core/views.py:454 | the result is a suffix of the text, everything dropped is whitespace, and it does not start with whitespace |
| Text.StripRight | backend/core/views.py:454 | the result is a prefix of the text, everything dropped is whitespace, and it does not end with whitespace |
| Text.StripIsUnique | backend/core/views.py:454 | any cut of whitespace off both ends that leaves none at either end is exactly what `strip()` returns |
| Text.StripIdempotent | backend/core/views.py:454 | stripping a stripped text changes nothing |
| Text.SplitJoin | backend/core/workers.py:415 | splitting words joined by single spaces gives back the words |
| Models.IsAdmin | backend/core/models.py:23-24 | a user is an admin exactly when a superuser or holding the admin role |
| Models.IsModerator | backend/core/models.py:26-27 | a user is a moderator exactly when a superuser or holding the moderator or admin role |
| Models.TicketAbilities | backend/core/models.py:23-36 | admin implies moderator; resolving and assigning tickets are allowed exactly to moderators; creating tickets is allowed to everyone |
| Models.TicketResolve | backend/core/models.py:337-362 | the ticket becomes resolved with resolver and time, stores the type and notes as given (either may be `None`), and gains exactly one event after its old timeline, naming the resolver and the type (`None` when missing) and carrying the notes; a linked incident, and only a linked one, becomes resolved with `resolved_at` set, and its corrective action is replaced exactly when the notes are truthy |
| Metrics.Inc | backend/core/metrics.py:12-16 | an increment raises exactly one key's count by one, leaves every other count alone, adds the key if it was new, and keeps keys distinct |
| Metrics.RecordJobMetric | backend/core/metrics.py:11-13 | exactly the counter of (job or "unknown", status or "unknown") rises by one; the duration is ignored and incident counts are untouched |
| Metrics.RecordIncidentMetric | backend/core/metrics.py:15-16 | exactly the counter of (state or "unknown") rises by one; job counts are untouched |
| Metrics.RecordingIsMonotone | backend/core/metrics.py:8-16 | no recording lowers any counter |
| Metrics.KeyLessTrichotomy | backend/core/metrics.py:23 | the tuple order used for sorting is total: distinct keys are ordered one way and never both |
| Metrics.InsertSorted | backend/core/metrics.py:23 | inserting an entry with a new key into a strictly sorted list keeps it strictly sorted |
| Metrics.SortEntries | backend/core/metrics.py:23-29 | sorting is a permutation of the counter's entries, strictly ordered by key when keys are distinct |
| Metrics.SortedPositionUnique | backend/core/metrics.py:23-29 | in the sorted output each key sits at exactly one position |
| Metrics.MetricsLines | backend/core/metrics.py:18-33 | the job help and type lines come first, then one line per job counter in key order, then the incident help and type lines and one line per incident counter in key order, then the build-info help and type lines and the build-info sample stamped with the timestamp |
| Metrics.RenderMetrics | backend/core/metrics.py:18-35 | the text ends in a newline, and when no job name, status, state or timestamp holds a newline, splitting the text before that newline on newlines gives back exactly the HELP, TYPE, sample and build-info lines |
| Text.SplitOnJoin | backend/core/metrics.py:35 | splitting on a separator that no part contains undoes the join of the parts |
| Text.JoinSplitOn | backend/core/metrics.py:35 | joining the pieces of a split with the separator gives back the text |
| Incidents.MatchKnownError | backend/core/workers.py:198-206 | the answer is a rule of the library whose pattern matches, with no earlier rule matching; there is no answer exactly when no rule matches; malformed patterns count as not matching |
| Incidents.MatchIsMostRecent | backend/core/workers.py:198-206 | in a recency-ordered library the answer is at least as recent as every matching rule |
| Incidents.SkippedRuleIsTransparent | backend/core/workers.py:203-205 | a leading rule whose pattern is malformed or does not match does not change the answer |
| Incidents.AppendEvent | backend/core/workers.py:209-219 | the timeline grows by exactly the new event, earlier events are kept, and no other field changes |
| Incidents.MergeFix | backend/core/workers.py:231-251 | severity and category are overwritten whenever the fix supplies them; root cause, corrective action and resolution report are filled only when empty; nothing else changes |
| Incidents.AutoTriage | backend/core/workers.py:222-280 | exactly one event is appended; with no rule nothing else changes; with auto-retry disabled the count and state are kept; with it enabled and below the cap the count rises by one, the state becomes in progress, one delayed re-run is queued and the event reads "Retry #n queued in ds for job"; at the cap the count is kept, nothing is queued and the event reads "Max retries (cap) exhausted for job"; with no rule the event has no notes, and with retries disabled it reads "Matched name" |
| Incidents.TriageRespectsRetryCap | backend/core/workers.py:253-278 | triage either leaves the count alone or keeps it within the cap; the count rises by exactly the number of queued re-runs, at most one; a count within an unchanged cap stays within it |
| Incidents.RepeatedTriageSaturates | backend/core/workers.py:253-278 | n rounds of triage with an enabled rule leave the count at the smaller of count plus n and the cap, queue exactly as many re-runs as the count rose, and add n events |
| Incidents.FreshTriage | backend/core/workers.py:222-280 | triage of a just-detected incident (no retries, default cap, no report) adds the triage outcome with its notes as the second event, takes over the fix's resolution report, severity, category and cap, queues a re-run exactly when the rule enables retries with a cap above zero, and leaves analysis, resolution and archive fields empty |
| Incidents.CreateIncidentAndTicket | backend/core/workers.py:283-319 | the new incident is raised by the engine, unassigned, linked to the matched rule exactly when one matches, and seeded with the fix's root cause (or RCA) and corrective action (or action); its first event carries the first 280 characters of the error, and its second, stamped now by the engine, is the triage outcome (unknown error, known error, retry scheduled or retry limit) with that outcome's notes; it takes the fix's resolution report when the fix has a non-empty one and starts with no analysis notes, impact summary, resolver, resolution time or archive time; with a match it takes the fix's severity and category when supplied and the fix's cap; with no match it keeps the model defaults: open, medium severity, no category and a cap of 2; it starts from zero retries, so exactly one delayed re-run of this upload is queued exactly when the matched rule enables retries with a cap above zero, and then it is in progress; the one system ticket is in progress, assigned to the engine, and described by the first 500 characters of the error; exactly one open incident is counted, no other incident state's count changes, and the job counts are untouched |
| KnownErrors.EnsureDefaults | backend/core/workers.py:181-195 | the old rules are kept as a suffix; every default pattern ends up present; only missing defaults are created; a library already holding every pattern is returned unchanged |
| KnownErrors.SeedingIsIdempotent | backend/core/workers.py:181-195 | seeding a seeded library again changes nothing, whatever ids and times are used |
| KnownErrors.SeedingKeepsRecencyOrder | backend/core/workers.py:181-195 | when the old rules are in recency order and none is newer than the seeding time, the seeded library is in recency order too |
| Loader.SplitExt | backend/core/workers.py:326 | the extension is the suffix from the last dot of the last path component when a non-dot character precedes that dot in the component, and empty when there is no such dot |
| Loader.ExtensionShape | backend/core/workers.py:326 | a non-empty extension is a suffix of the path that starts with its only dot and holds no separator |
| Loader.PdfFrame | backend/core/workers.py:331-340 | no tables, or an empty first table, is the "No table found in first PDF page" error; otherwise the first row gives the labels (an empty cell becomes "None") and the other rows are data |
| Loader.LoadFrame | backend/core/workers.py:322-342 | a missing path fails with "File not found" before any extension check; `.csv`, `.xlsx`/`.xls` and `.pdf` go to their parsers by lower-cased extension; anything else fails with "Unsupported file type" |
| Loader.LoaderErrorTaxonomy | backend/core/workers.py:322-342 | every loader error is one of the loader's three messages or a parser's exception text |
| Loader.DocxIsUnsupported | backend/core/workers.py:326-342 | an existing `.docx` file is rejected as unsupported |
| Loader.UpperCaseCsvIsCsv | backend/core/workers.py:326-329 | an upper-case `.CSV` file goes to the CSV parser |
| Pipeline.StepLabelsDistinct | backend/core/workers.py:27-33 | the five step names are pairwise distinct |
| Pipeline.Missing | backend/core/workers.py:432 | a column is reported missing exactly when it is required and absent; the report is no longer than the required list |
| Pipeline.MissingAppend | backend/core/workers.py:432 | the missing columns of two lists of required columns are those of the first, then those of the second, so the report keeps the required order |
| Pipeline.MissingOne | backend/core/workers.py:432 | one required column is reported exactly when it is absent |
| Pipeline.ValidationErrors | backend/core/workers.py:421-438 | there is no error exactly when there are columns and rows and no required column is missing; at most three errors, each one of the three messages; "No columns detected" comes first and exactly when there are no columns, "No rows detected" comes next and exactly when there are no rows, and "Required columns missing: " with the missing columns joined by ", " is last and present exactly when some required column is missing |
| Pipeline.NormalizeColumns | backend/core/workers.py:415 | every label is cleaned in place and the column count is kept |
| Pipeline.PathJoin | backend/core/workers.py:478 | an absolute file name replaces the directory; an empty directory gives the file name; otherwise the path is the directory and the file name with exactly one '/' between them: none is added when the directory already ends with one |
| Pipeline.RunStep | backend/core/workers.py:412-507 | only the standardize step produces a frame and later steps keep it; only the publish step changes the upload, marking it published |
| Pipeline.StandardizeStep | backend/core/workers.py:413-419 | a load error is the step's error; a loaded frame gets cleaned labels and keeps its row count |
| Pipeline.ValidateStep | backend/core/workers.py:421-438 | validation fails exactly when there are errors, with the errors joined by "; " as the message |
| Pipeline.MissingFrameStep | backend/core/workers.py:421-454 | validate, transform and summary without a loaded frame fail with "No dataframe loaded" |
| Pipeline.LogLines | backend/core/workers.py:517 | there is one log line per step record, in order |
| Pipeline.RunFromRecords | backend/core/workers.py:406-517 | the step records follow the pipeline order, are all successes except possibly a failed last one, and a failure stops the fold |
| Pipeline.RunPipeline | backend/core/workers.py:406-517 | the run's records follow the step order; a run with no failure publishes the upload; a failed run names the step and the error that step produced |
| Pipeline.RecordSteps | backend/core/workers.py:392-404 | recording step outcomes touches only the step keys of the records and no incident counter |
| Pipeline.EachStepCountedOnce | backend/core/workers.py:392-404 | for steps with distinct names, each step's (name, status) counter rises by exactly one |
| Pipeline.FinishRun | backend/core/workers.py:169-177 | the stored logs are a prefix of at most 20000 characters, the whole text when it fits, and exactly the run counter of this job and status rises by one |
| Pipeline.FinishJob | backend/core/workers.py:519-532 | the run keeps the attempted steps; it succeeds with exit code 0 when no step failed and fails with exit code 1 otherwise; its log is a prefix, at most 20000 characters long, of the step lines and then the failure message joined by newlines, and all of it when it fits |
| Pipeline.JobChainStandardize | backend/core/workers.py:376-532 | the library is seeded first; an incident is raised exactly when the run is not a success; success publishes the upload with exit code 0; failure marks the upload failed with exit code 1 and raises a fresh incident with the message "{step} failed: {error}" |
| Pipeline.Conclude | backend/core/workers.py:519-532 | the run's steps are the attempted records and its logs are truncated; a failure marks the upload failed and opens exactly the incident and ticket that `_create_incident_and_ticket` opens for the failure message, after the run is finished, and counts one open incident; success creates nothing; no incident state's count other than "open" changes |
| Pipeline.JobFollowsPipeline | backend/core/workers.py:406-517 | the job's step records are exactly the pipeline fold's records on the processing upload: a non-empty prefix of the five steps in order, every one but the last a success, and the last with the run's own status |
| Pipeline.JobMetrics | backend/core/workers.py:392-404 | after a job each attempted step's counter rose by one, the run counter of its final status rose by one, and one open incident is counted exactly when an incident was raised |
| Pipeline.FailedJobRetriesFresh | backend/core/workers.py:519-528 | as written, the incident of a failed job counts exactly the re-runs its own triage queued, at most one, and one is queued exactly when the rule matched for the failure message enables retries with a cap above zero, whatever earlier failures of the upload queued |
| Pipeline.LoadFailureStopsAtFirstStep | backend/core/workers.py:413-414 | a load failure leaves exactly one failed standardize record, fails the upload and raises an incident for "standardize_results failed: {error}" |
| Pipeline.DocxUploadFails | backend/core/workers.py:326-342 | a `.docx` upload fails at the first step with "Unsupported file type: .docx" |
| Pipeline.SpacedHeaderFailsValidation | backend/core/workers.py:415-434 | a frame headed "Student Id", "score" passes standardize and fails validate with "Required columns missing: student_id" |
| RetryBudget.AsWrittenRetriesAreUnbounded | backend/core/workers.py:283-319 | as written, n failures of one upload with an auto-retry rule queue n re-runs, whatever n |
| RetryBudget.ThirdFailureStillRetries | backend/core/workers.py:253-278 | as written, with a cap of two, the third failure still queues a re-run |
| RetryBudget.CreateIncidentCarryingRetries | backend/core/workers.py:283-319 | the corrected creation carries the count of the prior incident of the same upload and rule, queues a re-run exactly when that count is below the cap, and otherwise equals the as-written creation |
| RetryBudget.CarryingAgreesWithPlain | backend/core/workers.py:283-319 | with no prior incident to carry from, the corrected creation is the as-written one |
| RetryBudget.CorrectedJob | backend/core/workers.py:376-532 | the corrected job has the library, upload, run and metrics of the job as written, and the same incident error and ticket; when the prior incident carries no retries it is the job as written |
| RetryBudget.JobRetryIsCapped | backend/core/workers.py:253-278 | under the corrected job the incident of a failed run carries the retry count of the prior incident plus at most one queued re-run, and a re-run is queued exactly when the matched rule enables retries and the carried count is below the cap |
| RetryBudget.CarriedRetriesAreCapped | backend/core/workers.py:253-278 | under the corrected creation, any number of failures queue at most cap minus the carried count re-runs |
| RetryBudget.ThirdFailureIsCapped | backend/core/workers.py:253-278 | under the corrected creation, with a cap of two, three failures queue exactly two re-runs |
| Permissions.RoleOf | backend/core/permissions.py:4-9 | there is no role exactly for an anonymous request; a superuser is an admin whatever is stored; otherwise the stored role decides |
| Permissions.HasPermission | backend/core/permissions.py:20-60 | anonymous requests are always refused; a request is allowed exactly when the user's clearance reaches the least clearance the resource, verb and action require |
| Permissions.Required | backend/core/permissions.py:20-60 | every resource, verb and action needs at least a signed-in user and at most an admin |
| Permissions.RolesAgreeWithModels | backend/core/permissions.py:12-17 | the permission helpers agree with the user predicates of the models, and admin implies moderator |
| Permissions.PermissionIsMonotone | backend/core/permissions.py:20-60 | more clearance never loses a permission |
| Permissions.PlainUserAbilities | backend/core/permissions.py:20-60 | a plain user may use every verb on job runs; on uploads they may read, create and retry; on jobs they may read and trigger; on incidents they may only read; on tickets they may do nothing; in each case only those |
| Permissions.AdminMayDoEverything | backend/core/permissions.py:20-60 | an admin or superuser passes every check |
| Views.ParseProcessConfig | backend/core/views.py:144-152 | text is decoded and kept whatever JSON it holds; an object passes through; undecodable text and anything else become the empty object |
| Views.UploadCreate | backend/core/views.py:139-183 | a request without a usable file is refused with 400; otherwise the upload is stored processing with the department defaulting to "General", the notes to "", the mode to "transform_gradebook", the parsed config, and a path ending in the file name, and one pipeline run is queued |
| Views.UploadRetry | backend/core/views.py:186-191 | only the status changes, to processing, and one pipeline run is queued |
| Views.RetryTwice | backend/core/views.py:186-191 | retrying twice leaves the same upload as once and queues two runs |
| Views.IncidentAssign | backend/core/views.py:249-260 | the assignee is set, the state becomes in progress, and exactly one "Assigned to …" event is appended ("unassigned" when none is given) |
| Views.CascadeResolve | backend/core/views.py:288-291 | every open or in-progress ticket of the incident is resolved automatically by the engine; every other ticket is untouched; the incident is resolved and stamped when some ticket was resolved, and untouched otherwise |
| Views.IncidentResolve | backend/core/views.py:263-294 | the incident ends resolved by the given resolver or "engine", takes the request's root cause, keeps its report when none is supplied, and gains exactly one resolution event after its old timeline; no field but root cause, corrective action, report, state, resolver, resolution time and timeline changes |
| Views.ResolveClosesTickets | backend/core/views.py:288-291 | after resolving an incident none of its tickets is open or in progress; tickets already resolved or closed are untouched; the others are resolved automatically with the corrective action, or "Incident resolved", as notes |
| Views.ResolvedAtNeedsAnOpenTicket | backend/core/views.py:263-294 | the resolution time becomes now exactly when some ticket of the incident was open or in progress, and is kept otherwise; a missing corrective action becomes "Incident resolved" exactly then |
| Views.IncidentAnalyze | backend/core/views.py:297-320 | each of notes, impact, severity and category changes only when a truthy value is supplied; one event is appended; no other field changes |
| Views.EmptyAnalysisKeepsFields | backend/core/views.py:297-320 | an empty analysis changes nothing but the timeline |
| Views.IncidentRetry | backend/core/views.py:323-335 | the state becomes in progress, the count rises by one with no cap, one event is appended and one pipeline run is queued |
| Views.ManualRetriesAreUnbounded | backend/core/views.py:323-335 | n manual retries raise the count by exactly n and queue n runs, past any cap |
| Views.IncidentArchive | backend/core/views.py:338-349 | the archive time is set, the state becomes resolved, and one event is appended |
| Views.IncidentActionsAppendOnly | backend/core/views.py:249-349 | every incident action appends one event after the old timeline, keeps the id, upload, run, error, matched rule and cap, and leaves the state the action implies |
| Views.TicketAssign | backend/core/views.py:383-395 | a missing assignee is refused with 400; otherwise the ticket is assigned, put in progress, and gains one event |
| Views.AssignReopensResolvedTicket | backend/core/views.py:383-395 | assigning a resolved ticket puts it back in progress |
| Views.TicketResolveAction | backend/core/views.py:398-405 | a ticket already resolved is refused with 400; any other ticket is resolved by the engine through `Ticket.resolve`; a type left out becomes "manual" and notes left out become "", a `null` one is stored as `None`, and a given one as given; the linked incident's corrective action becomes the notes exactly when they are given and non-empty |
| Views.NullTypeIsNotManual | backend/core/views.py:401 | a `null` resolution type stores no type and is rendered "None" in the ticket's event, while a missing one stores and renders "manual" |
| Views.ResolveOnlyOnce | backend/core/views.py:398-405 | a second resolve of the same ticket is refused |
| Views.RequestedFormat | backend/core/views.py:413-415 | the format is "pdf" exactly when the lower-cased request says so, and "csv" in every other case |
| Views.ReportPrefix | backend/core/views.py:454-455 | the prefix is "summary" exactly when the mode is empty or strips and lower-cases to "transform_gradebook", and "processed" otherwise |
| Views.ModeNormalisationKeepsPrefix | backend/core/views.py:454-455 | storing a non-blank mode trimmed and lower-cased keeps its report prefix; a blank but non-empty mode gets the "processed" prefix |
| Views.DefaultModeGetsSummary | backend/core/views.py:454-455 | an empty mode and the default mode both get the "summary" prefix |
| Views.PlanFor | backend/core/views.py:448-455 | an unfinished run is refused with 409; otherwise the plan uses the requested format and the upload's prefix |
| Views.PlanReport | backend/core/views.py:410-455 | every plan has the requested format and the upload's prefix and, if it names a run, a finished one; every refusal is 400, 404, 409 or a server error; it is a server error exactly when the id consulted first (the run id if given, else the upload id) is not a UUID; without a run id there is a plan exactly when the upload id is a UUID naming an upload; with a known run id the run decides |
| Views.PlanByRun | backend/core/views.py:420-446 | a server error exactly when the run id is not a UUID; for a known run: a plan exactly when the run has an upload and is finished, for that upload and run; 409 exactly when it has an upload and is unfinished; for an unknown run: a plan exactly when an upload has that id, with no run; every other refusal is 400 or 404 |
| Views.RunIdTakesPrecedence | backend/core/views.py:420-437 | when a run id is given the upload id of the query does not matter |

## Left out

- Django ORM persistence: querysets, `save`, `get_or_create`, `get_queryset` filters and auto timestamps. Records are values and lookups are functions.
- The error path of seeding: `KnownError.pattern` is not unique (backend/core/models.py:218), so when the table already holds two rows with one default pattern, `get_or_create` at backend/core/workers.py:187 raises `MultipleObjectsReturned` and the job stops. `KnownErrors.SeedOne` treats such duplicates like a single stored row and goes on.
- Python's `re` engine: pattern matching is the abstract `Search` function, so no property depends on regex semantics.
- pandas and pdfplumber: CSV, Excel and PDF parsing, `to_numeric` coercion and `describe()` statistics (floating point) are parameters. This includes the report files and the report metadata the publish step writes.
- Step and run durations: every step takes one `now`, so durations are 0. The metrics ignore durations anyway.
- Redis/RQ: queueing is an effect value. `queues.py`, `scheduler.py`, `signals.py` and the worker commands are not part of this model.
- `run_custom_job` (backend/core/workers.py:345-373): dynamic module loading.
- `JobViewSet.trigger` (backend/core/views.py:217-221): it only hands a job to `enqueue_job_now` in `scheduler.py`, which is queue plumbing.
- Ticket creation (backend/core/views.py:368-380): serializer save with a default timeline, no logic of its own.
- `regenerate_report` and file serving (backend/core/views.py:40-120, 457-523): they depend on helpers that are not defined and on file I/O.
- `api_health`, `dashboard_metrics` and the `metrics_view` wrapper: I/O probes and a plain HTTP response around `get_metrics_data`.
- The build-info timestamp of the metrics text: it is wall-clock time, so it is a parameter.
- `automation/tasks.py`, migrations, `settings.py`, the URL configurations, `admin.py` and `serializers.py`: plumbing, schema and wiring.
- Concurrency: the read-modify-write race on a timeline is not sequential logic.
- Text.Lower: lower-cases ASCII letters only. Python's `str.lower` also maps non-ASCII letters. Every literal the code compares against is ASCII.
- Views.ParseProcessConfig: JSON decoding is a parameter. A byte string is taken as already decoded text.
- Permissions.RoleOf: the `"user"` fallback of `getattr` is not modelled, because every `User` record carries a stored role.
- Views.RequestedFormat: the model starts at the body of `reports_summary`. Django REST framework reads the `format` query parameter itself, to pick a renderer, before the view runs. Only the JSON renderer is configured (backend/config/settings.py:77), so a request with `?format=pdf` or `?format=csv` is probably refused with 404 before the body is reached. That content negotiation is not modelled.
- Incidents.AutoTriage: a stored fix whose `auto_retry.delay_seconds` is JSON `null` makes `timedelta(seconds=None)` raise `TypeError` at backend/core/workers.py:270 and the job stops there. `Fix` cannot hold that `null`, so the model reads it like a missing key and schedules the re-run after 60 seconds.
- The default known-error library is a parameter of the job (`KnownErrors.DefaultKnownErrors` holds the shipped list). This lets the proofs range over any library.
- RetryBudget.ThirdFailureStillRetries: stated with empty starting metrics, and only the number of queued re-runs is followed along the chain.

## Findings

| source | as written | input that shows it | evidently intended | confidence | as-written member | corrected member |
|---|---|---|---|---|---|---|
| backend/core/workers.py:283-319 | every failed run creates a fresh incident with `auto_retry_count` 0, so triage's cap at backend/core/workers.py:261 is checked against a new counter each time and every failure queues another re-run | an upload that keeps failing with "Resource temporarily unavailable" (a default rule with auto-retry and a maximum of 2): the third failure still queues a re-run, and so on without end | the retry count carries across incidents of the same upload and rule, so at most `max_auto_retries` automatic re-runs happen | medium; not executed | RetryBudget.ThirdFailureStillRetries | RetryBudget.ThirdFailureIsCapped |

The general forms are `RetryBudget.AsWrittenRetriesAreUnbounded` (n failures queue n re-runs) and `RetryBudget.CarriedRetriesAreCapped` (n failures queue at most the cap). The job model follows the code: `Pipeline.FailedJobRetriesFresh` states that each failed job queues a re-run whenever the matched rule retries. `RetryBudget.CorrectedJob` is the same job with the corrected creation, and `RetryBudget.JobRetryIsCapped` states that it respects the cap.

=== FILE: common.dfy ===
/** Small shared vocabulary: optional values, results with an error, and the
    opaque clock reading that every record stamps. */
module Common {

  /** Python's `None` or a value. */
  datatype Option<+T> = None | Some(value: T) {
    function GetOr(default: T): T {
      match this
      case Some(v) => v
      case None => default
    }
  }

  /** One key of a JSON request body: left out, sent as `null`, or sent with
      a value. */
  datatype Field<+T> = Absent | Null | Given(value: T) {
    /** `request.data.get(key, default)`: the default stands in only for a
        key that was left out; an explicit `null` reads as `None`. */
    function Get(default: T): (o: Option<T>)
      ensures o.None? <==> this.Null?
      ensures this.Absent? ==> o == Some(default)
      ensures this.Given? ==> o == Some(this.value)
    {
      match this
      case Absent => Some(default)
      case Null => None
      case Given(v) => Some(v)
    }
  }

  /** A computation that either produced a value or raised an exception whose
      `str()` is `error`. */
  datatype Result<+T, +E> = Ok(value: T) | Err(error: E)

  /** A reading of `timezone.now()`; its calendar meaning is not modelled. */
  type Timestamp = int

  /** Python truthiness of an optional string: `None` and `""` are falsy. */
  predicate Truthy(s: Option<string>) {
    s.Some? && s.value != ""
  }

  /** Python's `f"{s}"` of an optional string: `None` renders as "None". */
  function Show(s: Option<string>): string {
    match s
    case Some(v) => v
    case None => "None"
  }

  /** Python's `a or b` on optional strings. */
  function OrElse(a: Option<string>, b: Option<string>): (r: Option<string>)
    ensures Truthy(a) ==> r == a
    ensures !Truthy(a) ==> r == b
  {
    if Truthy(a) then a else b
  }

  /** Python's `a or "default"` where the default is a plain string. */
  function OrDefault(a: Option<string>, default: string): (r: string)
    ensures Truthy(a) ==> r == a.value
    ensures !Truthy(a) ==> r == default
  {
    if Truthy(a) then a.value else default
  }
}

=== FILE: incidents.dfy ===
/** The incident half of backend/core/workers.py: known-error matching,
    timeline appends, automatic triage with its retry counter, and the
    creation of an incident with its system ticket after a failed run. */
module Incidents {
  import opened Common
  import opened Models
  import opened Text
  import Metrics

  // ---------------------------------------------------------------------------
  // Known-error matching

  /** What `re.search(pattern, text, re.IGNORECASE)` does: find a match, find
      none, or raise `re.error` on a malformed pattern. */
  datatype MatchOutcome = Matched | NoMatch | Malformed

  /** The regular-expression engine, as a function of (pattern, text). */
  type Search = (string, string) -> MatchOutcome

  /** A rule takes part in the scan when active, and hits when its pattern matches. */
  predicate Hits(r: Rule, text: string, search: Search) {
    r.active && search(r.pattern, text) == Matched
  }

  /** Index of the first rule at or after `i` that hits. */
  function FirstHitFrom(rules: seq<Rule>, text: string, search: Search, i: nat): (r: Option<nat>)
    requires i <= |rules|
    ensures r.Some? ==> i <= r.value < |rules| && Hits(rules[r.value], text, search)
    ensures r.Some? ==> forall j :: i <= j < r.value ==> !Hits(rules[j], text, search)
    ensures r.None? ==> forall j :: i <= j < |rules| ==> !Hits(rules[j], text, search)
    decreases |rules| - i
  {
    if i == |rules| then None
    else if Hits(rules[i], text, search) then Some(i)
    else FirstHitFrom(rules, text, search, i + 1)
  }

  /** `_match_known_error`. `rules` is the library in the order the recency
      query returns it; inactive rules are filtered out, a malformed pattern is
      skipped, and the first matching rule wins. */
  function MatchKnownError(rules: seq<Rule>, text: string, search: Search): (r: Option<Rule>)
    ensures r.Some? ==> exists i :: 0 <= i < |rules| && rules[i] == r.value && Hits(rules[i], text, search)
                                     && forall j :: 0 <= j < i ==> !Hits(rules[j], text, search)
    ensures r.None? <==> forall j :: 0 <= j < |rules| ==> !Hits(rules[j], text, search)
  {
    match FirstHitFrom(rules, text, search, 0)
    case None => None
    case Some(i) => Some(rules[i])
  }

  /** The library as the query returns it: most recently updated first. */
  predicate RecencyOrdered(rules: seq<Rule>) {
    forall i, j :: 0 <= i < j < |rules| ==> rules[i].updatedAt >= rules[j].updatedAt
  }

  /** On a recency-ordered library the chosen rule is a most recently updated
      one among all rules that hit. */
  lemma MatchIsMostRecent(rules: seq<Rule>, text: string, search: Search)
    requires RecencyOrdered(rules)
    requires MatchKnownError(rules, text, search).Some?
    ensures forall j :: 0 <= j < |rules| && Hits(rules[j], text, search) ==>
      rules[j].updatedAt <= MatchKnownError(rules, text, search).value.updatedAt
  {
    var i :| 0 <= i < |rules| && rules[i] == MatchKnownError(rules, text, search).value
             && Hits(rules[i], text, search) && forall j :: 0 <= j < i ==> !Hits(rules[j], text, search);
    forall j | 0 <= j < |rules| && Hits(rules[j], text, search)
      ensures rules[j].updatedAt <= rules[i].updatedAt
    {
      assert i <= j;
    }
  }

  /** A malformed or inactive rule in front of the library changes nothing:
      the scan skips it instead of failing. */
  lemma SkippedRuleIsTransparent(bad: Rule, rules: seq<Rule>, text: string, search: Search)
    requires !bad.active || search(bad.pattern, text) != Matched
    ensures MatchKnownError([bad] + rules, text, search) == MatchKnownError(rules, text, search)
  {
    var all := [bad] + rules;
    FirstHitShift(bad, rules, text, search, 0);
  }

  lemma {:induction false} FirstHitShift(bad: Rule, rules: seq<Rule>, text: string, search: Search, i: nat)
    requires i <= |rules|
    ensures FirstHitFrom([bad] + rules, text, search, i + 1) ==
      match FirstHitFrom(rules, text, search, i)
      case None => None
      case Some(k) => Some(k + 1)
    decreases |rules| - i
  {
    var all := [bad] + rules;
    if i < |rules| {
      assert all[i + 1] == rules[i];
      FirstHitShift(bad, rules, text, search, i + 1);
    }
  }

  // ---------------------------------------------------------------------------
  // Timeline

  /** `_append_incident_event`: one entry stamped `now` is appended. */
  function AppendEvent(inc: Incident, event: string, actor: string, notes: Option<string>, now: Timestamp): (r: Incident)
    ensures |r.timeline| == |inc.timeline| + 1
    ensures r.timeline[..|inc.timeline|] == inc.timeline
    ensures r.timeline[|inc.timeline|] == Event(now, event, actor, notes)
    ensures r.(timeline := inc.timeline) == inc
  {
    inc.(timeline := inc.timeline + [Event(now, event, actor, notes)])
  }

  // ---------------------------------------------------------------------------
  // Queue effects

  /** A request handed to the job queue: run the pipeline for an upload now,
      or after a delay in seconds. */
  datatype Effect = RunPipelineNow(uploadId: string) | RunPipelineLater(delaySeconds: int, uploadId: string)

  // ---------------------------------------------------------------------------
  // Automatic triage

  const UnknownIncidentEvent: string := "Unknown incident awaiting manual triage"
  const RetryScheduledEvent: string := "Auto retry scheduled"
  const RetryLimitEvent: string := "Auto retry limit reached"
  const KnownErrorEvent: string := "Known error tagged"
  const DefaultRetryDelay: int := 60

  /** `fix.get("auto_retry") or {}`. */
  function RetryPolicy(fix: Fix): AutoRetry {
    fix.autoRetry.GetOr(AutoRetry(false, None, None))
  }

  /** The retry cap after triage: a truthy `max` of an enabled policy replaces
      the incident's own cap. */
  function EffectiveMax(inc: Incident, fix: Fix): int {
    var cfg := RetryPolicy(fix);
    if cfg.enabled && cfg.max.Some? && cfg.max.value != 0 then cfg.max.value else inc.maxAutoRetries
  }

  /** Whether triage with this rule schedules a delayed re-run. */
  predicate RetryFires(inc: Incident, fix: Fix) {
    RetryPolicy(fix).enabled && inc.autoRetryCount < EffectiveMax(inc, fix)
  }

  /** The field merge of triage: severity and category are overwritten when
      the fix supplies them; root cause, corrective action and resolution
      report are filled only where the incident has none. */
  function MergeFix(inc: Incident, fix: Fix): (r: Incident)
    ensures r == inc.(severity := r.severity, category := r.category, rootCause := r.rootCause,
                      correctiveAction := r.correctiveAction, resolutionReport := r.resolutionReport)
    ensures Truthy(fix.severity) ==> r.severity == fix.severity.value
    ensures !Truthy(fix.severity) ==> r.severity == inc.severity
    ensures Truthy(fix.category) ==> r.category == fix.category
    ensures !Truthy(fix.category) ==> r.category == inc.category
    ensures Truthy(inc.rootCause) || !Truthy(fix.rootCause) ==> r.rootCause == inc.rootCause
    ensures !Truthy(inc.rootCause) && Truthy(fix.rootCause) ==> r.rootCause == fix.rootCause
    ensures Truthy(inc.correctiveAction) || !Truthy(fix.correctiveAction) ==> r.correctiveAction == inc.correctiveAction
    ensures !Truthy(inc.correctiveAction) && Truthy(fix.correctiveAction) ==> r.correctiveAction == fix.correctiveAction
    ensures Truthy(inc.resolutionReport) || !Truthy(fix.resolutionReport) ==> r.resolutionReport == inc.resolutionReport
    ensures !Truthy(inc.resolutionReport) && Truthy(fix.resolutionReport) ==> r.resolutionReport == fix.resolutionReport
  {
    inc.(severity := if Truthy(fix.severity) then fix.severity.value else inc.severity,
         category := if Truthy(fix.category) then fix.category else inc.category,
         rootCause := if Truthy(fix.rootCause) && !Truthy(inc.rootCause) then fix.rootCause else inc.rootCause,
         correctiveAction :=
           if Truthy(fix.correctiveAction) && !Truthy(inc.correctiveAction) then fix.correctiveAction
           else inc.correctiveAction,
         resolutionReport :=
           if Truthy(fix.resolutionReport) && !Truthy(inc.resolutionReport) then fix.resolutionReport
           else inc.resolutionReport)
  }

  datatype Triage = Triage(incident: Incident, effects: seq<Effect>)

  /** `_auto_triage_incident(incident, matched, run)`, where `jobName` is
      `run.job.name`. Exactly one timeline entry is appended. */
  function AutoTriage(inc: Incident, matched: Option<Rule>, jobName: string, now: Timestamp): (r: Triage)
    ensures |r.incident.timeline| == |inc.timeline| + 1
    ensures r.incident.timeline[..|inc.timeline|] == inc.timeline
    ensures r.incident.timeline[|inc.timeline|].timestamp == now
    ensures r.incident.timeline[|inc.timeline|].actor == "engine"
    // no rule: one "awaiting manual triage" entry and nothing else
    ensures matched.None? ==>
      && r.incident.(timeline := inc.timeline) == inc
      && r.incident.timeline[|inc.timeline|].event == UnknownIncidentEvent
      && r.incident.timeline[|inc.timeline|].notes.None?
      && r.effects == []
    // a rule: merge the fix, then run the retry state machine
    ensures matched.Some? ==>
      var fix := matched.value.fix;
      var merged := MergeFix(inc, fix);
      && r.incident.(timeline := inc.timeline, maxAutoRetries := inc.maxAutoRetries,
                     autoRetryCount := inc.autoRetryCount, state := inc.state) == merged
      && r.incident.maxAutoRetries == EffectiveMax(inc, fix)
      && (RetryFires(inc, fix) ==>
            && r.incident.autoRetryCount == inc.autoRetryCount + 1
            && r.incident.state == InProgress
            && r.incident.timeline[|inc.timeline|].event == RetryScheduledEvent
            && r.incident.timeline[|inc.timeline|].notes
               == Some("Retry #" + IntToString(inc.autoRetryCount + 1) + " queued in "
                       + IntToString(RetryPolicy(fix).delaySeconds.GetOr(DefaultRetryDelay)) + "s for " + jobName)
            && r.effects == [RunPipelineLater(RetryPolicy(fix).delaySeconds.GetOr(DefaultRetryDelay), inc.uploadId)])
      && (!RetryFires(inc, fix) ==>
            && r.incident.autoRetryCount == inc.autoRetryCount
            && r.incident.state == inc.state
            && r.effects == [])
      && (RetryPolicy(fix).enabled && !RetryFires(inc, fix) ==>
            && r.incident.timeline[|inc.timeline|].event == RetryLimitEvent
            && r.incident.timeline[|inc.timeline|].notes
               == Some("Max retries (" + IntToString(EffectiveMax(inc, fix)) + ") exhausted for " + jobName))
      && (!RetryPolicy(fix).enabled ==>
            r.incident.timeline[|inc.timeline|] == Event(now, KnownErrorEvent, "engine", Some("Matched " + matched.value.name)))
  {
    match matched
    case None =>
      Triage(AppendEvent(inc, UnknownIncidentEvent, "engine", None, now), [])
    case Some(rule) =>
      var fix := rule.fix;
      var cfg := RetryPolicy(fix);
      var merged := MergeFix(inc, fix).(maxAutoRetries := EffectiveMax(inc, fix));
      if cfg.enabled then
        var delay := cfg.delaySeconds.GetOr(DefaultRetryDelay);
        if merged.autoRetryCount < merged.maxAutoRetries then
          var bumped := merged.(autoRetryCount := merged.autoRetryCount + 1, state := InProgress);
          var notes := "Retry #" + IntToString(bumped.autoRetryCount) + " queued in " + IntToString(delay)
                       + "s for " + jobName;
          Triage(AppendEvent(bumped, RetryScheduledEvent, "engine", Some(notes), now),
                 [RunPipelineLater(delay, inc.uploadId)])
        else
          var notes := "Max retries (" + IntToString(merged.maxAutoRetries) + ") exhausted for " + jobName;
          Triage(AppendEvent(merged, RetryLimitEvent, "engine", Some(notes), now), [])
      else
        Triage(AppendEvent(merged, KnownErrorEvent, "engine", Some("Matched " + rule.name), now), [])
  }

  /** Triage never pushes the retry counter past the cap: either the counter
      is unchanged or it is at most the (possibly updated) cap. It schedules at
      most one re-run, and only together with a counter increment. */
  lemma TriageRespectsRetryCap(inc: Incident, matched: Option<Rule>, jobName: string, now: Timestamp)
    ensures var r := AutoTriage(inc, matched, jobName, now);
      && (r.incident.autoRetryCount == inc.autoRetryCount || r.incident.autoRetryCount <= r.incident.maxAutoRetries)
      && r.incident.autoRetryCount - inc.autoRetryCount == |r.effects| <= 1
      && (inc.autoRetryCount <= inc.maxAutoRetries && inc.maxAutoRetries == r.incident.maxAutoRetries ==>
            r.incident.autoRetryCount <= r.incident.maxAutoRetries)
  {
  }

  /** One round of triage of an incident. */
  type Triager = Incident -> Triage

  /** `n` rounds of `step`, each on the incident the one before left. */
  function RoundsOf(inc: Incident, step: Triager, n: nat): Triage
    decreases n
  {
    if n == 0 then Triage(inc, [])
    else
      var first := step(inc);
      var rest := RoundsOf(first.incident, step, n - 1);
      Triage(rest.incident, first.effects + rest.effects)
  }

  /** Triage repeated on the same incident with the same rule. */
  function TriageRounds(inc: Incident, rule: Rule, jobName: string, now: Timestamp, n: nat): Triage {
    RoundsOf(inc, i => AutoTriage(i, Some(rule), jobName, now), n)
  }

  /** `step` counts towards the cap `cap`: on an incident with that cap and a
      counter within it, the counter moves one step towards the cap, a re-run
      is scheduled exactly when it moves, the cap stays, and one timeline
      entry is added. */
  ghost predicate Saturates(step: Triager, cap: int) {
    forall i: Incident :: i.maxAutoRetries == cap && 0 <= i.autoRetryCount <= cap ==>
      var next := step(i).incident;
      && next.maxAutoRetries == cap
      && next.autoRetryCount == (if i.autoRetryCount < cap then i.autoRetryCount + 1 else cap)
      && |step(i).effects| == next.autoRetryCount - i.autoRetryCount
      && |next.timeline| == |i.timeline| + 1
  }

  /** Rounds of a step that counts towards the cap raise the counter to the
      cap and no further. */
  lemma {:induction false} RoundsSaturate(inc: Incident, step: Triager, n: nat)
    requires Saturates(step, inc.maxAutoRetries)
    requires 0 <= inc.autoRetryCount <= inc.maxAutoRetries
    ensures var r := RoundsOf(inc, step, n);
      var expected := if inc.autoRetryCount + n <= inc.maxAutoRetries then inc.autoRetryCount + n
                      else inc.maxAutoRetries;
      && r.incident.autoRetryCount == expected
      && r.incident.maxAutoRetries == inc.maxAutoRetries
      && |r.effects| == expected - inc.autoRetryCount
      && |r.incident.timeline| == |inc.timeline| + n
    decreases n
  {
    if n > 0 {
      RoundsSaturate(step(inc).incident, step, n - 1);
    }
  }

  /** Triage with an enabled retry policy counts towards the cap the policy
      puts in place. */
  lemma TriageSaturates(rule: Rule, jobName: string, now: Timestamp, cap: int)
    requires RetryPolicy(rule.fix).enabled
    requires var cfg := RetryPolicy(rule.fix); cfg.max.Some? && cfg.max.value != 0 ==> cfg.max.value == cap
    ensures Saturates(i => AutoTriage(i, Some(rule), jobName, now), cap)
  {
    var step: Triager := i => AutoTriage(i, Some(rule), jobName, now);
    forall i: Incident | i.maxAutoRetries == cap && 0 <= i.autoRetryCount <= cap
      ensures var next := step(i).incident;
        && next.maxAutoRetries == cap
        && next.autoRetryCount == (if i.autoRetryCount < cap then i.autoRetryCount + 1 else cap)
        && |step(i).effects| == next.autoRetryCount - i.autoRetryCount
        && |next.timeline| == |i.timeline| + 1
    {
      TriageStep(i, rule, jobName, now);
    }
  }

  /** Triage repeated on the same incident with an enabled retry policy raises
      the counter to the cap and no further: `n` rounds leave it at
      `min(count + n, cap)`, and the rounds past the cap schedule nothing. */
  lemma RepeatedTriageSaturates(inc: Incident, rule: Rule, jobName: string, now: Timestamp, n: nat)
    requires RetryPolicy(rule.fix).enabled
    requires EffectiveMax(inc, rule.fix) == inc.maxAutoRetries
    requires 0 <= inc.autoRetryCount <= inc.maxAutoRetries
    ensures var r := TriageRounds(inc, rule, jobName, now, n);
      var expected := if inc.autoRetryCount + n <= inc.maxAutoRetries then inc.autoRetryCount + n
                      else inc.maxAutoRetries;
      && r.incident.autoRetryCount == expected
      && r.incident.maxAutoRetries == inc.maxAutoRetries
      && |r.effects| == expected - inc.autoRetryCount
      && |r.incident.timeline| == |inc.timeline| + n
  {
    TriageSaturates(rule, jobName, now, inc.maxAutoRetries);
    RoundsSaturate(inc, i => AutoTriage(i, Some(rule), jobName, now), n);
  }

  /** One round of `TriageRounds` under an enabled policy whose cap is already
      in place: the counter moves one step towards the cap, a re-run is
      scheduled exactly when it moves, and the cap stays in place. */
  lemma TriageStep(inc: Incident, rule: Rule, jobName: string, now: Timestamp)
    requires RetryPolicy(rule.fix).enabled
    requires EffectiveMax(inc, rule.fix) == inc.maxAutoRetries
    requires 0 <= inc.autoRetryCount <= inc.maxAutoRetries
    ensures var first := AutoTriage(inc, Some(rule), jobName, now).incident;
      && first.maxAutoRetries == inc.maxAutoRetries
      && EffectiveMax(first, rule.fix) == first.maxAutoRetries
      && first.autoRetryCount == (if inc.autoRetryCount < inc.maxAutoRetries then inc.autoRetryCount + 1
                                  else inc.autoRetryCount)
      && |AutoTriage(inc, Some(rule), jobName, now).effects| == first.autoRetryCount - inc.autoRetryCount
      && |first.timeline| == |inc.timeline| + 1
  {
  }

  // ---------------------------------------------------------------------------
  // Incident and ticket creation

  const IncidentDetectedEvent: string := "Incident detected"
  const SystemTicketEvent: string := "System ticket created"

  datatype Creation = Creation(incident: Incident, ticket: Ticket, effects: seq<Effect>, metrics: Metrics.Metrics)

  /** `fix.get("root_cause") or fix.get("rca")` of the matched rule, if any. */
  function SeedRootCause(matched: Option<Rule>): Option<string> {
    if matched.Some? then OrElse(matched.value.fix.rootCause, matched.value.fix.rca) else None
  }

  /** `fix.get("corrective_action") or fix.get("action")` of the matched rule. */
  function SeedCorrectiveAction(matched: Option<Rule>): Option<string> {
    if matched.Some? then OrElse(matched.value.fix.correctiveAction, matched.value.fix.action) else None
  }

  /** The record `Incident.objects.create(...)` stores, with the model defaults
      (severity medium, cap 2) and `retries` retries already counted (the
      source always starts from none). */
  function NewIncident(incidentId: string, uploadId: string, runId: string, matched: Option<Rule>, errorText: string,
                       retries: nat): Incident {
    Incident(
      id := incidentId, uploadId := uploadId, jobRunId := Some(runId),
      matchedRule := if matched.Some? then Some(matched.value.id) else None,
      error := errorText,
      rootCause := SeedRootCause(matched), correctiveAction := SeedCorrectiveAction(matched),
      impactSummary := None, analysisNotes := None, resolutionReport := None,
      severity := DefaultSeverity, category := None, detectionSource := Some("engine"),
      timeline := [], autoRetryCount := retries, maxAutoRetries := DefaultMaxAutoRetries,
      archivedAt := None, resolvedBy := None, resolvedAt := None,
      state := Open, assignee := None)
  }

  /** The ticket the engine opens on a new incident: system-sourced, already
      in progress, assigned to the engine. */
  function SystemTicket(ticketId: string, incidentId: string, jobName: string, errorText: string, now: Timestamp): Ticket {
    Ticket(
      id := ticketId, incident := Some(incidentId), source := SystemSource, status := TicketInProgress,
      assignee := Some("engine"), createdBy := None, resolvedBy := None, resolutionType := None,
      resolutionNotes := None, timeline := [Event(now, SystemTicketEvent, "system", None)],
      title := Some("Auto ticket: " + jobName), description := Some(Truncate(errorText, 500)),
      resolvedAt := None)
  }

  /** The cap a fresh incident ends up with after triage by `fix`. */
  function FreshCap(fix: Fix): int {
    var cfg := RetryPolicy(fix);
    if cfg.enabled && cfg.max.Some? && cfg.max.value != 0 then cfg.max.value else DefaultMaxAutoRetries
  }

  /** The matched rule, if any, retries a fresh incident. */
  predicate FiresFresh(matched: Option<Rule>) {
    matched.Some? && RetryPolicy(matched.value.fix).enabled && FreshCap(matched.value.fix) >= 1
  }

  /** The rule matched for `errorText`, if any, retries a fresh incident. */
  predicate RetriesFresh(rules: seq<Rule>, errorText: string, search: Search) {
    FiresFresh(MatchKnownError(rules, errorText, search))
  }

  /** What triage makes of a freshly detected incident: the entry it adds
      after the detection entry, the re-run it schedules, the fields it takes
      over from the matched rule's fix, and those that stay empty. */
  ghost predicate FreshlyTriaged(inc: Incident, effects: seq<Effect>, matched: Option<Rule>, uploadId: string,
                                 jobName: string, now: Timestamp) {
    && |inc.timeline| == 2
    && inc.correctiveAction == SeedCorrectiveAction(matched)
    && (|effects| == 1 <==> FiresFresh(matched))
    && (|effects| == 1 ==>
          && inc.state == InProgress
          && effects[0] == RunPipelineLater(RetryPolicy(matched.value.fix).delaySeconds.GetOr(DefaultRetryDelay), uploadId))
    && inc.timeline[1].timestamp == now && inc.timeline[1].actor == "engine"
    && inc.timeline[1].event
       == (if matched.None? then UnknownIncidentEvent
           else if !RetryPolicy(matched.value.fix).enabled then KnownErrorEvent
           else if FiresFresh(matched) then RetryScheduledEvent
           else RetryLimitEvent)
    && inc.timeline[1].notes
       == (if matched.None? then None
           else if !RetryPolicy(matched.value.fix).enabled then Some("Matched " + matched.value.name)
           else if FiresFresh(matched) then
             Some("Retry #1 queued in " + IntToString(RetryPolicy(matched.value.fix).delaySeconds.GetOr(DefaultRetryDelay))
                  + "s for " + jobName)
           else Some("Max retries (" + IntToString(FreshCap(matched.value.fix)) + ") exhausted for " + jobName))
    && inc.resolutionReport
       == (if matched.Some? && Truthy(matched.value.fix.resolutionReport) then matched.value.fix.resolutionReport else None)
    && inc.analysisNotes.None? && inc.impactSummary.None?
    && inc.resolvedBy.None? && inc.resolvedAt.None? && inc.archivedAt.None?
    && (matched.Some? ==>
          var fix := matched.value.fix;
          && inc.maxAutoRetries == FreshCap(fix)
          && inc.severity == (if Truthy(fix.severity) then fix.severity.value else DefaultSeverity)
          && inc.category == (if Truthy(fix.category) then fix.category else None))
  }

  /** Triage of an incident that has just been detected: no retry yet, the
      default cap, one timeline entry and no report, analysis or resolution.
      The entry it adds and the report it takes over depend on the rule
      alone. */
  lemma FreshTriage(inc: Incident, matched: Option<Rule>, jobName: string, now: Timestamp)
    requires inc.autoRetryCount == 0 && inc.maxAutoRetries == DefaultMaxAutoRetries && |inc.timeline| == 1
    requires inc.resolutionReport.None? && inc.analysisNotes.None? && inc.impactSummary.None?
    requires inc.resolvedBy.None? && inc.resolvedAt.None? && inc.archivedAt.None?
    requires inc.correctiveAction == SeedCorrectiveAction(matched) && inc.state == Open
    requires inc.severity == DefaultSeverity && inc.category.None?
    ensures var t := AutoTriage(inc, matched, jobName, now);
      FreshlyTriaged(t.incident, t.effects, matched, inc.uploadId, jobName, now)
  {
    assert IntToString(1) == "1" by { assert NatToString(1) == [DigitChar(1)]; }
    assert "Retry #" + "1" + " queued in " == "Retry #1 queued in ";
    if matched.Some? {
      assert EffectiveMax(inc, matched.value.fix) == FreshCap(matched.value.fix);
    }
  }

  /** `_create_incident_and_ticket(upload, run, error_text)`: a new incident
      linked to the upload, the run and the matched rule, one system ticket
      working on it, then triage, then one "open" incident metric. */
  function CreateIncidentAndTicket(
    uploadId: string, runId: string, jobName: string, errorText: string,
    rules: seq<Rule>, search: Search, incidentId: string, ticketId: string, now: Timestamp,
    m: Metrics.Metrics): (r: Creation)
    requires Metrics.Valid(m)
    ensures var matched := MatchKnownError(rules, errorText, search);
      var inc := r.incident;
      && inc.id == incidentId && inc.uploadId == uploadId && inc.jobRunId == Some(runId)
      && inc.error == errorText
      && inc.detectionSource == Some("engine") && inc.assignee.None?
      && (inc.matchedRule.Some? <==> matched.Some?)
      && (matched.Some? ==> inc.matchedRule == Some(matched.value.id))
      && inc.rootCause == SeedRootCause(matched)
      && (matched.None? ==>
            && inc.state == Open && inc.autoRetryCount == 0 && inc.severity == DefaultSeverity
            && inc.category.None? && inc.maxAutoRetries == DefaultMaxAutoRetries)
      && (inc.state == Open || (inc.state == InProgress && inc.autoRetryCount == 1))
      && inc.autoRetryCount == |r.effects| <= 1
      && |inc.timeline| == 2
      && inc.timeline[0] == Event(now, IncidentDetectedEvent, "engine", Some(Truncate(errorText, 280)))
    // what triage makes of the fresh incident
    ensures FreshlyTriaged(r.incident, r.effects, MatchKnownError(rules, errorText, search), uploadId, jobName, now)
    ensures |r.effects| == 1 <==> RetriesFresh(rules, errorText, search)
    ensures var t := r.ticket;
      && t.id == ticketId && t.incident == Some(incidentId)
      && t.source == SystemSource && t.status == TicketInProgress
      && t.assignee == Some("engine")
      && t.title == Some("Auto ticket: " + jobName)
      && t.description == Some(Truncate(errorText, 500))
      && t.timeline == [Event(now, SystemTicketEvent, "system", None)]
    ensures forall e :: e in r.effects ==> e.RunPipelineLater? && e.uploadId == uploadId
    ensures Metrics.Valid(r.metrics)
    ensures r.metrics.jobs == m.jobs
    ensures Metrics.Count(r.metrics.incidents, ["open"]) == Metrics.Count(m.incidents, ["open"]) + 1
    ensures forall key :: key != ["open"] ==> Metrics.Count(r.metrics.incidents, key) == Metrics.Count(m.incidents, key)
  {
    var matched := MatchKnownError(rules, errorText, search);
    var created := NewIncident(incidentId, uploadId, runId, matched, errorText, 0);
    var detected := AppendEvent(created, IncidentDetectedEvent, "engine", Some(Truncate(errorText, 280)), now);
    var ticket := SystemTicket(ticketId, incidentId, jobName, errorText, now);
    var triaged := AutoTriage(detected, matched, jobName, now);
    TriageRespectsRetryCap(detected, matched, jobName, now);
    FreshTriage(detected, matched, jobName, now);
    Creation(triaged.incident, ticket, triaged.effects, Metrics.RecordIncidentMetric(m, "open"))
  }
}

=== FILE: known_errors.dfy ===
/** The built-in known-error library of backend/core/workers.py and
    `_ensure_default_known_errors`, which seeds it into the rule table with
    get-or-create semantics keyed by pattern. */
module KnownErrors {
  import opened Common
  import opened Models
  import opened Text

  /** One entry of `DEFAULT_KNOWN_ERRORS`. */
  datatype Seed = Seed(name: string, pattern: string, fix: Fix)

  /** A fix payload with the five descriptive keys and no retry policy. */
  function Described(severity: string, category: string, rootCause: string, action: string, report: string): Fix {
    Fix(Some(severity), Some(category), Some(rootCause), None, Some(action), None, Some(report), None)
  }

  /** `DEFAULT_KNOWN_ERRORS`, in the order of the source. */
  const DefaultKnownErrors: seq<Seed> := [
    Seed("No columns detected", "No columns detected",
      Described("high", "ingest",
        "The uploaded file has no header row or could not be parsed into columns.",
        "Ensure the first row contains column names and re-export the file as a well-formed CSV or Excel file.",
        "Pipeline rejected the file before validation because the schema was empty.")),
    Seed("No rows detected", "No rows detected",
      Described("medium", "ingest",
        "The uploaded file is empty or only contains a header row.",
        "Verify the source system is exporting data and re-upload a file with at least one data row.",
        "Upload completed but zero records were available for processing.")),
    Seed("Required columns missing", "Required columns missing",
      Described("high", "schema",
        "The file schema does not match the expected template for this department.",
        "Update the export to include all required columns (e.g. student_id, score) and re-upload.",
        "Schema validation blocked the job until the template is fixed.")),
    Seed("Unsupported file type", "Unsupported file type",
      Described("low", "ingest",
        "The file extension is not supported by the pipeline loader.",
        "Convert the file to CSV, XLSX/XLS or a tabular PDF and try again.",
        "Rejected because the parser could not infer a loader.")),
    Seed("No table found in first PDF page", "No table found in first PDF page",
      Described("medium", "ingest",
        "The PDF does not contain an extractable table on the first page.",
        "Export the results as a table-based PDF or use CSV/Excel instead.",
        "PDF extraction returned zero tables.")),
    Seed("File not found", "File not found",
      Fix(Some("critical"), Some("storage"),
        Some("The on-disk file path for this upload is missing or has been moved."), None,
        Some("Re-upload the original file so the pipeline can access it again."), None,
        None, Some(AutoRetry(false, None, None)))),
    Seed("Temporary storage lock", "(Resource temporarily unavailable|share violation)",
      Fix(Some("medium"), Some("infrastructure"),
        Some("The storage layer briefly locked the file when the pipeline tried to read it."), None,
        Some("No manual action required unless the issue persists. The engine retries automatically."), None,
        Some("Storage lock cleared after retry."), Some(AutoRetry(true, Some(2), Some(45))))),
    Seed("Encoding mismatch", "(UnicodeDecodeError|codec can't decode)",
      Described("high", "ingest",
        "The CSV encoding differs from UTF-8.",
        "Re-export the source file as UTF-8 or specify UTF-8 BOM.",
        "Parser failed while decoding file contents.")),
    Seed("Grade outside range", "(score must be between|value out of range)",
      Described("medium", "validation",
        "One or more numeric fields contain values outside the permitted range.",
        "Review the highlighted rows and correct the data before re-uploading.",
        "Validation rejected the payload due to data quality issues.")),
    Seed("Duplicate student rows", "Duplicate rows detected",
      Described("medium", "validation",
        "The upload contains duplicate student IDs.",
        "Deduplicate records in the source file and upload again.",
        "Encountered duplicate keys while enforcing uniqueness."))
  ]

  /** Some stored rule, active or not, has pattern `p`. */
  predicate HasPattern(rules: seq<Rule>, p: string) {
    exists i :: 0 <= i < |rules| && rules[i].pattern == p
  }

  /** The rule a seed becomes when it is created: active, stamped `now`. */
  function Created(s: Seed, id: string, now: Timestamp): Rule {
    Rule(id, s.name, s.pattern, s.fix, true, now)
  }

  /** `rule` is what creating one of `seeds` at time `now` produces. */
  predicate FromSeed(rule: Rule, seeds: seq<Seed>, now: Timestamp) {
    exists j :: 0 <= j < |seeds| && rule == Created(seeds[j], rule.id, now)
  }

  /** Every pattern of `seeds` is stored in `rules`. */
  predicate Covers(rules: seq<Rule>, seeds: seq<Seed>) {
    forall j :: 0 <= j < |seeds| ==> HasPattern(rules, seeds[j].pattern)
  }

  /** `KnownError.objects.get_or_create(pattern=...)` for one seed. A created
      rule is the most recently updated, so it goes to the front of the
      library in recency order. */
  function SeedOne(rules: seq<Rule>, s: Seed, id: string, now: Timestamp): seq<Rule> {
    if HasPattern(rules, s.pattern) then rules else [Created(s, id, now)] + rules
  }

  /** The seeds in `seeds` missing from `rules` are created, in order, with
      ids drawn from `nextId` on; the stored rules are never touched. */
  function EnsureDefaults(rules: seq<Rule>, seeds: seq<Seed>, nextId: nat, now: Timestamp): (r: seq<Rule>)
    ensures |rules| <= |r| && r[|r| - |rules|..] == rules
    ensures Covers(r, seeds)
    ensures forall i :: 0 <= i < |r| - |rules| ==>
      && r[i].active && r[i].updatedAt == now
      && !HasPattern(rules, r[i].pattern)
      && FromSeed(r[i], seeds, now)
    ensures Covers(rules, seeds) ==> r == rules
    decreases |seeds|
  {
    if seeds == [] then rules
    else
      var once := SeedOne(rules, seeds[0], NatToString(nextId), now);
      var r := EnsureDefaults(once, seeds[1..], nextId + 1, now);
      DefaultsStep(rules, seeds, once, r, NatToString(nextId), now);
      r
  }

  /** One seed of `EnsureDefaults`: what the rest of the seeds guarantee
      about `r` over `once` carries over to `rules`. */
  lemma DefaultsStep(rules: seq<Rule>, seeds: seq<Seed>, once: seq<Rule>, r: seq<Rule>, id: string, now: Timestamp)
    requires seeds != [] && once == SeedOne(rules, seeds[0], id, now)
    requires |once| <= |r| && r[|r| - |once|..] == once
    requires Covers(r, seeds[1..])
    requires forall i :: 0 <= i < |r| - |once| ==>
      && r[i].active && r[i].updatedAt == now
      && !HasPattern(once, r[i].pattern)
      && FromSeed(r[i], seeds[1..], now)
    requires Covers(once, seeds[1..]) ==> r == once
    ensures |rules| <= |r| && r[|r| - |rules|..] == rules
    ensures Covers(r, seeds)
    ensures forall i :: 0 <= i < |r| - |rules| ==>
      && r[i].active && r[i].updatedAt == now
      && !HasPattern(rules, r[i].pattern)
      && FromSeed(r[i], seeds, now)
    ensures Covers(rules, seeds) ==> r == rules
  {
    SeedOneFacts(rules, seeds[0], id, now);
    SuffixOfSuffix(r, once, rules);
    SuffixPatterns(once, rules);
    StepCreated(rules, seeds, once, r, now);
    StepCovers(seeds, once, r);
    StepNoop(rules, seeds, once, r);
  }

  /** A suffix of a suffix is a suffix. */
  lemma SuffixOfSuffix(a: seq<Rule>, b: seq<Rule>, c: seq<Rule>)
    requires |b| <= |a| && a[|a| - |b|..] == b
    requires |c| <= |b| && b[|b| - |c|..] == c
    ensures a[|a| - |c|..] == c
  {
    assert a[|a| - |c|..] == b[|b| - |c|..];
  }

  /** Every pattern of a suffix is a pattern of the whole. */
  lemma SuffixPatterns(a: seq<Rule>, b: seq<Rule>)
    requires |b| <= |a| && a[|a| - |b|..] == b
    ensures forall p :: HasPattern(b, p) ==> HasPattern(a, p)
  {
    forall p | HasPattern(b, p) ensures HasPattern(a, p) {
      var k :| 0 <= k < |b| && b[k].pattern == p;
      assert a[|a| - |b| + k] == b[k];
    }
  }

  lemma StepCreated(rules: seq<Rule>, seeds: seq<Seed>, once: seq<Rule>, r: seq<Rule>, now: Timestamp)
    requires seeds != [] && |rules| <= |once| <= |r| && r[|r| - |once|..] == once
    requires forall p :: HasPattern(rules, p) ==> HasPattern(once, p)
    requires |once| == |rules| || (|once| == |rules| + 1 && once[0] == Created(seeds[0], once[0].id, now)
                                   && !HasPattern(rules, seeds[0].pattern))
    requires forall i :: 0 <= i < |r| - |once| ==>
      && r[i].active && r[i].updatedAt == now
      && !HasPattern(once, r[i].pattern)
      && FromSeed(r[i], seeds[1..], now)
    ensures forall i :: 0 <= i < |r| - |rules| ==>
      && r[i].active && r[i].updatedAt == now
      && !HasPattern(rules, r[i].pattern)
      && FromSeed(r[i], seeds, now)
  {
    forall i | 0 <= i < |r| - |rules|
      ensures r[i].active && r[i].updatedAt == now && !HasPattern(rules, r[i].pattern)
      ensures FromSeed(r[i], seeds, now)
    {
      if i < |r| - |once| {
        var j :| 0 <= j < |seeds[1..]| && r[i] == Created(seeds[1..][j], r[i].id, now);
        assert r[i] == Created(seeds[j + 1], r[i].id, now);
      } else {
        assert r[i] == once[0];
      }
    }
  }

  lemma StepCovers(seeds: seq<Seed>, once: seq<Rule>, r: seq<Rule>)
    requires seeds != [] && |once| <= |r| && r[|r| - |once|..] == once
    requires HasPattern(once, seeds[0].pattern)
    requires Covers(r, seeds[1..])
    ensures Covers(r, seeds)
  {
    SuffixPatterns(r, once);
    forall j | 0 <= j < |seeds| ensures HasPattern(r, seeds[j].pattern) {
      if j > 0 {
        assert seeds[j] == seeds[1..][j - 1];
      }
    }
  }

  lemma StepNoop(rules: seq<Rule>, seeds: seq<Seed>, once: seq<Rule>, r: seq<Rule>)
    requires seeds != []
    requires HasPattern(rules, seeds[0].pattern) ==> once == rules
    requires Covers(once, seeds[1..]) ==> r == once
    ensures Covers(rules, seeds) ==> r == rules
  {
    if Covers(rules, seeds) {
      assert HasPattern(rules, seeds[0].pattern);
      forall j | 0 <= j < |seeds[1..]| ensures HasPattern(once, seeds[1..][j].pattern) {
        assert seeds[1..][j] == seeds[j + 1];
      }
    }
  }

  lemma SeedOneFacts(rules: seq<Rule>, s: Seed, id: string, now: Timestamp)
    ensures var once := SeedOne(rules, s, id, now);
      && |rules| <= |once| && once[|once| - |rules|..] == rules
      && HasPattern(once, s.pattern)
      && (HasPattern(rules, s.pattern) ==> once == rules)
      && (|once| == |rules| || (|once| == |rules| + 1 && once[0] == Created(s, id, now) && !HasPattern(rules, s.pattern)))
  {
    var once := SeedOne(rules, s, id, now);
    if !HasPattern(rules, s.pattern) {
      assert once[0].pattern == s.pattern;
    }
  }

  /** `_ensure_default_known_errors()`: the whole default library. */
  function EnsureDefaultKnownErrors(rules: seq<Rule>, nextId: nat, now: Timestamp): seq<Rule> {
    EnsureDefaults(rules, DefaultKnownErrors, nextId, now)
  }

  /** Seeding is safe to repeat: a second pass finds every pattern present
      and changes nothing. */
  lemma SeedingIsIdempotent(rules: seq<Rule>, seeds: seq<Seed>, nextId: nat, nextId': nat, now: Timestamp, now': Timestamp)
    ensures var once := EnsureDefaults(rules, seeds, nextId, now);
      EnsureDefaults(once, seeds, nextId', now') == once
  {
  }

  /** Seeding keeps the library in recency order as long as the clock has not
      gone backwards. */
  lemma SeedingKeepsRecencyOrder(rules: seq<Rule>, seeds: seq<Seed>, nextId: nat, now: Timestamp)
    requires forall i, j :: 0 <= i < j < |rules| ==> rules[i].updatedAt >= rules[j].updatedAt
    requires forall i :: 0 <= i < |rules| ==> rules[i].updatedAt <= now
    ensures var r := EnsureDefaults(rules, seeds, nextId, now);
      forall i, j :: 0 <= i < j < |r| ==> r[i].updatedAt >= r[j].updatedAt
  {
    var r := EnsureDefaults(rules, seeds, nextId, now);
    var n := |r| - |rules|;
    forall i, j | 0 <= i < j < |r| ensures r[i].updatedAt >= r[j].updatedAt {
      if j >= n {
        assert r[j] == rules[j - n];
        if i >= n {
          assert r[i] == rules[i - n];
        }
      }
    }
  }
}

=== FILE: loader.dfy ===
/** `_load_df` of backend/core/workers.py: the dispatch from a file path to a
    parser by existence and lower-cased extension. The parsers themselves
    (pandas for CSV and Excel, pdfplumber for PDF) are parameters. */
module Loader {
  import opened Common
  import opened Text

  /** A loaded data frame, reduced to what the pipeline inspects: the column
      labels (already `str()`-ed) in order, and the number of data rows. */
  datatype Grid = Grid(columns: seq<string>, rowCount: nat)

  /** A pdfplumber table cell: its text, or `None` for an empty cell. */
  type Cell = Option<string>

  /** A pdfplumber table: rows of cells. */
  type Table = seq<seq<Cell>>

  /** The file system and parser collaborators of the loader. `pdfTables`
      yields `pdf.pages[0].extract_tables()`, or the text of the exception that
      opening the file or reaching its first page raised. */
  datatype Files = Files(
    pathExists: string -> bool,
    readCsv: string -> Result<Grid, string>,
    readExcel: string -> Result<Grid, string>,
    pdfTables: string -> Result<seq<Table>, string>)

  // ---------------------------------------------------------------------------
  // os.path.splitext

  /** Index of the last occurrence of `c` in `s`, or -1. */
  function LastIndex(s: string, c: char): (k: int)
    ensures -1 <= k < |s|
    ensures k >= 0 ==> s[k] == c
    ensures forall j :: k < j < |s| ==> s[j] != c
    decreases |s|
  {
    if s == "" then -1
    else if s[|s| - 1] == c then |s| - 1
    else LastIndex(s[..|s| - 1], c)
  }

  /** Whether some character of `s[lo..hi]` is not a dot. */
  function HasNonDot(s: string, lo: int, hi: int): (b: bool)
    requires 0 <= lo && hi <= |s|
    ensures b <==> exists i :: lo <= i < hi && s[i] != '.'
    decreases hi - lo
  {
    if lo >= hi then false else s[lo] != '.' || HasNonDot(s, lo + 1, hi)
  }

  /** Position `k` starts the extension of `p`: the last dot of the path, in
      the last path component, with some non-dot character before it in that
      component (so `.bashrc` and `..` have no extension). */
  ghost predicate ExtensionAt(p: string, k: int) {
    && 0 <= k < |p| && p[k] == '.'
    && (forall j :: k < j < |p| ==> p[j] != '.' && p[j] != '/')
    && exists i :: 0 <= i < k && p[i] != '.' && p[i] != '/' && forall j :: i < j < k ==> p[j] != '/'
  }

  /** `os.path.splitext(p)[1]` on a POSIX path. */
  function SplitExt(p: string): (ext: string)
    ensures ext != "" <==> exists k :: ExtensionAt(p, k)
    ensures forall k :: ExtensionAt(p, k) ==> ext == p[k..]
  {
    var sep := LastIndex(p, '/');
    var dot := LastIndex(p, '.');
    if dot > sep && HasNonDot(p, sep + 1, dot) then
      assert ExtensionAt(p, dot) by {
        var i :| sep + 1 <= i < dot && p[i] != '.';
        assert forall j :: i < j < dot ==> p[j] != '/';
      }
      ExtensionUnique(p, dot);
      p[dot..]
    else
      forall k | ExtensionAt(p, k) ensures false {
        ExtensionIsLastDot(p, k, dot, sep);
      }
      ""
  }

  lemma ExtensionUnique(p: string, k: int)
    requires ExtensionAt(p, k)
    ensures forall k' :: ExtensionAt(p, k') ==> k' == k
  {
    forall k' | ExtensionAt(p, k') ensures k' == k {
      assert p[k] == '.' && p[k'] == '.';
    }
  }

  lemma ExtensionIsLastDot(p: string, k: int, dot: int, sep: int)
    requires ExtensionAt(p, k)
    requires dot == LastIndex(p, '.') && sep == LastIndex(p, '/')
    ensures dot == k && dot > sep && HasNonDot(p, sep + 1, dot)
  {
    assert p[k] == '.';
    assert dot >= 0 ==> p[dot] == '.';
    assert sep >= 0 ==> p[sep] == '/';
    var i :| 0 <= i < k && p[i] != '.' && p[i] != '/' && forall j :: i < j < k ==> p[j] != '/';
    assert sep < i;
  }

  /** The extension, when there is one, is a suffix of the path that starts
      with its only dot and contains no separator. */
  lemma ExtensionShape(p: string)
    ensures var ext := SplitExt(p);
      ext == "" || (ext[0] == '.' && |ext| <= |p| && ext == p[|p| - |ext|..]
                    && forall i :: 1 <= i < |ext| ==> ext[i] != '.' && ext[i] != '/')
  {
    var ext := SplitExt(p);
    if ext != "" {
      var k :| ExtensionAt(p, k);
      assert ext == p[k..];
    }
  }

  // ---------------------------------------------------------------------------
  // Dispatch

  const NoPdfTable: string := "No table found in first PDF page"

  function FileNotFound(path: string): string {
    "File not found: " + path
  }

  function UnsupportedType(ext: string): string {
    "Unsupported file type: " + ext
  }

  /** `str()` of a header cell: an empty cell becomes the label "None". */
  function CellLabel(c: Cell): string {
    match c
    case None => "None"
    case Some(s) => s
  }

  /** The frame built from the first table of the first page: its first row
      is the header, the remaining rows are the data. */
  function PdfFrame(tables: seq<Table>): (r: Result<Grid, string>)
    ensures tables == [] || tables[0] == [] <==> r == Err(NoPdfTable)
    ensures r.Ok? ==> |r.value.columns| == |tables[0][0]| && r.value.rowCount == |tables[0]| - 1
    ensures r.Ok? ==> forall i :: 0 <= i < |tables[0][0]| ==> r.value.columns[i] == CellLabel(tables[0][0][i])
  {
    if tables == [] || tables[0] == [] then Err(NoPdfTable)
    else
      var header := tables[0][0];
      Ok(Grid(seq(|header|, i requires 0 <= i < |header| => CellLabel(header[i])), |tables[0]| - 1))
  }

  /** `_load_df(upload)` for `upload.file_path == path`. */
  function LoadFrame(path: string, files: Files): (r: Result<Grid, string>)
    ensures path == "" || !files.pathExists(path) ==> r == Err(FileNotFound(path))
    ensures path != "" && files.pathExists(path) ==>
      var ext := Lower(SplitExt(path));
      && (ext == ".csv" ==> r == files.readCsv(path))
      && (ext == ".xlsx" || ext == ".xls" ==> r == files.readExcel(path))
      && (ext == ".pdf" ==> r == match files.pdfTables(path) case Err(e) => Err(e) case Ok(ts) => PdfFrame(ts))
      && (ext !in {".csv", ".xlsx", ".xls", ".pdf"} ==> r == Err(UnsupportedType(ext)))
  {
    if path == "" || !files.pathExists(path) then Err(FileNotFound(path))
    else
      var ext := Lower(SplitExt(path));
      if ext == ".csv" then files.readCsv(path)
      else if ext in [".xlsx", ".xls"] then files.readExcel(path)
      else if ext == ".pdf" then
        match files.pdfTables(path)
        case Err(e) => Err(e)
        case Ok(tables) => PdfFrame(tables)
      else Err(UnsupportedType(ext))
  }

  /** Every loader error is one of the loader's own three messages or the text
      of a parser exception; the loader's own errors never come from a parser. */
  lemma LoaderErrorTaxonomy(path: string, files: Files)
    requires LoadFrame(path, files).Err?
    ensures var e := LoadFrame(path, files).error;
      || e == FileNotFound(path)
      || e == UnsupportedType(Lower(SplitExt(path)))
      || e == NoPdfTable
      || files.readCsv(path) == Err(e)
      || files.readExcel(path) == Err(e)
      || files.pdfTables(path) == Err(e)
  {
  }

  /** A file name `stem + ext` in directory `dir`, where the stem does not
      start with a dot, has exactly the extension `ext`. */
  lemma SplitExtOfFileName(dir: string, stem: string, ext: string)
    requires stem != "" && stem[0] != '.' && forall i :: 0 <= i < |stem| ==> stem[i] != '/'
    requires ext != "" && ext[0] == '.' && forall i :: 1 <= i < |ext| ==> ext[i] != '.' && ext[i] != '/'
    ensures SplitExt(dir + "/" + stem + ext) == ext
  {
    var p := dir + "/" + stem + ext;
    var k := |dir| + 1 + |stem|;
    assert p[k..] == ext;
    assert forall j :: k < j < |p| ==> p[j] == ext[j - k];
    assert forall j :: |dir| + 1 <= j < k ==> p[j] == stem[j - |dir| - 1];
    assert ExtensionAt(p, k) by {
      assert p[|dir| + 1] == stem[0];
    }
  }

  /** An existing `.docx` upload is rejected by its extension, before any
      parser is consulted. */
  lemma DocxIsUnsupported(files: Files, dir: string, stem: string)
    requires stem != "" && stem[0] != '.' && forall i :: 0 <= i < |stem| ==> stem[i] != '/'
    requires files.pathExists(dir + "/" + stem + ".docx")
    ensures LoadFrame(dir + "/" + stem + ".docx", files) == Err("Unsupported file type: .docx")
  {
    DocxExtension(dir, stem);
    UnsupportedDocx();
  }

  lemma DocxExtension(dir: string, stem: string)
    requires stem != "" && stem[0] != '.' && forall i :: 0 <= i < |stem| ==> stem[i] != '/'
    ensures Lower(SplitExt(dir + "/" + stem + ".docx")) == ".docx"
  {
    SplitExtOfFileName(dir, stem, ".docx");
    LowerOfNoUpper(".docx");
  }

  lemma UnsupportedDocx()
    ensures ".docx" !in {".csv", ".xlsx", ".xls", ".pdf"}
    ensures UnsupportedType(".docx") == "Unsupported file type: .docx"
  {
    assert ".docx" != ".csv" && ".docx" != ".xlsx" && ".docx" != ".xls" && ".docx" != ".pdf";
  }

  /** The extension test ignores case: an upper-case `.CSV` goes to the CSV
      parser. */
  lemma UpperCaseCsvIsCsv(files: Files, dir: string, stem: string)
    requires stem != "" && stem[0] != '.' && forall i :: 0 <= i < |stem| ==> stem[i] != '/'
    requires files.pathExists(dir + "/" + stem + ".CSV")
    ensures LoadFrame(dir + "/" + stem + ".CSV", files) == files.readCsv(dir + "/" + stem + ".CSV")
  {
    SplitExtOfFileName(dir, stem, ".CSV");
    assert Lower(".CSV") == ".csv" by {
      var l := Lower(".CSV");
      assert l[0] == '.' && l[1] == 'c' && l[2] == 's' && l[3] == 'v';
    }
  }
}

=== FILE: metrics.dfy ===
/** The in-process counters of backend/core/metrics.py and their Prometheus
    text rendering. A counter is an association list in insertion order, as
    `collections.Counter` keeps it; keys are Python tuples of strings. */
module Metrics {
  import opened Text

  /** A tuple key: `(job_name, status)` for job runs, `(state,)` for incidents. */
  type Key = seq<string>

  type Counter = seq<(Key, nat)>

  predicate DistinctKeys(c: Counter) {
    forall i, j :: 0 <= i < j < |c| ==> c[i].0 != c[j].0
  }

  /** `counter[k]`: the stored value, or 0 for a key never incremented. */
  function Count(c: Counter, k: Key): nat {
    if c == [] then 0 else if c[0].0 == k then c[0].1 else Count(c[1..], k)
  }

  predicate HasKey(c: Counter, k: Key) {
    exists i :: 0 <= i < |c| && c[i].0 == k
  }

  /** `counter[k] += 1`: an existing entry is bumped in place, a new key is
      appended with count 1. */
  function Inc(c: Counter, k: Key): (r: Counter)
    requires DistinctKeys(c)
    ensures DistinctKeys(r)
    ensures Count(r, k) == Count(c, k) + 1
    ensures forall k' :: k' != k ==> Count(r, k') == Count(c, k')
    ensures forall k' :: HasKey(r, k') <==> HasKey(c, k') || k' == k
    decreases |c|
  {
    if c == [] then [(k, 1)]
    else if c[0].0 == k then
      var r := [(k, c[0].1 + 1)] + c[1..];
      assert forall i :: 0 <= i < |r| ==> r[i].0 == c[i].0;
      r
    else
      var rest := Inc(c[1..], k);
      var r := [c[0]] + rest;
      HasKeyCons(c);
      HasKeyCons(r);
      assert !HasKey(c[1..], c[0].0);
      assert r[1..] == rest;
      r
  }

  /** The keys of a non-empty counter are its first key and the keys of the
      rest. */
  lemma HasKeyCons(c: Counter)
    requires c != []
    ensures forall k' :: HasKey(c, k') <==> c[0].0 == k' || HasKey(c[1..], k')
  {
    forall k' ensures HasKey(c, k') <==> c[0].0 == k' || HasKey(c[1..], k') {
      if HasKey(c, k') && c[0].0 != k' {
        var i :| 0 <= i < |c| && c[i].0 == k';
        assert c[1..][i - 1].0 == k';
      }
      if HasKey(c[1..], k') {
        var i :| 0 <= i < |c| - 1 && c[1..][i].0 == k';
        assert c[i + 1].0 == k';
      }
    }
  }

  datatype Metrics = Metrics(jobs: Counter, incidents: Counter)

  const NoMetrics: Metrics := Metrics([], [])

  /** What the recording functions keep true: one entry per key, job keys are
      pairs and incident keys are singletons. */
  predicate Valid(m: Metrics) {
    DistinctKeys(m.jobs) && DistinctKeys(m.incidents) && AllWidth(m.jobs, 2) && AllWidth(m.incidents, 1)
  }

  /** Every key of the counter is a tuple of `width` strings. */
  predicate AllWidth(c: Counter, width: nat) {
    forall i :: 0 <= i < |c| ==> |c[i].0| == width
  }

  function OrUnknown(s: string): string {
    if s == "" then "unknown" else s
  }

  function JobKey(jobName: string, status: string): Key {
    [OrUnknown(jobName), OrUnknown(status)]
  }

  /** `record_job_metric`: the duration is accepted and ignored. */
  function RecordJobMetric(m: Metrics, jobName: string, status: string, durationMs: int): (r: Metrics)
    requires Valid(m)
    ensures Valid(r)
    ensures r.incidents == m.incidents
    ensures Count(r.jobs, JobKey(jobName, status)) == Count(m.jobs, JobKey(jobName, status)) + 1
    ensures forall k :: k != JobKey(jobName, status) ==> Count(r.jobs, k) == Count(m.jobs, k)
  {
    var k := JobKey(jobName, status);
    var jobs := Inc(m.jobs, k);
    KeysOfCounter(m.jobs, k, 2);
    Metrics(jobs, m.incidents)
  }

  /** `record_incident_metric`. */
  function RecordIncidentMetric(m: Metrics, state: string): (r: Metrics)
    requires Valid(m)
    ensures Valid(r)
    ensures r.jobs == m.jobs
    ensures Count(r.incidents, [OrUnknown(state)]) == Count(m.incidents, [OrUnknown(state)]) + 1
    ensures forall k :: k != [OrUnknown(state)] ==> Count(r.incidents, k) == Count(m.incidents, k)
  {
    var k := [OrUnknown(state)];
    KeysOfCounter(m.incidents, k, 1);
    Metrics(m.jobs, Inc(m.incidents, k))
  }

  /** Incrementing a key of the right width keeps every key of that width. */
  lemma {:induction false} KeysOfCounter(c: Counter, k: Key, width: nat)
    requires DistinctKeys(c) && |k| == width
    requires AllWidth(c, width)
    ensures AllWidth(Inc(c, k), width)
    decreases |c|
  {
    if c != [] && c[0].0 != k {
      KeysOfCounter(c[1..], k, width);
    }
  }

  /** Recording never lowers a counter: every count is at least what it was. */
  lemma RecordingIsMonotone(m: Metrics, jobName: string, status: string, state: string)
    requires Valid(m)
    ensures forall k :: Count(RecordJobMetric(m, jobName, status, 0).jobs, k) >= Count(m.jobs, k)
    ensures forall k :: Count(RecordIncidentMetric(m, state).incidents, k) >= Count(m.incidents, k)
  {
  }

  // ---------------------------------------------------------------------------
  // Ordering of tuple keys, as Python's `sorted` compares them

  /** Python's `<` on strings: lexicographic by code point. */
  predicate StrLess(a: string, b: string)
    decreases |a|
  {
    if a == "" then b != ""
    else if b == "" then false
    else if a[0] != b[0] then a[0] < b[0]
    else StrLess(a[1..], b[1..])
  }

  /** Python's `<` on tuples of strings. */
  predicate KeyLess(a: Key, b: Key)
    decreases |a|
  {
    if a == [] then b != []
    else if b == [] then false
    else if a[0] != b[0] then StrLess(a[0], b[0])
    else KeyLess(a[1..], b[1..])
  }

  lemma {:induction false} StrLessIrreflexive(a: string)
    ensures !StrLess(a, a)
    decreases |a|
  {
    if a != "" {
      StrLessIrreflexive(a[1..]);
    }
  }

  lemma {:induction false} StrLessTrichotomy(a: string, b: string)
    ensures a == b || StrLess(a, b) || StrLess(b, a)
    ensures !(StrLess(a, b) && StrLess(b, a))
    decreases |a|
  {
    if a != "" && b != "" && a[0] == b[0] {
      StrLessTrichotomy(a[1..], b[1..]);
      if a[1..] == b[1..] {
        assert a == [a[0]] + a[1..] && b == [b[0]] + b[1..];
      }
    }
  }

  lemma {:induction false} StrLessTransitive(a: string, b: string, c: string)
    requires StrLess(a, b) && StrLess(b, c)
    ensures StrLess(a, c)
    decreases |a|
  {
    if a != "" && a[0] == b[0] && b[0] == c[0] {
      StrLessTransitive(a[1..], b[1..], c[1..]);
    }
  }

  lemma {:induction false} KeyLessIrreflexive(a: Key)
    ensures !KeyLess(a, a)
    decreases |a|
  {
    if a != [] {
      KeyLessIrreflexive(a[1..]);
    }
  }

  lemma {:induction false} KeyLessTrichotomy(a: Key, b: Key)
    ensures a == b || KeyLess(a, b) || KeyLess(b, a)
    ensures !(KeyLess(a, b) && KeyLess(b, a))
    decreases |a|
  {
    if a != [] && b != [] {
      if a[0] == b[0] {
        KeyLessTrichotomy(a[1..], b[1..]);
        if a[1..] == b[1..] {
          assert a == [a[0]] + a[1..] && b == [b[0]] + b[1..];
        }
      } else {
        StrLessTrichotomy(a[0], b[0]);
      }
    }
  }

  lemma {:induction false} KeyLessTransitive(a: Key, b: Key, c: Key)
    requires KeyLess(a, b) && KeyLess(b, c)
    ensures KeyLess(a, c)
    decreases |a|
  {
    if a != [] && b != [] && c != [] {
      if a[0] == b[0] && b[0] == c[0] {
        KeyLessTransitive(a[1..], b[1..], c[1..]);
      } else if a[0] == b[0] {
      } else if b[0] == c[0] {
      } else {
        StrLessTransitive(a[0], b[0], c[0]);
        if a[0] == c[0] {
          StrLessTrichotomy(a[0], b[0]);
        }
      }
    }
  }

  // ---------------------------------------------------------------------------
  // Sorting counter entries by key

  predicate StrictlySorted(s: Counter) {
    forall i, j :: 0 <= i < j < |s| ==> KeyLess(s[i].0, s[j].0)
  }

  function Insert(x: (Key, nat), s: Counter): (r: Counter)
    ensures multiset(r) == multiset(s) + multiset{x}
    ensures |r| == |s| + 1
    decreases |s|
  {
    if s == [] then [x]
    else if KeyLess(x.0, s[0].0) then [x] + s
    else
      assert s == [s[0]] + s[1..];
      [s[0]] + Insert(x, s[1..])
  }

  lemma {:induction false} InsertSorted(x: (Key, nat), s: Counter)
    requires StrictlySorted(s)
    requires forall i :: 0 <= i < |s| ==> s[i].0 != x.0
    ensures StrictlySorted(Insert(x, s))
    decreases |s|
  {
    if s == [] {
    } else if KeyLess(x.0, s[0].0) {
      var r := [x] + s;
      forall i, j | 0 <= i < j < |r| ensures KeyLess(r[i].0, r[j].0) {
        if i == 0 && j > 1 {
          KeyLessTransitive(x.0, s[0].0, s[j - 1].0);
        }
      }
      assert Insert(x, s) == r;
    } else {
      KeyLessTrichotomy(x.0, s[0].0);
      InsertSorted(x, s[1..]);
      var t := Insert(x, s[1..]);
      var r := [s[0]] + t;
      HeadBelowInsert(x, s);
      forall i, j | 0 <= i < j < |r| ensures KeyLess(r[i].0, r[j].0) {
        if i == 0 {
          assert r[j] == t[j - 1];
        } else {
          assert r[i] == t[i - 1] && r[j] == t[j - 1];
        }
      }
      assert Insert(x, s) == r;
    }
  }

  /** The head of a sorted counter stays below everything in its tail after
      a larger key is inserted there. */
  lemma HeadBelowInsert(x: (Key, nat), s: Counter)
    requires s != [] && StrictlySorted(s) && KeyLess(s[0].0, x.0)
    ensures forall j :: 0 <= j < |Insert(x, s[1..])| ==> KeyLess(s[0].0, Insert(x, s[1..])[j].0)
  {
    var t := Insert(x, s[1..]);
    forall j | 0 <= j < |t| ensures KeyLess(s[0].0, t[j].0) {
      var e := t[j];
      assert e in multiset(t);
      assert e in multiset(s[1..]) || e == x;
      if e != x {
        var k :| 0 <= k < |s[1..]| && s[1..][k] == e;
        assert s[k + 1] == e;
      }
    }
  }

  /** `sorted(counter.items())`: the same entries, in strictly increasing key
      order. */
  function SortEntries(c: Counter): (r: Counter)
    ensures multiset(r) == multiset(c) && |r| == |c|
    ensures DistinctKeys(c) ==> StrictlySorted(r)
    ensures forall w: nat :: AllWidth(c, w) ==> AllWidth(r, w)
    decreases |c|
  {
    if c == [] then []
    else
      assert c == [c[0]] + c[1..];
      var rest := SortEntries(c[1..]);
      SortStep(c, rest);
      var r := Insert(c[0], rest);
      SameEntriesSameWidth(c, r);
      r
  }

  /** Inserting the head of a counter with distinct keys into the sorted tail
      keeps the order strict. */
  lemma SortStep(c: Counter, rest: Counter)
    requires c != [] && multiset(rest) == multiset(c[1..]) && (DistinctKeys(c[1..]) ==> StrictlySorted(rest))
    ensures DistinctKeys(c) ==> StrictlySorted(Insert(c[0], rest))
  {
    if DistinctKeys(c) {
      forall i | 0 <= i < |rest| ensures rest[i].0 != c[0].0 {
        assert rest[i] in multiset(c[1..]);
        var k :| 0 <= k < |c[1..]| && c[1..][k] == rest[i];
        assert c[k + 1] == rest[i];
      }
      InsertSorted(c[0], rest);
    }
  }

  // ---------------------------------------------------------------------------
  // Rendering

  const JobMetric: string := "flowboard_job_runs_total"
  const IncidentMetric: string := "flowboard_incidents_total"
  const BuildInfoMetric: string := "flowboard_build_info"

  const JobHelp: string := "# HELP " + JobMetric + " Total job runs by job and status"
  const JobType: string := "# TYPE " + JobMetric + " counter"
  const IncidentHelp: string := "# HELP " + IncidentMetric + " Total incidents by state"
  const IncidentType: string := "# TYPE " + IncidentMetric + " counter"

  function JobLine(e: (Key, nat)): string
    requires |e.0| == 2
  {
    JobMetric + "{job=\"" + e.0[0] + "\",status=\"" + e.0[1] + "\"} " + NatToString(e.1)
  }

  function IncidentLine(e: (Key, nat)): string
    requires |e.0| == 1
  {
    IncidentMetric + "{state=\"" + e.0[0] + "\"} " + NatToString(e.1)
  }

  function JobLines(s: Counter): (r: seq<string>)
    requires AllWidth(s, 2)
    ensures |r| == |s| && forall i :: 0 <= i < |s| ==> r[i] == JobLine(s[i])
  {
    seq(|s|, i requires 0 <= i < |s| => JobLine(s[i]))
  }

  function IncidentLines(s: Counter): (r: seq<string>)
    requires AllWidth(s, 1)
    ensures |r| == |s| && forall i :: 0 <= i < |s| ==> r[i] == IncidentLine(s[i])
  {
    seq(|s|, i requires 0 <= i < |s| => IncidentLine(s[i]))
  }

  lemma SameEntriesSameWidth(c: Counter, r: Counter)
    requires multiset(r) == multiset(c)
    ensures forall w: nat {:trigger AllWidth(r, w)} :: AllWidth(c, w) ==> AllWidth(r, w)
  {
    forall w: nat | AllWidth(c, w) ensures AllWidth(r, w) {
      forall i | 0 <= i < |r| ensures |r[i].0| == w {
        assert r[i] in multiset(c);
      }
    }
  }

  const BuildInfoHelp: string := "# HELP " + BuildInfoMetric + " Build info"
  const BuildInfoType: string := "# TYPE " + BuildInfoMetric + " gauge"

  /** The page layout: each section is a HELP line, a TYPE line and its
      sample lines; the build-info section closes the page. */
  function Layout(jl: seq<string>, il: seq<string>, buildTs: string): (lines: seq<string>)
    ensures |lines| == 7 + |jl| + |il|
    ensures lines[0] == JobHelp && lines[1] == JobType && lines[2..2 + |jl|] == jl
    ensures lines[2 + |jl|] == IncidentHelp && lines[3 + |jl|] == IncidentType
    ensures lines[4 + |jl|..4 + |jl| + |il|] == il
    ensures lines[|lines| - 3..] == [BuildInfoHelp, BuildInfoType, BuildLine(buildTs)]
  {
    var head := [JobHelp, JobType] + jl;
    var body := head + [IncidentHelp, IncidentType] + il;
    assert body[2..2 + |jl|] == jl;
    assert body[4 + |jl|..4 + |jl| + |il|] == il;
    body + [BuildInfoHelp, BuildInfoType, BuildLine(buildTs)]
  }

  /** The build-info sample, stamped with the time the page is rendered. */
  function BuildLine(buildTs: string): string {
    BuildInfoMetric + "{ts=\"" + buildTs + "\"} 1"
  }

  /** The lines of `get_metrics_data`, before joining: the job section (HELP,
      TYPE, then one line per counter entry, taken from the key-sorted entries),
      the incident section laid out the same way, then the three build-info
      lines stamped with `buildTs`. */
  function MetricsLines(m: Metrics, buildTs: string): (lines: seq<string>)
    requires Valid(m)
    ensures |lines| == 7 + |m.jobs| + |m.incidents|
    ensures lines[0] == JobHelp && lines[1] == JobType
    ensures lines[2 + |m.jobs|] == IncidentHelp && lines[3 + |m.jobs|] == IncidentType
    ensures lines[2..2 + |m.jobs|] == JobLines(SortEntries(m.jobs))
    ensures lines[4 + |m.jobs|..4 + |m.jobs| + |m.incidents|] == IncidentLines(SortEntries(m.incidents))
    ensures lines[|lines| - 3..] == [BuildInfoHelp, BuildInfoType, BuildLine(buildTs)]
  {
    Layout(JobLines(SortEntries(m.jobs)), IncidentLines(SortEntries(m.incidents)), buildTs)
  }

  /** `get_metrics_data()`: the lines joined by newlines, with a trailing
      newline. As long as no job name, status, state or the build timestamp
      holds a newline, reading the page back line by line gives exactly the
      rendered lines. */
  function RenderMetrics(m: Metrics, buildTs: string): (out: string)
    requires Valid(m)
    ensures out != "" && out[|out| - 1] == '\n'
    ensures SingleLineKeys(m.jobs) && SingleLineKeys(m.incidents) && '\n' !in buildTs ==>
      SplitOn(out[..|out| - 1], '\n') == MetricsLines(m, buildTs)
  {
    var body := Join(MetricsLines(m, buildTs), "\n");
    LinesReadBack(m, buildTs);
    assert (body + "\n")[..|body|] == body;
    body + "\n"
  }

  /** No part of any key holds a newline. */
  predicate SingleLineKeys(c: Counter) {
    forall i, j :: 0 <= i < |c| && 0 <= j < |c[i].0| ==> '\n' !in c[i].0[j]
  }

  /** Predicate over a sequence of lines: none holds a newline. */
  predicate SingleLines(lines: seq<string>) {
    forall k :: 0 <= k < |lines| ==> '\n' !in lines[k]
  }

  /** The joined lines split back into the lines. */
  lemma LinesReadBack(m: Metrics, buildTs: string)
    requires Valid(m)
    ensures SingleLineKeys(m.jobs) && SingleLineKeys(m.incidents) && '\n' !in buildTs ==>
      SplitOn(Join(MetricsLines(m, buildTs), "\n"), '\n') == MetricsLines(m, buildTs)
  {
    if SingleLineKeys(m.jobs) && SingleLineKeys(m.incidents) && '\n' !in buildTs {
      var js := SortEntries(m.jobs);
      var ins := SortEntries(m.incidents);
      SameEntriesSingleLine(m.jobs, js);
      SameEntriesSingleLine(m.incidents, ins);
      JobLinesSingle(js);
      IncidentLinesSingle(ins);
      LayoutSingleLines(JobLines(js), IncidentLines(ins), buildTs);
      SplitOnJoin(MetricsLines(m, buildTs), '\n');
    }
  }

  lemma JobLinesSingle(s: Counter)
    requires AllWidth(s, 2) && SingleLineKeys(s)
    ensures SingleLines(JobLines(s))
  {
    forall k | 0 <= k < |s| ensures '\n' !in JobLine(s[k]) {
      assert '\n' !in s[k].0[0] && '\n' !in s[k].0[1];
      assert '\n' !in NatToString(s[k].1);
    }
  }

  lemma IncidentLinesSingle(s: Counter)
    requires AllWidth(s, 1) && SingleLineKeys(s)
    ensures SingleLines(IncidentLines(s))
  {
    forall k | 0 <= k < |s| ensures '\n' !in IncidentLine(s[k]) {
      assert '\n' !in s[k].0[0];
      assert '\n' !in NatToString(s[k].1);
    }
  }

  /** Sorting does not bring in a key that was not there. */
  lemma SameEntriesSingleLine(c: Counter, r: Counter)
    requires multiset(r) == multiset(c) && SingleLineKeys(c)
    ensures SingleLineKeys(r)
  {
    forall i, j | 0 <= i < |r| && 0 <= j < |r[i].0| ensures '\n' !in r[i].0[j] {
      assert r[i] in multiset(c);
      var k :| 0 <= k < |c| && c[k] == r[i];
    }
  }

  /** The fixed lines of the page hold no newline, so neither does the page's
      layout of lines that hold none. */
  lemma LayoutSingleLines(jl: seq<string>, il: seq<string>, buildTs: string)
    requires SingleLines(jl) && SingleLines(il) && '\n' !in buildTs
    ensures SingleLines(Layout(jl, il, buildTs))
  {
    var lines := Layout(jl, il, buildTs);
    HeadersSingle();
    BuildInfoSingle(buildTs);
    forall k | 0 <= k < |lines| ensures '\n' !in lines[k] {
      if 2 <= k < 2 + |jl| {
        assert lines[k] == lines[2..2 + |jl|][k - 2];
      } else if 4 + |jl| <= k < 4 + |jl| + |il| {
        assert lines[k] == lines[4 + |jl|..4 + |jl| + |il|][k - 4 - |jl|];
      }
    }
  }

  /** The section headers hold no newline. */
  lemma HeadersSingle()
    ensures '\n' !in JobHelp && '\n' !in JobType && '\n' !in IncidentHelp && '\n' !in IncidentType
  {
    assert '\n' !in JobHelp && '\n' !in JobType;
    assert '\n' !in IncidentHelp && '\n' !in IncidentType;
  }

  /** The build-info lines hold no newline when the timestamp holds none. */
  lemma BuildInfoSingle(buildTs: string)
    requires '\n' !in buildTs
    ensures '\n' !in BuildInfoHelp && '\n' !in BuildInfoType && '\n' !in BuildLine(buildTs)
  {
    assert '\n' !in BuildInfoHelp && '\n' !in BuildInfoType && '\n' !in BuildLine(buildTs);
  }

  /** Each counter entry is rendered exactly once: in a sorted list with
      distinct keys, an entry's position is fixed by its key. */
  lemma SortedPositionUnique(s: Counter, i: nat, j: nat)
    requires StrictlySorted(s) && i < |s| && j < |s| && s[i].0 == s[j].0
    ensures i == j
  {
    if i < j {
      KeyLessIrreflexive(s[i].0);
    } else if j < i {
      KeyLessIrreflexive(s[j].0);
    }
  }
}

=== FILE: models.dfy ===
/** The records of backend/core/models.py that the pipeline, the incident
    engine and the views read and write, as immutable values, together with
    the user role predicates and `Ticket.resolve`. */
module Models {
  import opened Common

  // ---------------------------------------------------------------------------
  // Users and roles

  /** A stored user: the `role` column and Django's superuser flag. */
  datatype User = User(role: string, superuser: bool)

  /** Privilege rank of a stored role name: admin above moderator above
      everything else (including role names outside the choices list). */
  function RoleRank(role: string): nat {
    if role == "admin" then 3 else if role == "moderator" then 2 else 1
  }

  /** `User.is_admin`: a superuser counts as an admin whatever its role. */
  function IsAdmin(u: User): (r: bool)
    ensures r <==> u.superuser || RoleRank(u.role) == 3
  {
    u.role == "admin" || u.superuser
  }

  /** `User.is_moderator`: moderators, admins and superusers. */
  function IsModerator(u: User): (r: bool)
    ensures r <==> u.superuser || RoleRank(u.role) >= 2
  {
    u.role in ["moderator", "admin"] || u.superuser
  }

  function CanResolveTickets(u: User): bool {
    IsModerator(u)
  }

  function CanCreateTickets(u: User): bool {
    true
  }

  function CanAssignTickets(u: User): bool {
    IsModerator(u)
  }

  /** Every admin is a moderator; resolving and assigning tickets need exactly
      moderator rights, and anyone may create a ticket. */
  lemma TicketAbilities(u: User)
    ensures IsAdmin(u) ==> IsModerator(u)
    ensures CanResolveTickets(u) <==> IsModerator(u)
    ensures CanAssignTickets(u) <==> IsModerator(u)
    ensures CanCreateTickets(u)
    ensures !u.superuser && u.role == "moderator" ==> IsModerator(u) && !IsAdmin(u)
  {
  }

  // ---------------------------------------------------------------------------
  // Uploads

  datatype UploadStatus = Pending | Processing | Published | Failed

  /** A decoded JSON value, as stored in a `JSONField`. */
  datatype Json =
    | JNull
    | JBool(b: bool)
    | JNumber(n: int)
    | JString(s: string)
    | JArray(items: seq<Json>)
    | JObject(members: seq<(string, Json)>)

  /** `Upload`; the report artefacts written by the publish step are not part
      of the value. */
  datatype Upload = Upload(
    id: string,
    department: string,
    filename: string,
    mimeType: string,
    status: UploadStatus,
    notes: Option<string>,
    filePath: string,
    processMode: string,
    processConfig: Json)

  const DefaultProcessMode: string := "transform_gradebook"

  // ---------------------------------------------------------------------------
  // Known errors

  /** The `auto_retry` object of a fix payload. */
  datatype AutoRetry = AutoRetry(enabled: bool, max: Option<int>, delaySeconds: Option<int>)

  /** The fix payload of a known error. Every key is optional; a payload that
      is not a JSON object reads as the empty payload. */
  datatype Fix = Fix(
    severity: Option<string>,
    category: Option<string>,
    rootCause: Option<string>,
    rca: Option<string>,
    correctiveAction: Option<string>,
    action: Option<string>,
    resolutionReport: Option<string>,
    autoRetry: Option<AutoRetry>)

  const EmptyFix: Fix := Fix(None, None, None, None, None, None, None, None)

  /** `KnownError`: a regular-expression pattern and its fix payload. */
  datatype Rule = Rule(
    id: string,
    name: string,
    pattern: string,
    fix: Fix,
    active: bool,
    updatedAt: Timestamp)

  // ---------------------------------------------------------------------------
  // Incidents and tickets

  /** One entry of an incident or ticket timeline. `notes` is `None` both for
      a JSON `null` and for an entry written without a notes key. */
  datatype Event = Event(timestamp: Timestamp, event: string, actor: string, notes: Option<string>)

  datatype IncidentState = Open | InProgress | Resolved

  datatype Incident = Incident(
    id: string,
    uploadId: string,
    jobRunId: Option<string>,
    matchedRule: Option<string>,
    error: string,
    rootCause: Option<string>,
    correctiveAction: Option<string>,
    impactSummary: Option<string>,
    analysisNotes: Option<string>,
    resolutionReport: Option<string>,
    severity: string,
    category: Option<string>,
    detectionSource: Option<string>,
    timeline: seq<Event>,
    autoRetryCount: int,
    maxAutoRetries: int,
    archivedAt: Option<Timestamp>,
    resolvedBy: Option<string>,
    resolvedAt: Option<Timestamp>,
    state: IncidentState,
    assignee: Option<string>)

  const DefaultSeverity: string := "medium"
  const DefaultMaxAutoRetries: int := 2

  datatype TicketStatus = TicketOpen | TicketInProgress | TicketResolved | TicketClosed

  datatype TicketSource = SystemSource | ManualSource

  datatype Ticket = Ticket(
    id: string,
    incident: Option<string>,
    source: TicketSource,
    status: TicketStatus,
    assignee: Option<string>,
    createdBy: Option<string>,
    resolvedBy: Option<string>,
    resolutionType: Option<string>,
    resolutionNotes: Option<string>,
    timeline: seq<Event>,
    title: Option<string>,
    description: Option<string>,
    resolvedAt: Option<Timestamp>)

  /** `linked` is what `ticket.incident` dereferences to. */
  predicate LinkedTo(t: Ticket, linked: Option<Incident>) {
    match t.incident
    case None => linked.None?
    case Some(iid) => linked.Some? && linked.value.id == iid
  }

  /** The timeline event `Ticket.resolve` appends; a missing type is
      rendered as Python renders `None`. */
  function ResolvedEvent(resolver: string, kind: Option<string>): string {
    "Ticket resolved by " + resolver + " (" + Show(kind) + ")"
  }

  datatype TicketAndIncident = TicketAndIncident(ticket: Ticket, incident: Option<Incident>)

  /** `Ticket.resolve(resolved_by, resolution_type, notes)`: the ticket is
      resolved and stamped with the type and notes as given (either may be
      `None`), one timeline entry is appended, and a linked incident is
      resolved too (whatever its prior state), taking the notes as its
      corrective action when they are truthy. */
  function TicketResolve(t: Ticket, linked: Option<Incident>, resolver: string, kind: Option<string>,
                         notes: Option<string>, now: Timestamp): (r: TicketAndIncident)
    requires LinkedTo(t, linked)
    ensures r.ticket == t.(status := TicketResolved, resolvedBy := Some(resolver), resolutionType := kind,
                           resolutionNotes := notes, resolvedAt := Some(now), timeline := r.ticket.timeline)
    ensures |r.ticket.timeline| == |t.timeline| + 1 && r.ticket.timeline[..|t.timeline|] == t.timeline
    ensures r.ticket.timeline[|t.timeline|] == Event(now, ResolvedEvent(resolver, kind), resolver, notes)
    ensures r.incident.Some? <==> linked.Some?
    ensures linked.Some? ==>
      r.incident.value == linked.value.(state := Resolved, resolvedAt := Some(now),
                                        correctiveAction := r.incident.value.correctiveAction)
    ensures linked.Some? && Truthy(notes) ==> r.incident.value.correctiveAction == notes
    ensures linked.Some? && !Truthy(notes) ==> r.incident.value.correctiveAction == linked.value.correctiveAction
  {
    var entry := Event(now, ResolvedEvent(resolver, kind), resolver, notes);
    var t' := t.(status := TicketResolved, resolvedBy := Some(resolver), resolutionType := kind,
                 resolutionNotes := notes, resolvedAt := Some(now), timeline := t.timeline + [entry]);
    match linked
    case None => TicketAndIncident(t', None)
    case Some(inc) =>
      var ca := if Truthy(notes) then notes else inc.correctiveAction;
      TicketAndIncident(t', Some(inc.(state := Resolved, resolvedAt := Some(now), correctiveAction := ca)))
  }
}

=== FILE: permissions.dfy ===
/** The access policy of backend/core/permissions.py: the role of a request's
    user and the five `has_permission` decision tables, one per resource. */
module Permissions {
  import opened Common
  import opened Models

  /** The user a request carries: `None` when there is no user or the user is
      not authenticated (the two are treated alike everywhere). */
  type Principal = Option<User>

  /** `_role(user)`: no role for an anonymous request, "admin" for a
      superuser whatever is stored, otherwise the stored role. */
  function RoleOf(p: Principal): (r: Option<string>)
    ensures r.None? <==> p.None?
    ensures p.Some? ==> RoleRank(r.value) == Clearance(p.value)
  {
    match p
    case None => None
    case Some(u) => if u.superuser then Some("admin") else Some(u.role)
  }

  /** `permissions.is_admin`. */
  predicate IsAdminRole(p: Principal) {
    RoleOf(p) == Some("admin")
  }

  /** `permissions.is_moderator`. */
  predicate IsModeratorRole(p: Principal) {
    RoleOf(p) in [Some("admin"), Some("moderator")]
  }

  /** How much a user may do: a superuser counts as an admin, otherwise the
      rank of the stored role. */
  function Clearance(u: User): nat {
    if u.superuser then 3 else RoleRank(u.role)
  }

  const AnyAuthenticated: nat := 1
  const ModeratorLevel: nat := 2
  const AdminLevel: nat := 3

  /** DRF's `SAFE_METHODS`. */
  const SafeMethods: set<string> := {"GET", "HEAD", "OPTIONS"}

  datatype Resource = Uploads | JobRuns | Jobs | Incidents | Tickets

  /** What `has_permission` looks at: the user, the HTTP verb and the
      view's action name ("" when the view has none). */
  datatype Request = Request(user: Principal, verb: string, action: string)

  /** The five `has_permission` methods, branch for branch. */
  function HasPermission(res: Resource, req: Request): (allowed: bool)
    ensures req.user.None? ==> !allowed
    ensures allowed <==> req.user.Some? && Clearance(req.user.value) >= Required(res, req.verb, req.action)
  {
    if req.user.None? then false
    else
      match res
      case Uploads =>
        if req.verb in SafeMethods then true
        else if req.action in ["create", "retry"] then true
        else IsAdminRole(req.user)
      case JobRuns => true
      case Jobs =>
        if req.verb in SafeMethods then true
        else if req.action == "trigger" then true
        else IsAdminRole(req.user)
      case Incidents =>
        if req.verb in SafeMethods then true
        else IsModeratorRole(req.user)
      case Tickets =>
        IsModeratorRole(req.user)
  }

  /** The policy as a table of least clearances: reading is open to every
      signed-in user except on tickets; uploads may be created and retried and
      jobs triggered by anyone signed in; incidents and tickets are changed by
      moderators; every other change is for admins. */
  function Required(res: Resource, verb: string, action: string): (level: nat)
    ensures AnyAuthenticated <= level <= AdminLevel
  {
    var safe := verb in SafeMethods;
    match res
    case Uploads => if safe || action == "create" || action == "retry" then AnyAuthenticated else AdminLevel
    case JobRuns => AnyAuthenticated
    case Jobs => if safe || action == "trigger" then AnyAuthenticated else AdminLevel
    case Incidents => if safe then AnyAuthenticated else ModeratorLevel
    case Tickets => ModeratorLevel
  }

  /** The role helpers here agree with the `User` predicates of the models:
      both let a superuser act as an admin. */
  lemma RolesAgreeWithModels(p: Principal)
    ensures IsAdminRole(p) <==> p.Some? && IsAdmin(p.value)
    ensures IsModeratorRole(p) <==> p.Some? && IsModerator(p.value)
    ensures IsAdminRole(p) ==> IsModeratorRole(p)
  {
  }

  /** More clearance never loses a permission. */
  lemma PermissionIsMonotone(res: Resource, a: User, b: User, verb: string, action: string)
    requires Clearance(a) <= Clearance(b)
    ensures HasPermission(res, Request(Some(a), verb, action)) ==> HasPermission(res, Request(Some(b), verb, action))
  {
  }

  /** A signed-in user with no special role may read everything but tickets,
      create and retry uploads, trigger jobs, and nothing else. */
  lemma PlainUserAbilities(res: Resource, u: User, verb: string, action: string)
    requires !u.superuser && u.role != "admin" && u.role != "moderator"
    ensures var allowed := HasPermission(res, Request(Some(u), verb, action));
      allowed <==> match res
        case Uploads => verb in SafeMethods || action == "create" || action == "retry"
        case JobRuns => true
        case Jobs => verb in SafeMethods || action == "trigger"
        case Incidents => verb in SafeMethods
        case Tickets => false
  {
  }

  /** An admin, or a superuser, may do everything. */
  lemma AdminMayDoEverything(res: Resource, u: User, verb: string, action: string)
    requires IsAdmin(u)
    ensures HasPermission(res, Request(Some(u), verb, action))
  {
  }
}

=== FILE: pipeline.dfy ===
/** `job_chain_standardize` of backend/core/workers.py: the five pipeline
    steps run in order, each recorded with its status and log; the first
    failing step aborts the run, marks the upload failed and opens an incident
    with its system ticket. */
module Pipeline {
  import opened Common
  import opened Text
  import opened Models
  import opened Loader
  import opened Incidents
  import KnownErrors
  import Metrics

  // ---------------------------------------------------------------------------
  // Steps

  datatype StepName = Standardize | Validate | Transform | Summarize | Publish

  /** The step names as the source spells them. */
  function StepLabel(s: StepName): string {
    match s
    case Standardize => "standardize_results"
    case Validate => "validate_results"
    case Transform => "transform_gradebook"
    case Summarize => "generate_summary"
    case Publish => "publish_results"
  }

  /** `PIPELINE`: the fixed step order. */
  const Steps: seq<StepName> := [Standardize, Validate, Transform, Summarize, Publish]

  const PipelineJobName: string := "results_pipeline"
  const SuccessStatus: string := "success"
  const FailedStatus: string := "failed"
  const NoFrame: string := "No dataframe loaded"
  const MaxLogLength: nat := 20000

  /** Different steps have different names. */
  lemma StepLabelsDistinct(a: StepName, b: StepName)
    ensures StepLabel(a) == StepLabel(b) <==> a == b
  {
    if a != b {
      var x, y := StepLabel(a), StepLabel(b);
      assert |x| != |y| || x[0] != y[0];
    }
  }

  // ---------------------------------------------------------------------------
  // Validation

  const RequiredColumnsDefault: seq<string> := ["student_id", "score"]

  /** The required columns for a department. The per-department table
      `REQUIRED_COLUMNS_BY_DEPARTMENT` ships empty, so every department falls
      back to the default. */
  function RequiredColumns(department: string): seq<string> {
    RequiredColumnsDefault
  }

  /** The required columns absent from `present`, in required order. */
  function Missing(required: seq<string>, present: seq<string>): (r: seq<string>)
    ensures forall c :: c in r <==> c in required && c !in present
    ensures |r| <= |required|
    decreases |required|
  {
    if required == [] then []
    else
      var rest := Missing(required[1..], present);
      assert forall c :: c in required <==> c == required[0] || c in required[1..];
      if required[0] in present then rest else [required[0]] + rest
  }

  /** The missing columns of a concatenation are those of each part, in
      turn: with `MissingOne` this pins `Missing` down as the in-order filter
      of the required columns. */
  lemma {:induction false} MissingAppend(a: seq<string>, b: seq<string>, present: seq<string>)
    ensures Missing(a + b, present) == Missing(a, present) + Missing(b, present)
    decreases |a|
  {
    if a != [] {
      assert (a + b)[1..] == a[1..] + b;
      MissingAppend(a[1..], b, present);
    } else {
      assert a + b == b;
    }
  }

  lemma MissingOne(c: string, present: seq<string>)
    ensures Missing([c], present) == if c in present then [] else [c]
  {
    assert [c][1..] == [];
  }

  const NoColumnsError: string := "No columns detected"
  const NoRowsError: string := "No rows detected"

  function MissingColumnsError(missing: seq<string>): string {
    "Required columns missing: " + Join(missing, ", ")
  }

  /** The problems the validate step reports, in order. Column labels are
      lower-cased once more before the required columns are looked up. */
  function ValidationErrors(g: Grid, department: string): (errs: seq<string>)
    ensures errs == [] <==>
      && |g.columns| > 0 && g.rowCount > 0
      && forall c :: c in RequiredColumns(department) ==> c in LowerAll(g.columns)
    ensures (NoColumnsError in errs) <==> |g.columns| == 0
    ensures (NoRowsError in errs) <==> g.rowCount == 0
    ensures var missing := Missing(RequiredColumns(department), LowerAll(g.columns));
      && |errs| <= 3
      && (forall k :: 0 <= k < |errs| ==>
            errs[k] == NoColumnsError || errs[k] == NoRowsError || errs[k] == MissingColumnsError(missing))
      && (|g.columns| == 0 ==> errs[0] == NoColumnsError)
      && (g.rowCount == 0 ==> errs[if |g.columns| == 0 then 1 else 0] == NoRowsError)
      && (missing != [] <==> errs != [] && errs[|errs| - 1] == MissingColumnsError(missing))
  {
    var missing := Missing(RequiredColumns(department), LowerAll(g.columns));
    assert |NoColumnsError| != |NoRowsError|;
    assert MissingColumnsError(missing)[..9] == "Required ";
    (if |g.columns| == 0 then [NoColumnsError] else [])
    + (if g.rowCount == 0 then [NoRowsError] else [])
    + (if missing != [] then [MissingColumnsError(missing)] else [])
  }

  // ---------------------------------------------------------------------------
  // One step

  /** What the steps after loading need from pandas and the file system:
      the outcome of the numeric coercion of the transform step, the count of
      numeric columns (or the error of `describe()`), the export directory,
      and the outcome of writing the summary CSV to a path. */
  datatype Env = Env(
    files: Files,
    transform: Grid -> Option<string>,
    numericColumns: Grid -> Result<nat, string>,
    exportDir: string,
    writeExport: string -> Option<string>)

  /** `os.path.join(a, b)` on POSIX paths: an absolute name replaces the
      directory; otherwise one '/' is put between them unless the directory
      is empty or already ends with one. */
  function PathJoin(a: string, b: string): (p: string)
    ensures b != "" && b[0] == '/' ==> p == b
    ensures (b == "" || b[0] != '/') && a != "" ==> |p| >= |a| + |b| && p[..|a|] == a && p[|p| - |b|..] == b
    ensures (b == "" || b[0] != '/') && a == "" ==> p == b
    // exactly one separator between a non-empty directory and a relative name
    ensures (b == "" || b[0] != '/') && a != "" ==>
      && |p| > |b| && p[|p| - |b| - 1] == '/'
      && (p == a + b <==> a[|a| - 1] == '/')
      && (p == a + "/" + b <==> a[|a| - 1] != '/')
  {
    if b != "" && b[0] == '/' then b
    else if a == "" || a[|a| - 1] == '/' then a + b
    else a + "/" + b
  }

  function ExportPath(env: Env, uploadId: string): string {
    PathJoin(env.exportDir, uploadId + "-summary.csv")
  }

  /** The labels of a frame after the standardize step. */
  function NormalizeColumns(cols: seq<string>): (r: seq<string>)
    ensures |r| == |cols| && forall i :: 0 <= i < |cols| ==> r[i] == NormalizeLabel(cols[i])
  {
    seq(|cols|, i requires 0 <= i < |cols| => NormalizeLabel(cols[i]))
  }

  /** A step that succeeded: the frame and upload it leaves, and its log. */
  datatype Done = Done(grid: Option<Grid>, upload: Upload, log: string)

  /** One step of the pipeline on the current frame and upload. Only the
      load changes the frame, and it always leaves one; only the publish step
      changes the upload. */
  function RunStep(step: StepName, grid: Option<Grid>, upload: Upload, env: Env): (r: Result<Done, string>)
    ensures r.Ok? && step == Standardize ==> r.value.grid.Some?
    ensures r.Ok? && step != Standardize ==> r.value.grid == grid
    ensures r.Ok? && step != Publish ==> r.value.upload == upload
    ensures r.Ok? && step == Publish ==> r.value.upload == upload.(status := Published)
  {
    match step
    case Standardize =>
      (match LoadFrame(upload.filePath, env.files)
       case Err(e) => Err(e)
       case Ok(g) =>
         var cols := NormalizeColumns(g.columns);
         Ok(Done(Some(Grid(cols, g.rowCount)), upload,
                 "Loaded " + NatToString(g.rowCount) + " rows, " + NatToString(|cols|) + " cols")))
    case Validate =>
      if grid.None? then Err(NoFrame)
      else
        var errs := ValidationErrors(grid.value, upload.department);
        if errs != [] then Err(Join(errs, "; ")) else Ok(Done(grid, upload, "Validation passed"))
    case Transform =>
      if grid.None? then Err(NoFrame)
      else
        (match env.transform(grid.value)
         case Some(e) => Err(e)
         case None => Ok(Done(grid, upload, "Transformed gradebook (trim + safe numeric coercion)")))
    case Summarize =>
      if grid.None? then Err(NoFrame)
      else
        (match env.numericColumns(grid.value)
         case Err(e) => Err(e)
         case Ok(n) => Ok(Done(grid, upload, "Summary built. Numeric cols: " + NatToString(n))))
    case Publish =>
      var path := ExportPath(env, upload.id);
      (match env.writeExport(path)
       case Some(e) => Err(e)
       case None => Ok(Done(grid, upload.(status := Published), "Published export: " + path)))
  }

  /** The load step succeeds exactly when the loader does, and leaves the
      loaded frame with its labels normalised; a loader error is the step's
      error unchanged. */
  lemma StandardizeStep(grid: Option<Grid>, upload: Upload, env: Env)
    ensures var r := RunStep(Standardize, grid, upload, env);
      match LoadFrame(upload.filePath, env.files)
      case Err(e) => r == Err(e)
      case Ok(g) => r.Ok? && r.value.grid == Some(Grid(NormalizeColumns(g.columns), g.rowCount))
                    && r.value.upload == upload
  {
  }

  /** The validate step on a loaded frame passes exactly when there is
      nothing to report, and otherwise raises all the problems joined by
      "; ". */
  lemma ValidateStep(g: Grid, upload: Upload, env: Env)
    ensures var r := RunStep(Validate, Some(g), upload, env);
      var errs := ValidationErrors(g, upload.department);
      && (r.Ok? <==> errs == [])
      && (r.Err? ==> r.error == Join(errs, "; "))
  {
  }

  /** Every step after the load needs a frame, except publishing. */
  lemma MissingFrameStep(step: StepName, upload: Upload, env: Env)
    requires step in {Validate, Transform, Summarize}
    ensures RunStep(step, None, upload, env) == Err(NoFrame)
  {
  }

  // ---------------------------------------------------------------------------
  // The fold over the steps

  /** The `details["steps"]` entry of one step; timings are not modelled. */
  datatype StepRecord = StepRecord(name: string, status: string, logs: string)

  /** The run-log line of a recorded step: its log, or its status when the
      log is empty. */
  function LogLine(rec: StepRecord): string {
    "[" + rec.name + "] " + (if rec.logs != "" then rec.logs else rec.status)
  }

  function LogLines(recs: seq<StepRecord>): (r: seq<string>)
    ensures |r| == |recs| && forall i :: 0 <= i < |recs| ==> r[i] == LogLine(recs[i])
  {
    if recs == [] then [] else LogLines(recs[..|recs| - 1]) + [LogLine(recs[|recs| - 1])]
  }

  lemma LogLinesSnoc(recs: seq<StepRecord>, rec: StepRecord)
    ensures LogLines(recs + [rec]) == LogLines(recs) + [LogLine(rec)]
  {
    assert (recs + [rec])[..|recs|] == recs;
  }

  /** The metric key a recorded step counts under. */
  function StepKey(rec: StepRecord): Metrics.Key {
    Metrics.JobKey(PipelineJobName + "." + rec.name, rec.status)
  }

  /** The state between steps. `failure` is the step that raised and its
      message, once one has. The run-log lines and the step metrics are not
      kept separately: each step appends one log line and bumps one counter
      as it is recorded, so both follow from the records (`LogLines`,
      `RecordSteps`). */
  datatype Trace = Trace(
    grid: Option<Grid>,
    upload: Upload,
    records: seq<StepRecord>,
    failure: Option<(StepName, string)>)

  /** Record `k` is named after step `k` of the pipeline. */
  ghost predicate Named(recs: seq<StepRecord>) {
    |recs| <= |Steps| && forall k :: 0 <= k < |recs| ==> recs[k].name == StepLabel(Steps[k])
  }

  /** The first `n` records are successes. */
  ghost predicate Succeeded(recs: seq<StepRecord>, n: nat) {
    n <= |recs| && forall k :: 0 <= k < n ==> recs[k].status == SuccessStatus
  }

  /** The records of a finished run: every step in pipeline order, all
      successful; or the steps up to a last failed one. */
  ghost predicate RecordsFollowSteps(r: Trace) {
    && Named(r.records)
    && (r.failure.None? ==> |r.records| == |Steps| && Succeeded(r.records, |Steps|))
    && (r.failure.Some? ==>
          && |r.records| > 0
          && Steps[|r.records| - 1] == r.failure.value.0
          && r.records[|r.records| - 1] == StepRecord(StepLabel(r.failure.value.0), FailedStatus, r.failure.value.1)
          && Succeeded(r.records, |r.records| - 1))
  }

  lemma NamedSnoc(recs: seq<StepRecord>, rec: StepRecord)
    requires Named(recs) && |recs| < |Steps| && rec.name == StepLabel(Steps[|recs|])
    ensures Named(recs + [rec])
  {
  }

  lemma SucceededSnoc(recs: seq<StepRecord>, rec: StepRecord)
    requires Succeeded(recs, |recs|)
    ensures Succeeded(recs + [rec], |recs|)
    ensures rec.status == SuccessStatus ==> Succeeded(recs + [rec], |recs| + 1)
  {
  }

  /** A step executor: runs one named step on the current frame and upload. */
  type Executor = (StepName, Option<Grid>, Upload) -> Result<Done, string>

  /** The executor of the pipeline's own steps over `env`. */
  function StepsOf(env: Env): Executor {
    (step, grid, upload) => RunStep(step, grid, upload, env)
  }

  /** What the fold relies on from an executor, as `RunStep` guarantees it. */
  ghost predicate Executes(exec: Executor) {
    forall step, grid, upload ::
      && (exec(step, grid, upload).Ok? && step == Standardize ==> exec(step, grid, upload).value.grid.Some?)
      && (exec(step, grid, upload).Ok? && step != Standardize ==> exec(step, grid, upload).value.grid == grid)
      && (exec(step, grid, upload).Ok? && step != Publish ==> exec(step, grid, upload).value.upload == upload)
      && (exec(step, grid, upload).Ok? && step == Publish ==>
            exec(step, grid, upload).value.upload == upload.(status := Published))
  }

  lemma StepsOfExecutes(env: Env)
    ensures Executes(StepsOf(env))
  {
  }

  /** The loop over `PIPELINE` from step `i` on: each step is recorded as it
      finishes, and the first failure stops the loop. */
  function RunFrom(i: nat, t: Trace, exec: Executor): (r: Trace)
    requires Executes(exec)
    requires i <= |Steps| && |t.records| == i && t.failure.None?
    requires i > 0 ==> t.grid.Some?
    ensures i <= |r.records| <= |Steps| && (r.failure.Some? ==> i < |r.records|)
    ensures r.failure.None? ==> r.upload == (if i < |Steps| then t.upload.(status := Published) else t.upload)
    ensures r.failure.Some? ==> r.upload == t.upload
    ensures r.failure.Some? && r.failure.value.0 != Standardize ==> r.grid.Some?
    ensures r.failure.Some? ==> exec(r.failure.value.0, r.grid, r.upload) == Err(r.failure.value.1)
    decreases |Steps| - i
  {
    if i == |Steps| then t
    else
      var step := Steps[i];
      match exec(step, t.grid, t.upload)
      case Err(e) =>
        assert i == 0 ==> step == Standardize;
        Trace(t.grid, t.upload, t.records + [StepRecord(StepLabel(step), FailedStatus, e)], Some((step, e)))
      case Ok(d) =>
        var rec := StepRecord(StepLabel(step), SuccessStatus, d.log);
        var next := Trace(d.grid, d.upload, t.records + [rec], None);
        assert i == 0 ==> step == Standardize && d.grid.Some?;
        RunFrom(i + 1, next, exec)
  }

  /** One step of the fold that fails ends the run with its record. */
  lemma RunFromFails(i: nat, t: Trace, exec: Executor, e: string)
    requires Executes(exec)
    requires i < |Steps| && |t.records| == i && t.failure.None?
    requires i > 0 ==> t.grid.Some?
    requires exec(Steps[i], t.grid, t.upload) == Err(e)
    ensures RunFrom(i, t, exec)
         == Trace(t.grid, t.upload, t.records + [StepRecord(StepLabel(Steps[i]), FailedStatus, e)], Some((Steps[i], e)))
  {
  }

  /** One step of the fold that succeeds records itself and goes on. */
  lemma RunFromContinues(i: nat, t: Trace, exec: Executor, d: Done)
    requires Executes(exec)
    requires i < |Steps| && |t.records| == i && t.failure.None?
    requires i > 0 ==> t.grid.Some?
    requires exec(Steps[i], t.grid, t.upload) == Ok(d) && d.grid.Some?
    ensures RunFrom(i, t, exec)
         == RunFrom(i + 1, Trace(d.grid, d.upload, t.records + [StepRecord(StepLabel(Steps[i]), SuccessStatus, d.log)], None), exec)
  {
  }

  /** The records of a run from step `i` extend the ones before it by the
      steps in pipeline order. */
  lemma {:induction false} RunFromRecords(i: nat, t: Trace, exec: Executor)
    requires Executes(exec)
    requires i <= |Steps| && |t.records| == i && t.failure.None?
    requires i > 0 ==> t.grid.Some?
    requires Named(t.records) && Succeeded(t.records, i)
    ensures RecordsFollowSteps(RunFrom(i, t, exec))
    decreases |Steps| - i
  {
    if i < |Steps| {
      var step := Steps[i];
      match exec(step, t.grid, t.upload)
      case Err(e) =>
        var rec := StepRecord(StepLabel(step), FailedStatus, e);
        assert RunFrom(i, t, exec) == Trace(t.grid, t.upload, t.records + [rec], Some((step, e)));
        NamedSnoc(t.records, rec);
        SucceededSnoc(t.records, rec);
      case Ok(d) =>
        var rec := StepRecord(StepLabel(step), SuccessStatus, d.log);
        var next := Trace(d.grid, d.upload, t.records + [rec], None);
        assert RunFrom(i, t, exec) == RunFrom(i + 1, next, exec);
        NamedSnoc(t.records, rec);
        SucceededSnoc(t.records, rec);
        RunFromRecords(i + 1, next, exec);
    }
  }

  /** `record_job_metric` for each recorded step, in order. Counters under
      keys of no recorded step do not move. */
  function RecordSteps(m: Metrics.Metrics, recs: seq<StepRecord>): (r: Metrics.Metrics)
    requires Metrics.Valid(m)
    ensures Metrics.Valid(r) && r.incidents == m.incidents
    ensures forall key :: (forall k :: 0 <= k < |recs| ==> key != StepKey(recs[k])) ==>
      Metrics.Count(r.jobs, key) == Metrics.Count(m.jobs, key)
    decreases |recs|
  {
    if recs == [] then m
    else
      var m' := Metrics.RecordJobMetric(m, PipelineJobName + "." + recs[0].name, recs[0].status, 0);
      assert forall k :: 1 <= k < |recs| ==> recs[1..][k - 1] == recs[k];
      RecordSteps(m', recs[1..])
  }

  /** Records with pairwise different names are counted once each. */
  lemma {:induction false} EachStepCountedOnce(m: Metrics.Metrics, recs: seq<StepRecord>)
    requires Metrics.Valid(m)
    requires forall j, k :: 0 <= j < k < |recs| ==> recs[j].name != recs[k].name
    ensures forall k :: 0 <= k < |recs| ==>
      Metrics.Count(RecordSteps(m, recs).jobs, StepKey(recs[k])) == Metrics.Count(m.jobs, StepKey(recs[k])) + 1
    decreases |recs|
  {
    if recs != [] {
      var m' := Metrics.RecordJobMetric(m, PipelineJobName + "." + recs[0].name, recs[0].status, 0);
      var rest := recs[1..];
      var r := RecordSteps(m', rest);
      assert RecordSteps(m, recs) == r;
      EachStepCountedOnce(m', rest);
      forall k | 0 <= k < |recs|
        ensures Metrics.Count(r.jobs, StepKey(recs[k])) == Metrics.Count(m.jobs, StepKey(recs[k])) + 1
      {
        if k == 0 {
          forall j | 0 <= j < |rest| ensures StepKey(recs[0]) != StepKey(rest[j]) {
            assert rest[j] == recs[j + 1];
            if StepKey(recs[0]) == StepKey(rest[j]) {
              StepKeyNames(recs[0], rest[j]);
            }
          }
        } else {
          assert rest[k - 1] == recs[k];
          if StepKey(recs[k]) == StepKey(recs[0]) {
            StepKeyNames(recs[k], recs[0]);
          }
        }
      }
    }
  }

  /** Step keys of records with different names differ. */
  lemma StepKeyNames(a: StepRecord, b: StepRecord)
    requires StepKey(a) == StepKey(b)
    ensures a.name == b.name
  {
    var p := PipelineJobName + ".";
    assert (p + a.name)[|p|..] == a.name;
    assert (p + b.name)[|p|..] == b.name;
  }

  // ---------------------------------------------------------------------------
  // The job

  /** `JobRun` as `_finish_run` leaves it; timings are not modelled. */
  datatype JobRun = JobRun(status: string, exitCode: int, logs: string, steps: seq<StepRecord>)

  /** `_finish_run`: the status, the exit code and the logs cut to the size
      limit, plus one job metric under the run's job name. */
  function FinishRun(steps: seq<StepRecord>, status: string, logs: string, exitCode: int, m: Metrics.Metrics): (r: (JobRun, Metrics.Metrics))
    requires Metrics.Valid(m)
    ensures |r.0.logs| <= MaxLogLength && |r.0.logs| <= |logs| && r.0.logs == logs[..|r.0.logs|]
    ensures |logs| <= MaxLogLength ==> r.0.logs == logs
    ensures Metrics.Valid(r.1) && r.1.incidents == m.incidents
    ensures Metrics.Count(r.1.jobs, Metrics.JobKey(PipelineJobName, status))
      == Metrics.Count(m.jobs, Metrics.JobKey(PipelineJobName, status)) + 1
    ensures forall key :: key != Metrics.JobKey(PipelineJobName, status) ==>
      Metrics.Count(r.1.jobs, key) == Metrics.Count(m.jobs, key)
  {
    (JobRun(status, exitCode, Truncate(logs, MaxLogLength), steps),
     Metrics.RecordJobMetric(m, PipelineJobName, status, 0))
  }

  /** The message a failed step leaves: its name and the error it raised. */
  function FailureMessage(step: StepName, e: string): string {
    StepLabel(step) + " failed: " + e
  }

  /** Everything a run of the job leaves behind: the seeded rule library, the
      upload, the finished run, the incident with its ticket and scheduled
      re-runs when the run failed, and the metrics. */
  datatype JobOutcome = JobOutcome(
    library: seq<Rule>,
    upload: Upload,
    run: JobRun,
    created: Option<Creation>,
    metrics: Metrics.Metrics)

  /** The fold over `PIPELINE` from the first step. */
  function RunPipeline(upload: Upload, env: Env): (r: Trace)
    ensures RecordsFollowSteps(r)
    ensures r.failure.None? ==> r.upload == upload.(status := Published)
    ensures r.failure.Some? ==> r.upload == upload
    ensures r.failure.Some? ==> RunStep(r.failure.value.0, r.grid, r.upload, env) == Err(r.failure.value.1)
  {
    StepsOfExecutes(env);
    var t := Trace(None, upload, [], None);
    RunFromRecords(0, t, StepsOf(env));
    RunFrom(0, t, StepsOf(env))
  }

  /** `job_chain_standardize(upload_id)`, with the rule library to seed as
      `seeds`; the source seeds `KnownErrors.DefaultKnownErrors`. The
      rules are seeded first (new rule ids are drawn from `nextRuleId` on) and
      the upload is set to
      processing; then the steps run. A clean run finishes successfully with
      the upload published. The first failure ends the run as failed with exit
      code 1, marks the upload failed and opens a fresh incident and a ticket
      (with the ids given) whose error is the failure message; triage of that
      incident decides on a re-run. Every recorded step counts one job metric under
      `results_pipeline.<step>`, and the run one under `results_pipeline`. */
  function JobChainStandardize(
    upload: Upload, env: Env, seeds: seq<KnownErrors.Seed>, rules: seq<Rule>, nextRuleId: nat, search: Search,
    runId: string, incidentId: string, ticketId: string, now: Timestamp,
    m: Metrics.Metrics): (r: JobOutcome)
    requires Metrics.Valid(m)
    ensures r.library == KnownErrors.EnsureDefaults(rules, seeds, nextRuleId, now)
    ensures r.created.None? <==> r.run.status == SuccessStatus
    ensures r.run.status == SuccessStatus ==>
      r.upload == upload.(status := Published) && r.run.exitCode == 0 && |r.run.steps| == |Steps|
    ensures r.run.status != SuccessStatus ==>
      && r.run.status == FailedStatus && r.run.exitCode == 1 && r.upload == upload.(status := Failed)
      && 0 < |r.run.steps| <= |Steps|
    ensures r.created.Some? ==>
      var last := r.run.steps[|r.run.steps| - 1];
      var inc := r.created.value.incident;
      && last.status == FailedStatus
      && inc.id == incidentId && inc.uploadId == upload.id && inc.jobRunId == Some(runId)
      && inc.error == last.name + " failed: " + last.logs
    ensures |r.run.logs| <= MaxLogLength
    ensures Metrics.Valid(r.metrics)
  {
    var library := KnownErrors.EnsureDefaults(rules, seeds, nextRuleId, now);
    var t := RunPipeline(upload.(status := Processing), env);
    var r := Conclude(upload.id, t, library, search, runId, incidentId, ticketId, now, RecordSteps(m, t.records));
    assert t.failure.Some? ==>
      var last := t.records[|t.records| - 1];
      last.status == FailedStatus && r.created.value.incident.error == last.name + " failed: " + last.logs;
    r
  }

  /** `_finish_run` at the end of the job: the run keeps the recorded steps,
      succeeds with exit code 0 when no step failed and otherwise fails with
      exit code 1, and its log is the step lines, then the failure message,
      joined by newlines and cut to the size limit. */
  function FinishJob(t: Trace, m: Metrics.Metrics): (r: (JobRun, Metrics.Metrics))
    requires Metrics.Valid(m)
    ensures var log := Join(LogLines(t.records) + (if t.failure.Some? then [FailureMessage(t.failure.value.0, t.failure.value.1)] else []), "\n");
      && r.0.steps == t.records
      && (t.failure.None? ==> r.0.status == SuccessStatus && r.0.exitCode == 0)
      && (t.failure.Some? ==> r.0.status == FailedStatus && r.0.exitCode == 1)
      && |r.0.logs| <= MaxLogLength && |r.0.logs| <= |log| && r.0.logs == log[..|r.0.logs|]
      && (|log| <= MaxLogLength ==> r.0.logs == log)
    ensures Metrics.Valid(r.1) && r.1.incidents == m.incidents
    ensures r.1.jobs == Metrics.RecordJobMetric(m, PipelineJobName, r.0.status, 0).jobs
  {
    var lines := LogLines(t.records);
    match t.failure
    case None =>
      assert lines + [] == lines;
      FinishRun(t.records, SuccessStatus, Truncate(Join(lines, "\n"), MaxLogLength), 0, m)
    case Some((step, e)) =>
      FinishRun(t.records, FailedStatus, Truncate(Join(lines + [FailureMessage(step, e)], "\n"), MaxLogLength), 1, m)
  }

  /** The end of the job once the steps have run: the run is finished; on a
      failure the upload is marked failed and a fresh incident with its
      ticket is opened for the failure message. */
  function Conclude(
    uploadId: string, t: Trace, library: seq<Rule>, search: Search, runId: string, incidentId: string,
    ticketId: string, now: Timestamp, m: Metrics.Metrics): (r: JobOutcome)
    requires Metrics.Valid(m)
    ensures r.library == library && r.run.steps == t.records && |r.run.logs| <= MaxLogLength
    ensures r.created.None? <==> t.failure.None?
    ensures t.failure.None? ==> r.upload == t.upload && r.run.status == SuccessStatus && r.run.exitCode == 0
    ensures t.failure.Some? ==>
      && r.upload == t.upload.(status := Failed) && r.run.status == FailedStatus && r.run.exitCode == 1
      && var inc := r.created.value.incident;
         && inc.id == incidentId && inc.uploadId == uploadId && inc.jobRunId == Some(runId)
         && inc.error == FailureMessage(t.failure.value.0, t.failure.value.1)
    // the incident is the fresh one `_create_incident_and_ticket` opens
    ensures t.failure.Some? ==>
      r.created.value == CreateIncidentAndTicket(uploadId, runId, PipelineJobName,
                                                 FailureMessage(t.failure.value.0, t.failure.value.1),
                                                 library, search, incidentId, ticketId, now,
                                                 FinishJob(t, m).1)
    ensures Metrics.Valid(r.metrics)
    ensures r.metrics.jobs == Metrics.RecordJobMetric(m, PipelineJobName, r.run.status, 0).jobs
    ensures Metrics.Count(r.metrics.incidents, ["open"])
      == Metrics.Count(m.incidents, ["open"]) + (if t.failure.Some? then 1 else 0)
    ensures forall key :: key != ["open"] ==> Metrics.Count(r.metrics.incidents, key) == Metrics.Count(m.incidents, key)
  {
    var (run, m') := FinishJob(t, m);
    match t.failure
    case None => JobOutcome(library, t.upload, run, None, m')
    case Some((step, e)) =>
      var c := CreateIncidentAndTicket(uploadId, runId, PipelineJobName, FailureMessage(step, e), library, search,
                                       incidentId, ticketId, now, m');
      JobOutcome(library, t.upload.(status := Failed), run, Some(c), c.metrics)
  }

  // ---------------------------------------------------------------------------
  // Properties of the job

  /** Recorded steps have pairwise different names. */
  lemma NamedDistinct(recs: seq<StepRecord>)
    requires Named(recs)
    ensures forall j, k :: 0 <= j < k < |recs| ==> recs[j].name != recs[k].name
  {
    forall j, k | 0 <= j < k < |recs| ensures recs[j].name != recs[k].name {
      StepLabelsDistinct(Steps[j], Steps[k]);
    }
  }

  /** The run's own metric key is never the key of a step. */
  lemma RunKeyIsNoStepKey(status: string, rec: StepRecord)
    ensures Metrics.JobKey(PipelineJobName, status) != StepKey(rec)
  {
    assert |Metrics.JobKey(PipelineJobName, status)[0]| < |StepKey(rec)[0]|;
  }

  /** The job unfolded into its three stages. */
  lemma JobStages(
    upload: Upload, env: Env, seeds: seq<KnownErrors.Seed>, rules: seq<Rule>, nextRuleId: nat, search: Search,
    runId: string, incidentId: string, ticketId: string, now: Timestamp,
    m: Metrics.Metrics)
    requires Metrics.Valid(m)
    ensures var t := RunPipeline(upload.(status := Processing), env);
      JobChainStandardize(upload, env, seeds, rules, nextRuleId, search, runId, incidentId, ticketId, now, m)
      == Conclude(upload.id, t, KnownErrors.EnsureDefaults(rules, seeds, nextRuleId, now), search, runId,
                  incidentId, ticketId, now, RecordSteps(m, t.records))
  {
  }

  /** The recorded steps of a run are a prefix of `PIPELINE`, in order, all
      successful but a failed last one; a successful run records all five. */
  lemma JobFollowsPipeline(
    upload: Upload, env: Env, seeds: seq<KnownErrors.Seed>, rules: seq<Rule>, nextRuleId: nat, search: Search,
    runId: string, incidentId: string, ticketId: string, now: Timestamp,
    m: Metrics.Metrics)
    requires Metrics.Valid(m)
    ensures var r := JobChainStandardize(upload, env, seeds, rules, nextRuleId, search, runId, incidentId,
                                         ticketId, now, m);
      var steps := r.run.steps;
      && 0 < |steps| <= |Steps|
      && (forall k :: 0 <= k < |steps| ==> steps[k].name == StepLabel(Steps[k]))
      && (forall k :: 0 <= k < |steps| - 1 ==> steps[k].status == SuccessStatus)
      && steps[|steps| - 1].status == r.run.status
      && steps == RunPipeline(upload.(status := Processing), env).records
  {
    JobStages(upload, env, seeds, rules, nextRuleId, search, runId, incidentId, ticketId, now, m);
  }

  /** Every recorded step bumps its own counter once, the run bumps the
      counter of the pipeline job under its final status once, and a failed
      run adds one open incident. */
  lemma JobMetrics(
    upload: Upload, env: Env, seeds: seq<KnownErrors.Seed>, rules: seq<Rule>, nextRuleId: nat, search: Search,
    runId: string, incidentId: string, ticketId: string, now: Timestamp,
    m: Metrics.Metrics)
    requires Metrics.Valid(m)
    ensures var r := JobChainStandardize(upload, env, seeds, rules, nextRuleId, search, runId, incidentId,
                                         ticketId, now, m);
      var steps := r.run.steps;
      && (forall k :: 0 <= k < |steps| ==>
            Metrics.Count(r.metrics.jobs, StepKey(steps[k])) == Metrics.Count(m.jobs, StepKey(steps[k])) + 1)
      && Metrics.Count(r.metrics.jobs, Metrics.JobKey(PipelineJobName, r.run.status))
         == Metrics.Count(m.jobs, Metrics.JobKey(PipelineJobName, r.run.status)) + 1
      && Metrics.Count(r.metrics.incidents, ["open"])
         == Metrics.Count(m.incidents, ["open"]) + (if r.created.Some? then 1 else 0)
  {
    var t := RunPipeline(upload.(status := Processing), env);
    JobStages(upload, env, seeds, rules, nextRuleId, search, runId, incidentId, ticketId, now, m);
    var r := JobChainStandardize(upload, env, seeds, rules, nextRuleId, search, runId, incidentId, ticketId, now, m);
    CountsAfterRun(m, t.records, r.run.status);
  }

  /** The step counters, then one more for the run. */
  lemma CountsAfterRun(m: Metrics.Metrics, recs: seq<StepRecord>, status: string)
    requires Metrics.Valid(m) && Named(recs)
    ensures var final := Metrics.RecordJobMetric(RecordSteps(m, recs), PipelineJobName, status, 0).jobs;
      && (forall k :: 0 <= k < |recs| ==>
            Metrics.Count(final, StepKey(recs[k])) == Metrics.Count(m.jobs, StepKey(recs[k])) + 1)
      && Metrics.Count(final, Metrics.JobKey(PipelineJobName, status))
         == Metrics.Count(m.jobs, Metrics.JobKey(PipelineJobName, status)) + 1
  {
    RunCountAfterSteps(m, recs, status);
    NamedDistinct(recs);
    EachStepCountedOnce(m, recs);
    forall k | 0 <= k < |recs| ensures Metrics.JobKey(PipelineJobName, status) != StepKey(recs[k]) {
      RunKeyIsNoStepKey(status, recs[k]);
    }
  }

  /** Recording the steps leaves the counter of the run itself alone. */
  lemma RunCountAfterSteps(m: Metrics.Metrics, recs: seq<StepRecord>, status: string)
    requires Metrics.Valid(m)
    ensures var runKey := Metrics.JobKey(PipelineJobName, status);
      Metrics.Count(RecordSteps(m, recs).jobs, runKey) == Metrics.Count(m.jobs, runKey)
  {
    forall k | 0 <= k < |recs| ensures Metrics.JobKey(PipelineJobName, status) != StepKey(recs[k]) {
      RunKeyIsNoStepKey(status, recs[k]);
    }
  }

  /** As written, a failed run schedules at most one re-run, and does so
      exactly when the rule matched for the failure message retries a fresh
      incident: the new incident's counter starts from zero whatever the
      upload's earlier failures spent. */
  lemma FailedJobRetriesFresh(
    upload: Upload, env: Env, seeds: seq<KnownErrors.Seed>, rules: seq<Rule>, nextRuleId: nat, search: Search,
    runId: string, incidentId: string, ticketId: string, now: Timestamp,
    m: Metrics.Metrics)
    requires Metrics.Valid(m)
    ensures var r := JobChainStandardize(upload, env, seeds, rules, nextRuleId, search, runId, incidentId,
                                         ticketId, now, m);
      r.created.Some? ==>
        var c := r.created.value;
        && c.incident.autoRetryCount == |c.effects| <= 1
        && (|c.effects| == 1 <==> RetriesFresh(r.library, c.incident.error, search))
  {
    JobStages(upload, env, seeds, rules, nextRuleId, search, runId, incidentId, ticketId, now, m);
  }

  /** A file the loader rejects fails the first step: the run holds one
      failed record carrying the loader's error, and the incident's error
      names the step. */
  lemma LoadFailureStopsAtFirstStep(
    upload: Upload, env: Env, seeds: seq<KnownErrors.Seed>, rules: seq<Rule>, nextRuleId: nat, search: Search,
    runId: string, incidentId: string, ticketId: string, now: Timestamp,
    m: Metrics.Metrics)
    requires Metrics.Valid(m)
    requires LoadFrame(upload.filePath, env.files).Err?
    ensures var r := JobChainStandardize(upload, env, seeds, rules, nextRuleId, search, runId, incidentId,
                                         ticketId, now, m);
      var e := LoadFrame(upload.filePath, env.files).error;
      && r.run.steps == [StepRecord("standardize_results", FailedStatus, e)]
      && r.upload == upload.(status := Failed)
      && r.created.Some? && r.created.value.incident.error == "standardize_results failed: " + e
  {
    var u := upload.(status := Processing);
    var e := LoadFrame(upload.filePath, env.files).error;
    var t := RunPipeline(u, env);
    LoadFailureRun(u, env);
    JobStages(upload, env, seeds, rules, nextRuleId, search, runId, incidentId, ticketId, now, m);
    var r := Conclude(upload.id, t, KnownErrors.EnsureDefaults(rules, seeds, nextRuleId, now), search, runId,
                      incidentId, ticketId, now, RecordSteps(m, t.records));
    assert r.run.steps == [StepRecord("standardize_results", FailedStatus, e)];
    assert r.upload == upload.(status := Failed);
    assert r.created.value.incident.error == FailureMessage(Standardize, e);
    StandardizeFailureMessage(e);
  }

  lemma StandardizeFailureMessage(e: string)
    ensures FailureMessage(Standardize, e) == "standardize_results failed: " + e
  {
    assert StepLabel(Standardize) + " failed: " == "standardize_results failed: ";
  }

  lemma LoadFailureRun(u: Upload, env: Env)
    requires LoadFrame(u.filePath, env.files).Err?
    ensures var e := LoadFrame(u.filePath, env.files).error;
      RunPipeline(u, env) == Trace(None, u, [StepRecord(StepLabel(Standardize), FailedStatus, e)], Some((Standardize, e)))
  {
    var e := LoadFrame(u.filePath, env.files).error;
    StandardizeStep(None, u, env);
    StepsOfExecutes(env);
    var t0 := Trace(None, u, [], None);
    assert StepsOf(env)(Standardize, None, u) == Err(e);
    assert RunFrom(0, t0, StepsOf(env))
        == Trace(None, u, [StepRecord(StepLabel(Standardize), FailedStatus, e)], Some((Standardize, e)));
  }

  /** An existing `.docx` upload fails at the first step as an unsupported
      file type. */
  lemma DocxUploadFails(
    upload: Upload, env: Env, seeds: seq<KnownErrors.Seed>, rules: seq<Rule>, nextRuleId: nat, search: Search,
    runId: string, incidentId: string, ticketId: string, now: Timestamp,
    m: Metrics.Metrics, dir: string, stem: string)
    requires Metrics.Valid(m)
    requires stem != "" && stem[0] != '.' && forall i :: 0 <= i < |stem| ==> stem[i] != '/'
    requires upload.filePath == dir + "/" + stem + ".docx" && env.files.pathExists(upload.filePath)
    ensures var r := JobChainStandardize(upload, env, seeds, rules, nextRuleId, search, runId, incidentId,
                                         ticketId, now, m);
      && r.run.steps == [StepRecord("standardize_results", "failed", "Unsupported file type: .docx")]
      && r.created.Some?
      && r.created.value.incident.error == "standardize_results failed: Unsupported file type: .docx"
  {
    DocxIsUnsupported(env.files, dir, stem);
    LoadFailureStopsAtFirstStep(upload, env, seeds, rules, nextRuleId, search, runId, incidentId, ticketId,
                                now, m);
    DocxMessage();
  }

  lemma DocxMessage()
    ensures "standardize_results failed: " + "Unsupported file type: .docx"
         == "standardize_results failed: Unsupported file type: .docx"
  {
  }

  /** The header labels "Student Id" and "score" after the standardize
      step. */
  lemma SpacedHeaderLabels()
    ensures NormalizeColumns(["Student Id", "score"]) == ["student id", "score"]
  {
    StudentIdLabel();
    ScoreLabel();
    NormalizePair("Student Id", "score");
  }

  lemma NormalizePair(x: string, y: string)
    ensures NormalizeColumns([x, y]) == [NormalizeLabel(x), NormalizeLabel(y)]
  {
  }

  lemma StudentIdLabel()
    ensures NormalizeLabel("Student Id") == "student id"
  {
    StudentIdWords();
    LettersAreToken("Student");
    LettersAreToken("Id");
    TwoWordLabel("Student", "Id");
    StudentIdLower();
  }

  lemma StudentIdWords()
    ensures "Student Id" == "Student" + " " + "Id"
  {
  }

  lemma StudentIdLower()
    ensures Lower("Student") + " " + Lower("Id") == "student id"
  {
    var a, b := Lower("Student"), Lower("Id");
    assert a == "student" by { assert a[0] == 's'; }
    assert b == "id" by { assert b[0] == 'i'; }
  }

  lemma ScoreLabel()
    ensures NormalizeLabel("score") == "score"
  {
    LettersAreToken("score");
    WordLabel("score");
    LowerOfNoUpper("score");
  }

  /** A frame with columns "student id" and "score" misses `student_id`. */
  lemma SpacedHeaderErrors(n: nat, department: string)
    requires n > 0
    ensures ValidationErrors(Grid(["student id", "score"], n), department)
         == ["Required columns missing: student_id"]
  {
    SpacedHeaderMissing();
    MissingStudentIdMessage();
  }

  lemma SpacedHeaderMissing()
    ensures Missing(RequiredColumnsDefault, LowerAll(["student id", "score"])) == ["student_id"]
  {
    SpacedHeaderLowered();
    StudentIdAbsent();
    MissingFirstOfPair("student_id", "score", ["student id", "score"]);
  }

  /** Of two required columns, only the absent one is reported. */
  lemma MissingFirstOfPair(a: string, b: string, present: seq<string>)
    requires a !in present && b in present
    ensures Missing([a, b], present) == [a]
  {
    assert [a, b][1..] == [b];
    assert [b][1..] == [];
  }

  lemma SpacedHeaderLowered()
    ensures LowerAll(["student id", "score"]) == ["student id", "score"]
  {
    StudentIdLowered();
    ScoreLowered();
    LowerPair("student id", "score");
  }

  lemma StudentIdLowered()
    ensures Lower("student id") == "student id"
  {
    LowerOfNoUpper("student id");
  }

  lemma ScoreLowered()
    ensures Lower("score") == "score"
  {
    LowerOfNoUpper("score");
  }

  lemma LowerPair(x: string, y: string)
    ensures LowerAll([x, y]) == [Lower(x), Lower(y)]
  {
  }

  lemma StudentIdAbsent()
    ensures "student_id" !in ["student id", "score"]
  {
    assert "student_id" != "student id" by { assert "student_id"[7] != "student id"[7]; }
    assert "student_id" != "score" by { assert "student_id"[1] != "score"[1]; }
  }

  lemma MissingStudentIdMessage()
    ensures MissingColumnsError(["student_id"]) == "Required columns missing: student_id"
  {
  }

  /** A run whose frame loads but fails validation stops after two steps:
      the load succeeded, the validate step failed with its own message, and
      the upload is left as it was. */
  lemma ValidationFailureStopsAtSecondStep(u: Upload, env: Env, g0: Grid, msg: string)
    requires LoadFrame(u.filePath, env.files) == Ok(g0)
    requires RunStep(Validate, Some(Grid(NormalizeColumns(g0.columns), g0.rowCount)), u, env) == Err(msg)
    ensures var t := RunPipeline(u, env);
      && t.failure == Some((Validate, msg)) && t.upload == u
      && |t.records| == 2 && t.records[0].status == SuccessStatus
      && t.records[1] == StepRecord(StepLabel(Validate), FailedStatus, msg)
  {
    StandardizeStep(None, u, env);
    StepsOfExecutes(env);
    var d := RunStep(Standardize, None, u, env).value;
    FoldFailsAtSecondStep(u, StepsOf(env), d, msg);
  }

  /** The fold over an executor whose first step succeeds with a frame and
      whose second step fails. */
  lemma FoldFailsAtSecondStep(u: Upload, exec: Executor, d: Done, msg: string)
    requires Executes(exec)
    requires exec(Standardize, None, u) == Ok(d) && d.grid.Some? && d.upload == u
    requires exec(Validate, d.grid, u) == Err(msg)
    ensures var t := RunFrom(0, Trace(None, u, [], None), exec);
      && t.failure == Some((Validate, msg)) && t.upload == u
      && |t.records| == 2 && t.records[0].status == SuccessStatus
      && t.records[1] == StepRecord(StepLabel(Validate), FailedStatus, msg)
  {
    var t1 := Trace(d.grid, u, [StepRecord(StepLabel(Standardize), SuccessStatus, d.log)], None);
    RunFromContinues(0, Trace(None, u, [], None), exec, d);
    RunFromFails(1, t1, exec, msg);
  }

  /** The run on a spaced "Student Id" header stops at the validate step. */
  lemma SpacedHeaderRun(u: Upload, env: Env, n: nat)
    requires n > 0 && LoadFrame(u.filePath, env.files) == Ok(Grid(["Student Id", "score"], n))
    ensures var msg := "Required columns missing: student_id";
      var t := RunPipeline(u, env);
      && t.failure == Some((Validate, msg)) && t.upload == u
      && |t.records| == 2 && t.records[0].status == SuccessStatus
      && t.records[1] == StepRecord(StepLabel(Validate), FailedStatus, msg)
  {
    SpacedHeaderValidate(u, env, n);
    ValidationFailureStopsAtSecondStep(u, env, Grid(["Student Id", "score"], n), "Required columns missing: student_id");
  }

  lemma SpacedHeaderValidate(u: Upload, env: Env, n: nat)
    requires n > 0
    ensures RunStep(Validate, Some(Grid(NormalizeColumns(["Student Id", "score"]), n)), u, env)
         == Err("Required columns missing: student_id")
  {
    SpacedHeaderLabels();
    SpacedHeaderErrors(n, u.department);
    ValidateStep(Grid(["student id", "score"], n), u, env);
    JoinSingle("Required columns missing: student_id", "; ");
  }

  /** Header labels are normalised before the required columns are looked
      up, and "Student Id" becomes "student id", not `student_id`: an upload
      with that header fails validation even though it looks compliant. */
  lemma SpacedHeaderFailsValidation(
    upload: Upload, env: Env, seeds: seq<KnownErrors.Seed>, rules: seq<Rule>, nextRuleId: nat, search: Search,
    runId: string, incidentId: string, ticketId: string, now: Timestamp,
    m: Metrics.Metrics, n: nat)
    requires Metrics.Valid(m)
    requires n > 0 && LoadFrame(upload.filePath, env.files) == Ok(Grid(["Student Id", "score"], n))
    ensures var r := JobChainStandardize(upload, env, seeds, rules, nextRuleId, search, runId, incidentId,
                                         ticketId, now, m);
      && r.run.status == FailedStatus && r.upload.status == Failed
      && |r.run.steps| == 2
      && r.run.steps[1] == StepRecord("validate_results", "failed", "Required columns missing: student_id")
      && r.created.Some?
      && r.created.value.incident.error == "validate_results failed: " + "Required columns missing: student_id"
  {
    var u := upload.(status := Processing);
    var t := RunPipeline(u, env);
    SpacedHeaderRun(u, env, n);
    JobStages(upload, env, seeds, rules, nextRuleId, search, runId, incidentId, ticketId, now, m);
    ValidateFailureMessage("Required columns missing: student_id");
  }

  lemma ValidateFailureMessage(e: string)
    ensures FailureMessage(Validate, e) == "validate_results failed: " + e
  {
    assert StepLabel(Validate) + " failed: " == "validate_results failed: ";
  }
}

=== FILE: retry_budget.dfy ===
/** The retry budget across repeated failures of one upload.

    As written in backend/core/workers.py, every failed run creates a fresh
    incident whose retry counter starts at zero, and triage only ever runs on
    that fresh incident, so the cap `max_auto_retries` is never reached: an
    upload that keeps failing with an error whose rule enables automatic retry
    is re-queued after every failure, without end. This module exhibits that
    behaviour and defines the evidently intended one, in which the new incident
    inherits the counter of the previous incident for the same upload and rule,
    so that consecutive identical failures stop at the cap. */
module RetryBudget {
  import opened Common
  import opened Models
  import opened Text
  import opened Incidents
  import Metrics
  import KnownErrors
  import Pipeline

  // ---------------------------------------------------------------------------
  // Chains of failures

  /** The incident and ticket opened for one failure of the upload, given the
      incident opened for the failure before it, if any. The metrics play no
      part in the retry count, so a chain books every failure against the same
      metrics. */
  type Creator = Option<Incident> -> Creation

  /** Retries scheduled by `n` consecutive identical failures, and the last
      incident opened. */
  datatype Chain = Chain(total: nat, last: Option<Incident>)

  function ChainOf(n: nat, prior: Option<Incident>, create: Creator): Chain
    decreases n
  {
    if n == 0 then Chain(0, prior)
    else
      var c := create(prior);
      var rest := ChainOf(n - 1, Some(c.incident), create);
      Chain(|c.effects| + rest.total, rest.last)
  }

  /** When every failure schedules a re-run, `n` failures schedule `n`. */
  lemma {:induction false} EveryFailureRetries(n: nat, prior: Option<Incident>, create: Creator)
    requires forall p :: |create(p).effects| == 1
    ensures ChainOf(n, prior, create).total == n
    decreases n
  {
    if n > 0 {
      EveryFailureRetries(n - 1, Some(create(prior).incident), create);
    }
  }

  /** Failures as the source handles them: each opens a fresh incident,
      whatever came before. */
  function AsWrittenCreator(uploadId: string, runId: string, jobName: string, errorText: string,
                            rules: seq<Rule>, search: Search, now: Timestamp, m: Metrics.Metrics): Creator
    requires Metrics.Valid(m)
  {
    prior => CreateIncidentAndTicket(uploadId, runId, jobName, errorText, rules, search, "incident", "ticket", now, m)
  }

  /** Retries scheduled by `n` consecutive identical failures of one upload,
      as the source handles them. */
  function AsWrittenChain(n: nat, uploadId: string, runId: string, jobName: string, errorText: string,
                          rules: seq<Rule>, search: Search, now: Timestamp, m: Metrics.Metrics): nat
    requires Metrics.Valid(m)
  {
    ChainOf(n, None, AsWrittenCreator(uploadId, runId, jobName, errorText, rules, search, now, m)).total
  }

  /** As written, every failure whose rule retries schedules one more re-run,
      however many failures came before: `n` failures schedule `n` re-runs. */
  lemma AsWrittenRetriesAreUnbounded(n: nat, uploadId: string, runId: string, jobName: string,
                                     errorText: string, rules: seq<Rule>, search: Search,
                                     now: Timestamp, m: Metrics.Metrics)
    requires Metrics.Valid(m)
    requires RetriesFresh(rules, errorText, search)
    ensures AsWrittenChain(n, uploadId, runId, jobName, errorText, rules, search, now, m) == n
  {
    var create := AsWrittenCreator(uploadId, runId, jobName, errorText, rules, search, now, m);
    forall p ensures |create(p).effects| == 1 {
      FreshIncidentRetries(uploadId, runId, jobName, errorText, rules, search, now, m);
    }
    EveryFailureRetries(n, None, create);
  }

  /** A fresh incident for an error whose rule retries schedules a re-run. */
  lemma FreshIncidentRetries(uploadId: string, runId: string, jobName: string, errorText: string,
                             rules: seq<Rule>, search: Search, now: Timestamp, m: Metrics.Metrics)
    requires Metrics.Valid(m)
    requires RetriesFresh(rules, errorText, search)
    ensures |CreateIncidentAndTicket(uploadId, runId, jobName, errorText, rules, search, "incident", "ticket", now, m).effects| == 1
  {
  }

  /** The concrete case: with the default cap of 2, a third identical failure
      still schedules a re-run, so three failures schedule three. */
  lemma ThirdFailureStillRetries(uploadId: string, runId: string, jobName: string, errorText: string,
                                 rules: seq<Rule>, search: Search, now: Timestamp)
    requires RetriesFresh(rules, errorText, search)
    requires FreshCap(MatchKnownError(rules, errorText, search).value.fix) == 2
    ensures AsWrittenChain(3, uploadId, runId, jobName, errorText, rules, search, now, Metrics.NoMetrics) == 3
  {
    AsWrittenRetriesAreUnbounded(3, uploadId, runId, jobName, errorText, rules, search, now, Metrics.NoMetrics);
  }

  // ---------------------------------------------------------------------------
  // The intended behaviour

  /** Retries already spent on this upload and rule: the counter of the
      previous incident when it belongs to the same upload and matched the same
      rule, otherwise none. */
  function CarriedRetries(prior: Option<Incident>, uploadId: string, matched: Option<Rule>): nat {
    if prior.Some? && prior.value.uploadId == uploadId && matched.Some?
       && prior.value.matchedRule == Some(matched.value.id) && prior.value.autoRetryCount > 0
    then prior.value.autoRetryCount
    else 0
  }

  /** Incident and ticket creation that charges the new incident with the
      retries already spent: the new incident records the failure and starts
      its counter at the spent retries, and triage schedules a re-run exactly
      while budget remains. */
  function CreateIncidentCarryingRetries(
    prior: Option<Incident>, uploadId: string, runId: string, jobName: string, errorText: string,
    rules: seq<Rule>, search: Search, incidentId: string, ticketId: string, now: Timestamp,
    m: Metrics.Metrics): (r: Creation)
    requires Metrics.Valid(m)
    ensures var matched := MatchKnownError(rules, errorText, search);
      var spent := CarriedRetries(prior, uploadId, matched);
      && r.incident.id == incidentId && r.incident.uploadId == uploadId
      && r.incident.jobRunId == Some(runId) && r.incident.error == errorText
      && r.incident.matchedRule == (if matched.Some? then Some(matched.value.id) else None)
      && r.incident.autoRetryCount == spent + |r.effects| && |r.effects| <= 1
      && (|r.effects| == 1 <==> matched.Some? && RetryPolicy(matched.value.fix).enabled
                                && spent < FreshCap(matched.value.fix))
    ensures Metrics.Valid(r.metrics) && r.metrics.jobs == m.jobs
    ensures Metrics.Count(r.metrics.incidents, ["open"]) == Metrics.Count(m.incidents, ["open"]) + 1
  {
    var matched := MatchKnownError(rules, errorText, search);
    var spent := CarriedRetries(prior, uploadId, matched);
    var created := NewIncident(incidentId, uploadId, runId, matched, errorText, spent);
    var detected := AppendEvent(created, IncidentDetectedEvent, "engine", Some(Truncate(errorText, 280)), now);
    var triaged := AutoTriage(detected, matched, jobName, now);
    TriageRespectsRetryCap(detected, matched, jobName, now);
    Creation(triaged.incident, SystemTicket(ticketId, incidentId, jobName, errorText, now), triaged.effects,
             Metrics.RecordIncidentMetric(m, "open"))
  }

  /** The corrected creation differs from `CreateIncidentAndTicket` only in
      the retry bookkeeping, and agrees with it entirely when nothing was
      spent. */
  lemma CarryingAgreesWithPlain(
    prior: Option<Incident>, uploadId: string, runId: string, jobName: string, errorText: string,
    rules: seq<Rule>, search: Search, incidentId: string, ticketId: string, now: Timestamp,
    m: Metrics.Metrics)
    requires Metrics.Valid(m)
    ensures var r := CreateIncidentCarryingRetries(prior, uploadId, runId, jobName, errorText, rules, search,
                                                   incidentId, ticketId, now, m);
      var plain := CreateIncidentAndTicket(uploadId, runId, jobName, errorText, rules, search, incidentId, ticketId, now, m);
      var spent := CarriedRetries(prior, uploadId, MatchKnownError(rules, errorText, search));
      && r.ticket == plain.ticket && r.metrics == plain.metrics
      && r.incident.(autoRetryCount := 0, state := Open, timeline := []) == plain.incident.(autoRetryCount := 0, state := Open, timeline := [])
      && |r.incident.timeline| == 2 && r.incident.timeline[0] == plain.incident.timeline[0]
      && (spent == 0 ==> r == plain)
  {
  }

  /** `job_chain_standardize` with the corrected creation: the job as the
      source runs it, except that a failure's incident is charged with the
      retries `prior`, the upload's previous incident, has already spent. The
      library, the upload, the finished run and the metrics are those of the
      job as written, and when nothing was spent the whole outcome is. */
  function CorrectedJob(
    upload: Upload, env: Pipeline.Env, seeds: seq<KnownErrors.Seed>, rules: seq<Rule>, nextRuleId: nat,
    search: Search, runId: string, incidentId: string, ticketId: string, prior: Option<Incident>,
    now: Timestamp, m: Metrics.Metrics): (r: Pipeline.JobOutcome)
    requires Metrics.Valid(m)
    ensures var plain := Pipeline.JobChainStandardize(upload, env, seeds, rules, nextRuleId, search, runId,
                                                      incidentId, ticketId, now, m);
      && r.(created := plain.created) == plain
      && (r.created.Some? <==> plain.created.Some?)
      && (r.created.Some? ==>
            && r.created.value.ticket == plain.created.value.ticket
            && r.created.value.incident.error == plain.created.value.incident.error
            && var matched := MatchKnownError(r.library, r.created.value.incident.error, search);
               CarriedRetries(prior, upload.id, matched) == 0 ==> r == plain)
  {
    var library := KnownErrors.EnsureDefaults(rules, seeds, nextRuleId, now);
    var t := Pipeline.RunPipeline(upload.(status := Processing), env);
    var m' := Pipeline.RecordSteps(m, t.records);
    var (run, m'') := Pipeline.FinishJob(t, m');
    Pipeline.JobStages(upload, env, seeds, rules, nextRuleId, search, runId, incidentId, ticketId, now, m);
    match t.failure
    case None => Pipeline.JobOutcome(library, t.upload, run, None, m'')
    case Some((step, e)) =>
      var msg := Pipeline.FailureMessage(step, e);
      CarryingAgreesWithPlain(prior, upload.id, runId, Pipeline.PipelineJobName, msg, library, search,
                              incidentId, ticketId, now, m'');
      var c := CreateIncidentCarryingRetries(prior, upload.id, runId, Pipeline.PipelineJobName, msg, library,
                                             search, incidentId, ticketId, now, m'');
      Pipeline.JobOutcome(library, t.upload.(status := Failed), run, Some(c), c.metrics)
  }

  /** Under the corrected job a failed run schedules at most one re-run:
      exactly when the matched rule retries and the upload's previous
      incident for that rule has not used up its budget. The new incident
      counts the retries spent so far. */
  lemma JobRetryIsCapped(
    upload: Upload, env: Pipeline.Env, seeds: seq<KnownErrors.Seed>, rules: seq<Rule>, nextRuleId: nat,
    search: Search, runId: string, incidentId: string, ticketId: string, prior: Option<Incident>,
    now: Timestamp, m: Metrics.Metrics)
    requires Metrics.Valid(m)
    ensures var r := CorrectedJob(upload, env, seeds, rules, nextRuleId, search, runId, incidentId, ticketId,
                                  prior, now, m);
      r.created.Some? ==>
        var c := r.created.value;
        var matched := MatchKnownError(r.library, c.incident.error, search);
        var spent := CarriedRetries(prior, upload.id, matched);
        && c.incident.autoRetryCount == spent + |c.effects| && |c.effects| <= 1
        && (|c.effects| == 1 <==> matched.Some? && RetryPolicy(matched.value.fix).enabled
                                  && spent < FreshCap(matched.value.fix))
  {
  }

  /** Failures under the corrected creation: each new incident is charged
      with the retries of the one before. */
  function CarryingCreator(uploadId: string, runId: string, jobName: string, errorText: string,
                           rules: seq<Rule>, search: Search, now: Timestamp, m: Metrics.Metrics): Creator
    requires Metrics.Valid(m)
  {
    prior => CreateIncidentCarryingRetries(prior, uploadId, runId, jobName, errorText, rules, search,
                                           "incident", "ticket", now, m)
  }

  function CarryingChain(n: nat, prior: Option<Incident>, uploadId: string, runId: string, jobName: string,
                         errorText: string, rules: seq<Rule>, search: Search, now: Timestamp,
                         m: Metrics.Metrics): Chain
    requires Metrics.Valid(m)
  {
    ChainOf(n, prior, CarryingCreator(uploadId, runId, jobName, errorText, rules, search, now, m))
  }

  /** `create` spends a budget of `cap` retries: charged with `spent <= cap`
      of them, it schedules a re-run exactly while `spent < cap`, and passes
      the new count on. */
  ghost predicate SpendsBudget(create: Creator, uploadId: string, matched: Option<Rule>, cap: int) {
    forall p :: CarriedRetries(p, uploadId, matched) <= cap ==>
      var spent := CarriedRetries(p, uploadId, matched);
      var c := create(p);
      && |c.effects| == (if spent < cap then 1 else 0)
      && c.incident.autoRetryCount == (if spent < cap then spent + 1 else cap)
      && CarriedRetries(Some(c.incident), uploadId, matched) == c.incident.autoRetryCount
  }

  /** A chain under a creation that spends a budget: starting from `spent`
      retries, `n` more failures schedule `min(spent + n, cap) - spent`
      re-runs and leave the count at `min(spent + n, cap)`. */
  lemma {:induction false} BudgetedChain(n: nat, prior: Option<Incident>, create: Creator, uploadId: string,
                                         matched: Option<Rule>, cap: int)
    requires SpendsBudget(create, uploadId, matched, cap)
    requires CarriedRetries(prior, uploadId, matched) <= cap
    ensures var spent := CarriedRetries(prior, uploadId, matched);
      var expected := if spent + n <= cap then spent + n else cap;
      var r := ChainOf(n, prior, create);
      && r.total == expected - spent
      && (n > 0 ==> r.last.Some? && r.last.value.autoRetryCount == expected)
    decreases n
  {
    if n > 0 {
      var c := create(prior);
      BudgetedChain(n - 1, Some(c.incident), create, uploadId, matched, cap);
    }
  }

  /** The corrected creation spends the budget of the matched rule. */
  lemma CarryingSpendsBudget(uploadId: string, runId: string, jobName: string, errorText: string,
                             rules: seq<Rule>, search: Search, now: Timestamp, m: Metrics.Metrics)
    requires Metrics.Valid(m)
    requires RetriesFresh(rules, errorText, search)
    ensures var matched := MatchKnownError(rules, errorText, search);
      SpendsBudget(CarryingCreator(uploadId, runId, jobName, errorText, rules, search, now, m), uploadId,
                   matched, FreshCap(matched.value.fix))
  {
    var matched := MatchKnownError(rules, errorText, search);
    var cap := FreshCap(matched.value.fix);
    var create := CarryingCreator(uploadId, runId, jobName, errorText, rules, search, now, m);
    forall p | CarriedRetries(p, uploadId, matched) <= cap
      ensures var spent := CarriedRetries(p, uploadId, matched);
        var c := create(p);
        && |c.effects| == (if spent < cap then 1 else 0)
        && c.incident.autoRetryCount == (if spent < cap then spent + 1 else cap)
        && CarriedRetries(Some(c.incident), uploadId, matched) == c.incident.autoRetryCount
    {
      CarryStep(p, uploadId, runId, jobName, errorText, rules, search, now, m);
    }
  }

  /** With the counter carried over, consecutive identical failures spend the
      budget and then stop: starting from `spent` retries, `n` more failures
      schedule `min(spent + n, cap) - spent` re-runs. */
  lemma CarriedRetriesAreCapped(n: nat, prior: Option<Incident>, uploadId: string, runId: string,
                                jobName: string, errorText: string, rules: seq<Rule>,
                                search: Search, now: Timestamp, m: Metrics.Metrics)
    requires Metrics.Valid(m)
    requires RetriesFresh(rules, errorText, search)
    requires var matched := MatchKnownError(rules, errorText, search);
      CarriedRetries(prior, uploadId, matched) <= FreshCap(matched.value.fix)
    ensures var matched := MatchKnownError(rules, errorText, search);
      var cap := FreshCap(matched.value.fix);
      var spent := CarriedRetries(prior, uploadId, matched);
      var expected := if spent + n <= cap then spent + n else cap;
      var r := CarryingChain(n, prior, uploadId, runId, jobName, errorText, rules, search, now, m);
      && r.total == expected - spent
      && (n > 0 ==> r.last.Some? && r.last.value.autoRetryCount == expected)
  {
    var matched := MatchKnownError(rules, errorText, search);
    CarryingSpendsBudget(uploadId, runId, jobName, errorText, rules, search, now, m);
    BudgetedChain(n, prior, CarryingCreator(uploadId, runId, jobName, errorText, rules, search, now, m),
                  uploadId, matched, FreshCap(matched.value.fix));
  }

  /** One failure under the corrected creation: a re-run is scheduled exactly
      while budget remains, and the new incident passes its counter on. */
  lemma CarryStep(prior: Option<Incident>, uploadId: string, runId: string, jobName: string, errorText: string,
                  rules: seq<Rule>, search: Search, now: Timestamp, m: Metrics.Metrics)
    requires Metrics.Valid(m)
    requires RetriesFresh(rules, errorText, search)
    requires var matched := MatchKnownError(rules, errorText, search);
      CarriedRetries(prior, uploadId, matched) <= FreshCap(matched.value.fix)
    ensures var matched := MatchKnownError(rules, errorText, search);
      var cap := FreshCap(matched.value.fix);
      var spent := CarriedRetries(prior, uploadId, matched);
      var c := CreateIncidentCarryingRetries(prior, uploadId, runId, jobName, errorText, rules, search,
                                             "incident", "ticket", now, m);
      && |c.effects| == (if spent < cap then 1 else 0)
      && c.incident.autoRetryCount == (if spent < cap then spent + 1 else cap)
      && CarriedRetries(Some(c.incident), uploadId, matched) == c.incident.autoRetryCount
      && Metrics.Valid(c.metrics)
  {
    var matched := MatchKnownError(rules, errorText, search);
    var c := CreateIncidentCarryingRetries(prior, uploadId, runId, jobName, errorText, rules, search,
                                           "incident", "ticket", now, m);
  }

  /** The corrected chain from a clean start: with the default cap of 2,
      three identical failures schedule two re-runs, and the third is the
      one that reaches the limit. */
  lemma ThirdFailureIsCapped(uploadId: string, runId: string, jobName: string, errorText: string,
                             rules: seq<Rule>, search: Search, now: Timestamp)
    requires RetriesFresh(rules, errorText, search)
    requires FreshCap(MatchKnownError(rules, errorText, search).value.fix) == 2
    ensures CarryingChain(3, None, uploadId, runId, jobName, errorText, rules, search, now, Metrics.NoMetrics).total == 2
  {
    CarriedRetriesAreCapped(3, None, uploadId, runId, jobName, errorText, rules, search, now, Metrics.NoMetrics);
  }
}

=== FILE: text.dfy ===
/** The handful of Python string operations the backend relies on:
    `str.split()` with no separator or with one character, `join`, `strip()`,
    `lower()`, slicing `s[:n]` and `str(int)`. */
module Text {

  /** Python's `str.isspace()` for one character: the characters that
      `str.split()` and `str.strip()` treat as whitespace. */
  predicate IsSpace(c: char) {
    var n := c as int;
    (9 <= n <= 13) || (28 <= n <= 32) || n == 0x85 || n == 0xA0 || n == 0x1680
    || (0x2000 <= n <= 0x200A) || n == 0x2028 || n == 0x2029 || n == 0x202F
    || n == 0x205F || n == 0x3000
  }

  predicate NoSpace(s: string) {
    forall i :: 0 <= i < |s| ==> !IsSpace(s[i])
  }

  /** A token as `str.split()` yields it: non-empty, free of whitespace. */
  predicate IsToken(w: string) {
    w != "" && NoSpace(w)
  }

  /** A non-empty word of ASCII letters (and the few signs between the two
      cases) is a token. */
  lemma LettersAreToken(w: string)
    requires w != "" && forall i :: 0 <= i < |w| ==> 'A' <= w[i] <= 'z'
    ensures IsToken(w)
  {
  }

  predicate AllTokens(ws: seq<string>) {
    forall i :: 0 <= i < |ws| ==> IsToken(ws[i])
  }

  // ---------------------------------------------------------------------------
  // Lower-casing

  /** `str.lower()` on one character, for the ASCII letters. */
  function LowerChar(c: char): char {
    if 'A' <= c <= 'Z' then (c as int + 32) as char else c
  }

  predicate IsUpper(c: char) {
    'A' <= c <= 'Z'
  }

  function Lower(s: string): (r: string)
    ensures |r| == |s|
    ensures forall i :: 0 <= i < |s| ==> r[i] == LowerChar(s[i])
  {
    if s == "" then "" else [LowerChar(s[0])] + Lower(s[1..])
  }

  function LowerAll(ws: seq<string>): (r: seq<string>)
    ensures |r| == |ws|
    ensures forall i :: 0 <= i < |ws| ==> r[i] == Lower(ws[i])
  {
    if ws == [] then [] else [Lower(ws[0])] + LowerAll(ws[1..])
  }

  predicate NoUpper(s: string) {
    forall i :: 0 <= i < |s| ==> !IsUpper(s[i])
  }

  lemma LowerAppend(a: string, b: string)
    ensures Lower(a + b) == Lower(a) + Lower(b)
  {
    assert forall i :: 0 <= i < |a + b| ==> Lower(a + b)[i] == (Lower(a) + Lower(b))[i];
  }

  /** Lower-casing has nothing left to do on a lower-cased string. */
  lemma LowerIdempotent(s: string)
    ensures Lower(Lower(s)) == s <==> NoUpper(s)
    ensures NoUpper(Lower(s))
  {
    if Lower(Lower(s)) == s {
      forall i | 0 <= i < |s| ensures !IsUpper(s[i]) {
        assert s[i] == LowerChar(LowerChar(s[i]));
      }
    }
  }

  lemma LowerOfNoUpper(s: string)
    requires NoUpper(s)
    ensures Lower(s) == s
  {
  }

  // ---------------------------------------------------------------------------
  // Splitting on whitespace and joining

  /** Index of the first whitespace character at or after `i`, or `|s|`. */
  function WordEnd(s: string, i: nat): (k: nat)
    requires i <= |s|
    ensures i <= k <= |s|
    ensures forall j :: i <= j < k ==> !IsSpace(s[j])
    ensures k == |s| || IsSpace(s[k])
    decreases |s| - i
  {
    if i == |s| || IsSpace(s[i]) then i else WordEnd(s, i + 1)
  }

  /** Python's `s.split()`: the maximal runs of non-whitespace characters. */
  function Split(s: string): (ws: seq<string>)
    ensures AllTokens(ws)
    decreases |s|
  {
    if s == "" then []
    else if IsSpace(s[0]) then Split(s[1..])
    else
      var k := WordEnd(s, 0);
      [s[..k]] + Split(s[k..])
  }

  /** Python's `sep.join(parts)`. */
  function Join(parts: seq<string>, sep: string): string {
    if parts == [] then ""
    else if |parts| == 1 then parts[0]
    else parts[0] + sep + Join(parts[1..], sep)
  }

  // ---------------------------------------------------------------------------
  // Splitting on one character

  /** Where the first `c` in `s` is, or `|s|` when there is none. */
  function FirstIndex(s: string, c: char): (k: nat)
    ensures k <= |s| && (k < |s| ==> s[k] == c)
    ensures forall j :: 0 <= j < k ==> s[j] != c
    decreases |s|
  {
    if s == "" || s[0] == c then 0 else 1 + FirstIndex(s[1..], c)
  }

  /** Python's `s.split(c)` for a one-character separator: the pieces
      between the separators, empty ones included, and always at least one. */
  function SplitOn(s: string, c: char): (parts: seq<string>)
    ensures parts != []
    ensures forall i :: 0 <= i < |parts| ==> c !in parts[i]
    decreases |s|
  {
    var k := FirstIndex(s, c);
    if k == |s| then [s]
    else
      var rest := SplitOn(s[k + 1..], c);
      assert forall i :: 1 <= i < |rest| + 1 ==> ([s[..k]] + rest)[i] == rest[i - 1];
      [s[..k]] + rest
  }

  /** Splitting on a separator that no part contains undoes the join. */
  lemma {:induction false} SplitOnJoin(parts: seq<string>, c: char)
    requires parts != []
    requires forall i :: 0 <= i < |parts| ==> c !in parts[i]
    ensures SplitOn(Join(parts, [c]), c) == parts
    decreases |parts|
  {
    var p := parts[0];
    if |parts| == 1 {
      assert FirstIndex(p, c) == |p|;
    } else {
      var rest := Join(parts[1..], [c]);
      var s := Join(parts, [c]);
      assert s == p + [c] + rest;
      assert s[|p|] == c;
      assert FirstIndex(s, c) == |p|;
      assert s[..|p|] == p && s[|p| + 1..] == rest;
      SplitOnJoin(parts[1..], c);
      assert parts == [p] + parts[1..];
    }
  }

  /** Joining the pieces with the separator gives the string back. */
  lemma {:induction false} JoinSplitOn(s: string, c: char)
    ensures Join(SplitOn(s, c), [c]) == s
    decreases |s|
  {
    var k := FirstIndex(s, c);
    if k < |s| {
      var rest := SplitOn(s[k + 1..], c);
      JoinSplitOn(s[k + 1..], c);
      assert SplitOn(s, c) == [s[..k]] + rest;
      assert ([s[..k]] + rest)[1..] == rest;
      assert s == s[..k] + [c] + s[k + 1..];
    }
  }

  lemma JoinSingle(w: string, sep: string)
    ensures Join([w], sep) == w
  {
  }

  lemma SplitWordThenSpace(w: string, rest: string)
    requires IsToken(w)
    ensures Split(w + " " + rest) == [w] + Split(rest)
  {
    var s := w + " " + rest;
    WordEndOfToken(s, w);
    assert s[..|w|] == w;
    assert s[|w|..] == " " + rest;
    assert (" " + rest)[1..] == rest;
  }

  lemma WordEndOfToken(s: string, w: string)
    requires IsToken(w) && |w| <= |s| && s[..|w|] == w
    requires |w| == |s| || IsSpace(s[|w|])
    ensures WordEnd(s, 0) == |w|
  {
    var k := WordEnd(s, 0);
    if k < |w| {
      assert s[k] == w[k];
    }
  }

  lemma SplitToken(w: string)
    requires IsToken(w)
    ensures Split(w) == [w]
  {
    WordEndOfToken(w, w);
    assert w[|w|..] == "";
  }

  /** Splitting a space-joined list of tokens gives the tokens back. */
  lemma {:induction false} SplitJoin(ws: seq<string>)
    requires AllTokens(ws)
    ensures Split(Join(ws, " ")) == ws
    decreases |ws|
  {
    if ws == [] {
    } else if |ws| == 1 {
      SplitToken(ws[0]);
    } else {
      SplitJoin(ws[1..]);
      SplitWordThenSpace(ws[0], Join(ws[1..], " "));
      assert ws == [ws[0]] + ws[1..];
    }
  }

  lemma {:induction false} LowerJoin(ws: seq<string>)
    ensures Lower(Join(ws, " ")) == Join(LowerAll(ws), " ")
    decreases |ws|
  {
    if |ws| > 1 {
      LowerJoin(ws[1..]);
      LowerAppend(ws[0] + " ", Join(ws[1..], " "));
      LowerAppend(ws[0], " ");
      assert LowerAll(ws)[1..] == LowerAll(ws[1..]);
    }
  }

  lemma LowerKeepsTokens(ws: seq<string>)
    requires AllTokens(ws)
    ensures AllTokens(LowerAll(ws))
  {
    forall i | 0 <= i < |ws| ensures IsToken(LowerAll(ws)[i]) {
      var w := ws[i];
      forall j | 0 <= j < |w| ensures !IsSpace(Lower(w)[j]) {
        assert IsToken(w);
      }
    }
  }

  /** A space-joined list of tokens starts and ends with a non-space. */
  lemma {:induction false} JoinEdges(ws: seq<string>)
    requires AllTokens(ws) && ws != []
    ensures var s := Join(ws, " "); s != "" && !IsSpace(s[0]) && !IsSpace(s[|s| - 1])
    decreases |ws|
  {
    assert IsToken(ws[0]);
    if |ws| > 1 {
      JoinEdges(ws[1..]);
      var t := Join(ws[1..], " ");
      assert Join(ws, " ") == ws[0] + " " + t;
      assert Join(ws, " ")[|Join(ws, " ")| - 1] == t[|t| - 1];
    }
  }

  // ---------------------------------------------------------------------------
  // Stripping

  /** Python's `s.lstrip()`: the leading whitespace is dropped. */
  function StripLeft(s: string): (r: string)
    ensures |r| <= |s| && r == s[|s| - |r|..]
    ensures forall k :: 0 <= k < |s| - |r| ==> IsSpace(s[k])
    ensures r == "" || !IsSpace(r[0])
    decreases |s|
  {
    if s != "" && IsSpace(s[0]) then StripLeft(s[1..]) else s
  }

  /** Python's `s.rstrip()`: the trailing whitespace is dropped. */
  function StripRight(s: string): (r: string)
    ensures |r| <= |s| && r == s[..|r|]
    ensures forall k :: |r| <= k < |s| ==> IsSpace(s[k])
    ensures r == "" || !IsSpace(r[|r| - 1])
    decreases |s|
  {
    if s != "" && IsSpace(s[|s| - 1]) then StripRight(s[..|s| - 1]) else s
  }

  /** `s[i..j]` is `s` with whitespace only cut off at both ends, and it
      neither starts nor ends with whitespace. */
  ghost predicate TrimmedSlice(s: string, i: int, j: int) {
    && 0 <= i <= j <= |s|
    && (forall k :: 0 <= k < i ==> IsSpace(s[k]))
    && (forall k :: j <= k < |s| ==> IsSpace(s[k]))
    && (i == j || (!IsSpace(s[i]) && !IsSpace(s[j - 1])))
  }

  /** Python's `s.strip()`: the input with its leading and trailing
      whitespace cut off. */
  function Strip(s: string): (r: string)
    ensures r == "" || (!IsSpace(r[0]) && !IsSpace(r[|r| - 1]))
    ensures exists i, j :: TrimmedSlice(s, i, j) && r == s[i..j]
  {
    var t := StripRight(s);
    var r := StripLeft(t);
    assert r != "" ==> r[|r| - 1] == t[|t| - 1];
    StripSlice(s, t, r);
    r
  }

  /** The cut that `Strip` makes: the left strip `r` of the right strip `t`,
      each described by what it keeps and what it drops. */
  lemma StripSlice(s: string, t: string, r: string)
    requires |t| <= |s| && t == s[..|t|] && (forall k :: |t| <= k < |s| ==> IsSpace(s[k]))
    requires t == "" || !IsSpace(t[|t| - 1])
    requires |r| <= |t| && r == t[|t| - |r|..] && (forall k :: 0 <= k < |t| - |r| ==> IsSpace(t[k]))
    requires r == "" || !IsSpace(r[0])
    ensures TrimmedSlice(s, |t| - |r|, |t|) && r == s[|t| - |r|..|t|]
  {
    var i := |t| - |r|;
    assert r == s[i..|t|];
    forall k | 0 <= k < i ensures IsSpace(s[k]) {
      assert s[k] == t[k];
    }
    if r != "" {
      assert s[i] == r[0];
      assert s[|t| - 1] == t[|t| - 1] == r[|r| - 1];
    }
  }

  /** There is only one way to cut whitespace off both ends so that none is
      left at either: whatever cut does so is what `strip()` returns. */
  lemma StripIsUnique(s: string, i: int, j: int)
    requires TrimmedSlice(s, i, j)
    ensures Strip(s) == s[i..j]
  {
    var i', j' :| TrimmedSlice(s, i', j') && Strip(s) == s[i'..j'];
    TrimmedSlicesAgree(s, i, j, i', j');
  }

  lemma TrimmedSlicesAgree(s: string, i: int, j: int, i': int, j': int)
    requires TrimmedSlice(s, i, j) && TrimmedSlice(s, i', j')
    ensures s[i..j] == s[i'..j']
  {
    if i < j && i' < j' {
      assert !IsSpace(s[i]) && !IsSpace(s[i']) && !IsSpace(s[j - 1]) && !IsSpace(s[j' - 1]);
      assert i == i' && j == j';
    } else {
      assert i == j && i' == j';
    }
  }

  /** Stripping a stripped text changes nothing. */
  lemma StripIdempotent(s: string)
    ensures Strip(Strip(s)) == Strip(s)
  {
    StripNoOp(Strip(s));
  }

  lemma StripNoOp(s: string)
    requires s == "" || (!IsSpace(s[0]) && !IsSpace(s[|s| - 1]))
    ensures Strip(s) == s
  {
    StripIsUnique(s, 0, |s|);
  }

  // ---------------------------------------------------------------------------
  // Column label normalisation

  /** `" ".join(s.split())`: whitespace runs collapsed to one space, ends trimmed. */
  function Collapse(s: string): string {
    Join(Split(s), " ")
  }

  /** A label already in the form `" ".join(x.split())` produces. */
  predicate Collapsed(s: string) {
    Collapse(s) == s
  }

  /** The label clean-up of the standardize step:
      `" ".join(str(c).split()).strip().lower()`. The words of the result are
      the lower-cased words of the input, and the result is its own clean-up. */
  function NormalizeLabel(s: string): (r: string)
    ensures Split(r) == LowerAll(Split(s))
    ensures Collapsed(r) && NoUpper(r)
  {
    var c := Collapse(s);
    var ws := Split(s);
    if ws == [] then
      ""
    else
      JoinEdges(ws);
      StripNoOp(c);
      LowerJoin(ws);
      LowerKeepsTokens(ws);
      SplitJoin(LowerAll(ws));
      LowerIdempotent(c);
      Lower(Strip(c))
  }

  /** A label that is a single word is only lower-cased. */
  lemma WordLabel(w: string)
    requires IsToken(w)
    ensures NormalizeLabel(w) == Lower(w)
  {
    SplitToken(w);
    var r := NormalizeLabel(w);
    assert Split(r) == [Lower(w)];
  }

  /** A two-word label keeps one space between its lower-cased words. */
  lemma TwoWordLabel(a: string, b: string)
    requires IsToken(a) && IsToken(b)
    ensures NormalizeLabel(a + " " + b) == Lower(a) + " " + Lower(b)
  {
    SplitWordThenSpace(a, b);
    SplitToken(b);
    var ws := Split(a + " " + b);
    assert ws == [a, b];
    var lows := LowerAll(ws);
    assert lows == [Lower(a), Lower(b)];
    var r := NormalizeLabel(a + " " + b);
    assert Split(r) == lows;
    JoinPair(Lower(a), Lower(b));
    assert r == Collapse(r) == Join(lows, " ");
  }

  lemma JoinPair(x: string, y: string)
    ensures Join([x, y], " ") == x + " " + y
  {
    assert [x, y][1..] == [y];
  }

  /** Normalising a label twice is the same as normalising it once. */
  lemma NormalizeIdempotent(s: string)
    ensures NormalizeLabel(NormalizeLabel(s)) == NormalizeLabel(s)
  {
    NormalLabelIsFixed(NormalizeLabel(s));
  }

  /** A collapsed label without upper-case letters is already normal. */
  lemma NormalLabelIsFixed(r: string)
    requires Collapsed(r) && NoUpper(r)
    ensures NormalizeLabel(r) == r
  {
    var ws := Split(r);
    if ws == [] {
      assert r == Join(ws, " ") == "";
    } else {
      JoinEdges(ws);
      assert Join(ws, " ") == r;
      StripNoOp(r);
      LowerOfNoUpper(r);
      assert Lower(Strip(Collapse(r))) == r;
    }
  }

  // ---------------------------------------------------------------------------
  // Slicing and integer rendering

  /** Python's `s[:n]` for a non-negative `n`. */
  function Truncate(s: string, n: nat): (r: string)
    ensures |r| <= n
    ensures |s| <= n ==> r == s
    ensures |s| > n ==> |r| == n
    ensures r == s[..|r|]
  {
    if |s| <= n then s else s[..n]
  }

  lemma TruncateIdempotent(s: string, n: nat)
    ensures Truncate(Truncate(s, n), n) == Truncate(s, n)
  {
  }

  function DigitChar(d: nat): char
    requires d < 10
  {
    "0123456789"[d]
  }

  predicate IsDigit(c: char) {
    '0' <= c <= '9'
  }

  function DigitValue(c: char): nat
    requires IsDigit(c)
  {
    c as int - '0' as int
  }

  /** Python's `str(n)` for a natural number. */
  function NatToString(n: nat): (s: string)
    ensures s != "" && forall i :: 0 <= i < |s| ==> IsDigit(s[i])
    decreases n
  {
    if n < 10 then [DigitChar(n)] else NatToString(n / 10) + [DigitChar(n % 10)]
  }

  /** Reads back a string of decimal digits. */
  function ParseNat(s: string): nat
    requires forall i :: 0 <= i < |s| ==> IsDigit(s[i])
    decreases |s|
  {
    if s == "" then 0 else ParseNat(s[..|s| - 1]) * 10 + DigitValue(s[|s| - 1])
  }

  /** `str(n)` loses nothing: the number can be read back from it. */
  lemma {:induction false} NatToStringRoundTrip(n: nat)
    ensures ParseNat(NatToString(n)) == n
    decreases n
  {
    var s := NatToString(n);
    if n < 10 {
      assert s[..|s| - 1] == "";
    } else {
      NatToStringRoundTrip(n / 10);
      assert s[..|s| - 1] == NatToString(n / 10);
    }
  }

  /** Python's `str(i)` for any integer. */
  function IntToString(i: int): string {
    if i >= 0 then NatToString(i) else "-" + NatToString(-i)
  }
}

=== FILE: views.dfy ===
/** The request handlers of backend/core/views.py that change uploads,
    incidents and tickets, and the target and format selection of the report
    request. Each handler is a transition from the stored records and the
    request's fields to the new records, the work it queues, or an error
    response. A request field is `None` when the request does not carry it. */
module Views {
  import opened Common
  import opened Text
  import opened Models
  import opened Incidents
  import Pipeline

  /** An error response: its HTTP status and its `error` text. */
  datatype ApiError = ApiError(status: nat, message: string)

  const BadRequest: nat := 400
  const NotFound: nat := 404
  const Conflict: nat := 409
  /** An exception the view does not catch. */
  const ServerError: nat := 500

  // ---------------------------------------------------------------------------
  // Uploads

  /** The `process_config` form field as received: text (a string or bytes
      value), an already decoded JSON object, or anything else (including no
      field at all). */
  datatype RawConfig = RawText(text: string) | RawObject(members: seq<(string, Json)>) | RawOther

  /** The configuration stored with a new upload. Text goes through the JSON
      decoder `decode` (`None` for a decode error) and is kept whatever JSON
      value it holds; an object passes through; everything else, and text
      that does not decode, becomes the empty object. */
  function ParseProcessConfig(raw: RawConfig, decode: string -> Option<Json>): (cfg: Json)
    ensures raw.RawText? && decode(raw.text).Some? ==> cfg == decode(raw.text).value
    ensures raw.RawObject? ==> cfg == JObject(raw.members)
    ensures raw.RawOther? || (raw.RawText? && decode(raw.text).None?) ==> cfg == JObject([])
    ensures cfg.JObject? || (raw.RawText? && decode(raw.text) == Some(cfg))
  {
    match raw
    case RawText(text) => decode(text).GetOr(JObject([]))
    case RawObject(members) => JObject(members)
    case RawOther => JObject([])
  }

  /** An uploaded file: its client-side name and content type. */
  datatype UploadedFile = UploadedFile(name: string, contentType: Option<string>)

  /** The multipart form of an upload request. */
  datatype CreateForm = CreateForm(
    file: Option<UploadedFile>,
    department: Option<string>,
    notes: Option<string>,
    processMode: Option<string>,
    processConfig: RawConfig)

  const FileRequired: string := "file is required"
  const DefaultDepartment: string := "General"

  /** Django's uploaded-file object is false when its name is empty. */
  predicate HasFile(form: CreateForm) {
    form.file.Some? && form.file.value.name != ""
  }

  datatype Created = Created(upload: Upload, effects: seq<Effect>)

  /** `UploadViewSet.create`: the new upload gets the id `uploadId` chosen by
      the database, its file is stored as `<uploadDir>/<uploadId>/<name>`, and
      one pipeline run is queued for it. */
  function UploadCreate(form: CreateForm, decode: string -> Option<Json>, uploadId: string, uploadDir: string): (r: Result<Created, ApiError>)
    ensures r.Err? <==> !HasFile(form)
    ensures r.Err? ==> r.error == ApiError(BadRequest, FileRequired)
    ensures r.Ok? ==> var u := r.value.upload;
      && u.id == uploadId && u.status == Processing
      && u.filename == form.file.value.name
      && u.department == (if form.department.Some? then form.department.value else DefaultDepartment)
      && u.notes == Some(if form.notes.Some? then form.notes.value else "")
      && u.processMode == (if Truthy(form.processMode) then form.processMode.value else DefaultProcessMode)
      && u.processConfig == ParseProcessConfig(form.processConfig, decode)
      && r.value.effects == [RunPipelineNow(uploadId)]
    ensures r.Ok? && form.file.value.name[0] != '/' ==>
      var p := r.value.upload.filePath;
      |p| >= |form.file.value.name| && p[|p| - |form.file.value.name|..] == form.file.value.name
  {
    var config := ParseProcessConfig(form.processConfig, decode);
    if !HasFile(form) then Err(ApiError(BadRequest, FileRequired))
    else
      var f := form.file.value;
      var path := Pipeline.PathJoin(Pipeline.PathJoin(uploadDir, uploadId), f.name);
      var u := Upload(uploadId, form.department.GetOr(DefaultDepartment), f.name, OrDefault(f.contentType, ""),
                      Processing, Some(form.notes.GetOr("")), path, OrDefault(form.processMode, DefaultProcessMode),
                      config);
      Ok(Created(u, [RunPipelineNow(uploadId)]))
  }

  /** `UploadViewSet.retry`: the upload goes back to processing and one more
      pipeline run is queued. */
  function UploadRetry(u: Upload): (r: Created)
    ensures r.upload.(status := u.status) == u && r.upload.status == Processing
    ensures r.effects == [RunPipelineNow(u.id)]
  {
    Created(u.(status := Processing), [RunPipelineNow(u.id)])
  }

  /** Retrying twice leaves the same record as retrying once; only the queue
      grows, by one run per request. */
  lemma RetryTwice(u: Upload)
    ensures var once := UploadRetry(u);
      var twice := UploadRetry(once.upload);
      twice.upload == once.upload && once.effects + twice.effects == [RunPipelineNow(u.id), RunPipelineNow(u.id)]
  {
  }

  // ---------------------------------------------------------------------------
  // Incident actions

  const EngineActor: string := "engine"
  const Unassigned: string := "unassigned"
  const IncidentResolvedEvent: string := "Incident resolved"
  const AnalysisUpdatedEvent: string := "Analysis updated"
  const AnalysisDefaultNotes: string := "Analysis details updated"
  const ManualRetryEvent: string := "Manual retry requested"
  const ArchivedEvent: string := "Incident archived"

  function AssignedEvent(who: string): string {
    "Assigned to " + who
  }

  /** `IncidentViewSet.assign`: the requested assignee (possibly none) takes
      the incident, which moves to in progress. */
  function IncidentAssign(inc: Incident, assignee: Option<string>, actor: Option<string>, notes: Option<string>,
                          now: Timestamp): (r: Incident)
    ensures r.(timeline := inc.timeline) == inc.(assignee := assignee, state := InProgress)
    ensures |r.timeline| == |inc.timeline| + 1 && r.timeline[..|inc.timeline|] == inc.timeline
    ensures r.timeline[|inc.timeline|]
         == Event(now, AssignedEvent(if Truthy(assignee) then assignee.value else Unassigned),
                  if Truthy(actor) then actor.value else EngineActor, notes)
  {
    AppendEvent(inc.(assignee := assignee, state := InProgress),
                AssignedEvent(OrDefault(assignee, Unassigned)), OrDefault(actor, EngineActor), notes, now)
  }

  /** The fields of a resolve request. */
  datatype ResolveForm = ResolveForm(
    resolvedBy: Option<string>,
    rootCause: Option<string>,
    correctiveAction: Option<string>,
    resolutionReport: Option<string>,
    notes: Option<string>)

  datatype Resolution = Resolution(incident: Incident, tickets: seq<Ticket>)

  predicate Unresolved(t: Ticket) {
    t.status == TicketOpen || t.status == TicketInProgress
  }

  /** Every ticket of the incident: each one links to it. */
  predicate TicketsOf(inc: Incident, tickets: seq<Ticket>) {
    forall k :: 0 <= k < |tickets| ==> tickets[k].incident == Some(inc.id)
  }

  /** What an automatic resolution makes of an open ticket. */
  function AutoResolved(t: Ticket, notes: string, now: Timestamp): Ticket {
    t.(status := TicketResolved, resolvedBy := Some(EngineActor), resolutionType := Some(AutomaticResolution),
       resolutionNotes := Some(notes), resolvedAt := Some(now),
       timeline := t.timeline + [Event(now, ResolvedEvent(EngineActor, Some(AutomaticResolution)), EngineActor, Some(notes))])
  }

  const AutomaticResolution: string := "automatic"

  /** The ticket loop of `IncidentViewSet.resolve`: every open or in-progress
      ticket is resolved through `Ticket.resolve`, which also resolves and
      stamps the incident each time; other tickets are left alone. */
  function CascadeResolve(inc: Incident, tickets: seq<Ticket>, notes: string, now: Timestamp): (r: Resolution)
    requires TicketsOf(inc, tickets)
    ensures |r.tickets| == |tickets|
    ensures forall k :: 0 <= k < |tickets| ==>
      r.tickets[k] == if Unresolved(tickets[k]) then AutoResolved(tickets[k], notes, now) else tickets[k]
    ensures (exists k :: 0 <= k < |tickets| && Unresolved(tickets[k])) ==>
      r.incident == inc.(state := Resolved, resolvedAt := Some(now),
                         correctiveAction := if notes != "" then Some(notes) else inc.correctiveAction)
    ensures (forall k :: 0 <= k < |tickets| ==> !Unresolved(tickets[k])) ==> r.incident == inc
    decreases |tickets|
  {
    if tickets == [] then Resolution(inc, [])
    else
      var t := tickets[0];
      if Unresolved(t) then
        var step := TicketResolve(t, Some(inc), EngineActor, Some(AutomaticResolution), Some(notes), now);
        AutoResolveStep(inc, t, notes, now);
        var inc' := step.incident.value;
        var rest := CascadeResolve(inc', tickets[1..], notes, now);
        assert forall k :: 1 <= k < |tickets| ==> tickets[k] == tickets[1..][k - 1];
        Resolution(rest.incident, [step.ticket] + rest.tickets)
      else
        var rest := CascadeResolve(inc, tickets[1..], notes, now);
        assert forall k :: 1 <= k < |tickets| ==> tickets[k] == tickets[1..][k - 1];
        Resolution(rest.incident, [t] + rest.tickets)
  }

  /** One ticket of the loop: the engine's resolution of a linked ticket is
      the automatic resolution, and it resolves and stamps the incident. */
  lemma AutoResolveStep(inc: Incident, t: Ticket, notes: string, now: Timestamp)
    requires t.incident == Some(inc.id)
    ensures var step := TicketResolve(t, Some(inc), EngineActor, Some(AutomaticResolution), Some(notes), now);
      && step.ticket == AutoResolved(t, notes, now)
      && step.incident == Some(inc.(state := Resolved, resolvedAt := Some(now),
                                    correctiveAction := if notes != "" then Some(notes) else inc.correctiveAction))
  {
    var step := TicketResolve(t, Some(inc), EngineActor, Some(AutomaticResolution), Some(notes), now);
    assert step.ticket.timeline == AutoResolved(t, notes, now).timeline;
  }

  /** `IncidentViewSet.resolve`. The root cause and corrective action are
      replaced by the request's values, even absent ones; the resolution
      report is kept unless a new one is given. */
  function IncidentResolve(inc: Incident, tickets: seq<Ticket>, form: ResolveForm, now: Timestamp): (r: Resolution)
    requires TicketsOf(inc, tickets)
    ensures var resolver := if Truthy(form.resolvedBy) then form.resolvedBy.value else EngineActor;
      var report := if Truthy(form.resolutionReport) then form.resolutionReport else inc.resolutionReport;
      && r.incident.state == Resolved && r.incident.resolvedBy == Some(resolver)
      && r.incident.rootCause == form.rootCause && r.incident.resolutionReport == report
      && |r.incident.timeline| == |inc.timeline| + 1 && r.incident.timeline[..|inc.timeline|] == inc.timeline
      && r.incident.timeline[|inc.timeline|]
         == Event(now, IncidentResolvedEvent, resolver, if Truthy(report) then report else form.notes)
    ensures r.incident.(rootCause := inc.rootCause, correctiveAction := inc.correctiveAction,
                        resolutionReport := inc.resolutionReport, state := inc.state,
                        resolvedBy := inc.resolvedBy, resolvedAt := inc.resolvedAt, timeline := inc.timeline) == inc
  {
    var resolver := OrDefault(form.resolvedBy, EngineActor);
    var report := OrElse(form.resolutionReport, inc.resolutionReport);
    var updated := inc.(rootCause := form.rootCause, correctiveAction := form.correctiveAction,
                        resolutionReport := report, state := Resolved, resolvedBy := Some(resolver));
    var logged := AppendEvent(updated, IncidentResolvedEvent, resolver, OrElse(report, form.notes), now);
    CascadeResolve(logged, tickets, OrDefault(logged.correctiveAction, IncidentResolvedEvent), now)
  }

  /** After an incident is resolved none of its tickets is left open or in
      progress; tickets already resolved or closed are untouched, and every
      ticket the handler resolved is resolved automatically by the engine with
      the corrective action (or "Incident resolved") as notes. */
  lemma ResolveClosesTickets(inc: Incident, tickets: seq<Ticket>, form: ResolveForm, now: Timestamp)
    requires TicketsOf(inc, tickets)
    ensures var r := IncidentResolve(inc, tickets, form, now);
      var notes := if Truthy(form.correctiveAction) then form.correctiveAction.value else IncidentResolvedEvent;
      && |r.tickets| == |tickets|
      && (forall k :: 0 <= k < |tickets| ==> !Unresolved(r.tickets[k]))
      && (forall k :: 0 <= k < |tickets| && !Unresolved(tickets[k]) ==> r.tickets[k] == tickets[k])
      && (forall k :: 0 <= k < |tickets| && Unresolved(tickets[k]) ==>
            r.tickets[k].resolutionType == Some(AutomaticResolution) && r.tickets[k].resolutionNotes == Some(notes))
  {
  }

  /** The resolution time is stamped by the ticket cascade only: it is set
      when some ticket was still open or in progress, and otherwise the
      incident keeps whatever resolution time it had. Likewise a missing
      corrective action becomes "Incident resolved" exactly when a ticket was
      resolved along the way. */
  lemma ResolvedAtNeedsAnOpenTicket(inc: Incident, tickets: seq<Ticket>, form: ResolveForm, now: Timestamp)
    requires TicketsOf(inc, tickets)
    ensures var r := IncidentResolve(inc, tickets, form, now);
      var cascaded := exists k :: 0 <= k < |tickets| && Unresolved(tickets[k]);
      && r.incident.resolvedAt == (if cascaded then Some(now) else inc.resolvedAt)
      && r.incident.correctiveAction
         == (if Truthy(form.correctiveAction) then form.correctiveAction
             else if cascaded then Some(IncidentResolvedEvent) else form.correctiveAction)
  {
  }

  /** The fields of an analyze request. */
  datatype AnalyzeForm = AnalyzeForm(
    analysisNotes: Option<string>,
    impactSummary: Option<string>,
    severity: Option<string>,
    category: Option<string>,
    actor: Option<string>)

  /** `IncidentViewSet.analyze`: each analysis field is replaced only by a
      non-empty value. */
  function IncidentAnalyze(inc: Incident, form: AnalyzeForm, now: Timestamp): (r: Incident)
    ensures r.analysisNotes == (if Truthy(form.analysisNotes) then form.analysisNotes else inc.analysisNotes)
    ensures r.impactSummary == (if Truthy(form.impactSummary) then form.impactSummary else inc.impactSummary)
    ensures r.severity == (if Truthy(form.severity) then form.severity.value else inc.severity)
    ensures r.category == (if Truthy(form.category) then form.category else inc.category)
    ensures r.state == inc.state && r.autoRetryCount == inc.autoRetryCount
    ensures |r.timeline| == |inc.timeline| + 1 && r.timeline[..|inc.timeline|] == inc.timeline
    ensures r.timeline[|inc.timeline|]
         == Event(now, AnalysisUpdatedEvent, if Truthy(form.actor) then form.actor.value else EngineActor,
                  if Truthy(form.analysisNotes) then form.analysisNotes else Some(AnalysisDefaultNotes))
    ensures r.(analysisNotes := inc.analysisNotes, impactSummary := inc.impactSummary, severity := inc.severity,
               category := inc.category, timeline := inc.timeline) == inc
  {
    var updated := inc.(analysisNotes := OrElse(form.analysisNotes, inc.analysisNotes),
                        impactSummary := OrElse(form.impactSummary, inc.impactSummary),
                        severity := OrDefault(form.severity, inc.severity),
                        category := OrElse(form.category, inc.category));
    AppendEvent(updated, AnalysisUpdatedEvent, OrDefault(form.actor, EngineActor),
                OrElse(form.analysisNotes, Some(AnalysisDefaultNotes)), now)
  }

  /** Analysing with no values changes nothing but the timeline. */
  lemma EmptyAnalysisKeepsFields(inc: Incident, actor: Option<string>, now: Timestamp)
    ensures var r := IncidentAnalyze(inc, AnalyzeForm(None, None, None, None, actor), now);
      r.(timeline := inc.timeline) == inc
  {
  }

  datatype Retried = Retried(incident: Incident, effects: seq<Effect>)

  /** `IncidentViewSet.retry`: one pipeline run of the incident's upload is
      queued and the retry counter rises by one, with no check against
      `max_auto_retries`. */
  function IncidentRetry(inc: Incident, actor: Option<string>, notes: Option<string>, now: Timestamp): (r: Retried)
    ensures r.incident.(timeline := inc.timeline) == inc.(state := InProgress, autoRetryCount := inc.autoRetryCount + 1)
    ensures |r.incident.timeline| == |inc.timeline| + 1 && r.incident.timeline[..|inc.timeline|] == inc.timeline
    ensures r.incident.timeline[|inc.timeline|] == Event(now, ManualRetryEvent, if Truthy(actor) then actor.value else EngineActor, notes)
    ensures r.effects == [RunPipelineNow(inc.uploadId)]
  {
    var updated := inc.(state := InProgress, autoRetryCount := inc.autoRetryCount + 1);
    Retried(AppendEvent(updated, ManualRetryEvent, OrDefault(actor, EngineActor), notes, now), [RunPipelineNow(inc.uploadId)])
  }

  /** `n` manual retries of one incident. */
  function ManualRetries(inc: Incident, n: nat, now: Timestamp): (r: Retried)
    decreases n
  {
    if n == 0 then Retried(inc, [])
    else
      var first := IncidentRetry(inc, None, None, now);
      var rest := ManualRetries(first.incident, n - 1, now);
      Retried(rest.incident, first.effects + rest.effects)
  }

  /** Manual retries are not bounded by the cap automatic triage respects:
      `n` of them queue `n` runs and raise the counter by `n`, past
      `max_auto_retries` once `n` is large enough. */
  lemma {:induction false} ManualRetriesAreUnbounded(inc: Incident, n: nat, now: Timestamp)
    ensures var r := ManualRetries(inc, n, now);
      && r.incident.autoRetryCount == inc.autoRetryCount + n
      && r.incident.maxAutoRetries == inc.maxAutoRetries
      && |r.effects| == n
      && (forall k :: 0 <= k < n ==> r.effects[k] == RunPipelineNow(inc.uploadId))
      && r.incident.uploadId == inc.uploadId
    decreases n
  {
    if n > 0 {
      var first := IncidentRetry(inc, None, None, now);
      ManualRetriesAreUnbounded(first.incident, n - 1, now);
    }
  }

  /** `IncidentViewSet.archive`: the incident is stamped archived and marked
      resolved, without touching its tickets or its resolution fields. */
  function IncidentArchive(inc: Incident, actor: Option<string>, notes: Option<string>, now: Timestamp): (r: Incident)
    ensures r.(timeline := inc.timeline) == inc.(archivedAt := Some(now), state := Resolved)
    ensures |r.timeline| == |inc.timeline| + 1 && r.timeline[..|inc.timeline|] == inc.timeline
    ensures r.timeline[|inc.timeline|] == Event(now, ArchivedEvent, if Truthy(actor) then actor.value else EngineActor, notes)
  {
    AppendEvent(inc.(archivedAt := Some(now), state := Resolved), ArchivedEvent, OrDefault(actor, EngineActor), notes, now)
  }

  /** The five incident actions, as one request type. */
  datatype IncidentAction =
    | Assign(assignee: Option<string>, actor: Option<string>, notes: Option<string>)
    | Resolve(form: ResolveForm)
    | Analyze(analysis: AnalyzeForm)
    | Retry(actor: Option<string>, notes: Option<string>)
    | Archive(actor: Option<string>, notes: Option<string>)

  function ApplyIncidentAction(inc: Incident, tickets: seq<Ticket>, a: IncidentAction, now: Timestamp): Incident
    requires TicketsOf(inc, tickets)
  {
    match a
    case Assign(assignee, actor, notes) => IncidentAssign(inc, assignee, actor, notes, now)
    case Resolve(form) => IncidentResolve(inc, tickets, form, now).incident
    case Analyze(form) => IncidentAnalyze(inc, form, now)
    case Retry(actor, notes) => IncidentRetry(inc, actor, notes, now).incident
    case Archive(actor, notes) => IncidentArchive(inc, actor, notes, now)
  }

  /** The state each action leaves: assigning and retrying put the incident
      in progress, resolving and archiving resolve it, analysing keeps it. */
  function StateAfter(a: IncidentAction, before: IncidentState): IncidentState {
    match a
    case Assign(_, _, _) => InProgress
    case Retry(_, _) => InProgress
    case Resolve(_) => Resolved
    case Archive(_, _) => Resolved
    case Analyze(_) => before
  }

  /** Every incident action appends exactly one timeline entry and keeps the
      earlier ones, never changes what the incident is about (its id, upload,
      run, error, matched rule and retry cap), and leaves the state
      `StateAfter` names. */
  lemma IncidentActionsAppendOnly(inc: Incident, tickets: seq<Ticket>, a: IncidentAction, now: Timestamp)
    requires TicketsOf(inc, tickets)
    ensures var r := ApplyIncidentAction(inc, tickets, a, now);
      && |r.timeline| == |inc.timeline| + 1 && r.timeline[..|inc.timeline|] == inc.timeline
      && r.timeline[|inc.timeline|].timestamp == now
      && r.id == inc.id && r.uploadId == inc.uploadId && r.jobRunId == inc.jobRunId && r.error == inc.error
      && r.matchedRule == inc.matchedRule && r.maxAutoRetries == inc.maxAutoRetries
      && r.state == StateAfter(a, inc.state)
  {
    if a.Resolve? {
      var resolver := OrDefault(a.form.resolvedBy, EngineActor);
      var report := OrElse(a.form.resolutionReport, inc.resolutionReport);
      var updated := inc.(rootCause := a.form.rootCause, correctiveAction := a.form.correctiveAction,
                          resolutionReport := report, state := Resolved, resolvedBy := Some(resolver));
      var logged := AppendEvent(updated, IncidentResolvedEvent, resolver, OrElse(report, a.form.notes), now);
      var r := CascadeResolve(logged, tickets, OrDefault(logged.correctiveAction, IncidentResolvedEvent), now);
      assert r.incident.(state := Resolved, resolvedAt := None, correctiveAction := None)
          == logged.(state := Resolved, resolvedAt := None, correctiveAction := None);
    }
  }

  // ---------------------------------------------------------------------------
  // Ticket actions

  const AssigneeRequired: string := "assignee required"
  const AlreadyResolved: string := "Ticket already resolved"
  const ManualResolution: string := "manual"

  /** `TicketViewSet.assign`: a non-empty assignee takes the ticket, which
      moves to in progress whatever its status was. */
  function TicketAssign(t: Ticket, assignee: Option<string>, now: Timestamp): (r: Result<Ticket, ApiError>)
    ensures r.Err? <==> !Truthy(assignee)
    ensures r.Err? ==> r.error == ApiError(BadRequest, AssigneeRequired)
    ensures r.Ok? ==> r.value.(timeline := t.timeline) == t.(assignee := assignee, status := TicketInProgress)
    ensures r.Ok? ==> r.value.timeline == t.timeline + [Event(now, AssignedEvent(assignee.value), EngineActor, None)]
  {
    if !Truthy(assignee) then Err(ApiError(BadRequest, AssigneeRequired))
    else
      Ok(t.(assignee := assignee, status := TicketInProgress,
            timeline := t.timeline + [Event(now, AssignedEvent(assignee.value), EngineActor, None)]))
  }

  /** Assigning is not guarded by status: a resolved ticket that is assigned
      is in progress again. */
  lemma AssignReopensResolvedTicket(t: Ticket, assignee: string, now: Timestamp)
    requires t.status == TicketResolved && assignee != ""
    ensures TicketAssign(t, Some(assignee), now).Ok?
    ensures TicketAssign(t, Some(assignee), now).value.status == TicketInProgress
  {
  }

  /** `TicketViewSet.resolve`: a ticket that is not yet resolved is resolved
      by the engine through `Ticket.resolve`, with the requested type and
      notes. A field left out defaults to "manual" and ""; a field sent as
      JSON `null` is passed on as `None`. Closed tickets can be resolved. */
  function TicketResolveAction(t: Ticket, linked: Option<Incident>, notes: Field<string>, kind: Field<string>,
                               now: Timestamp): (r: Result<TicketAndIncident, ApiError>)
    requires LinkedTo(t, linked)
    ensures r.Err? <==> t.status == TicketResolved
    ensures r.Err? ==> r.error == ApiError(BadRequest, AlreadyResolved)
    ensures r.Ok? ==> r.value == TicketResolve(t, linked, EngineActor, kind.Get(ManualResolution), notes.Get(""), now)
    // what the request's fields become on the ticket
    ensures r.Ok? ==>
      && r.value.ticket.resolutionType
         == (match kind case Absent => Some(ManualResolution) case Null => None case Given(k) => Some(k))
      && r.value.ticket.resolutionNotes
         == (match notes case Absent => Some("") case Null => None case Given(n) => Some(n))
      && (linked.Some? ==>
            r.value.incident.value.correctiveAction
            == (if notes.Given? && notes.value != "" then Some(notes.value) else linked.value.correctiveAction))
  {
    if t.status == TicketResolved then Err(ApiError(BadRequest, AlreadyResolved))
    else Ok(TicketResolve(t, linked, EngineActor, kind.Get(ManualResolution), notes.Get(""), now))
  }

  /** A resolve request whose `resolution_type` is JSON `null` stores no type
      and renders it as "None" in the ticket's timeline, unlike one that
      leaves the key out. */
  lemma NullTypeIsNotManual(t: Ticket, linked: Option<Incident>, notes: Field<string>, now: Timestamp)
    requires LinkedTo(t, linked) && t.status != TicketResolved
    ensures var viaNull := TicketResolveAction(t, linked, notes, Null, now);
      var viaAbsent := TicketResolveAction(t, linked, notes, Absent, now);
      && viaNull.Ok? && viaAbsent.Ok?
      && viaNull.value.ticket.resolutionType.None?
      && viaAbsent.value.ticket.resolutionType == Some(ManualResolution)
      && viaNull.value.ticket.timeline[|t.timeline|].event == "Ticket resolved by engine (None)"
      && viaAbsent.value.ticket.timeline[|t.timeline|].event == "Ticket resolved by engine (manual)"
  {
  }

  /** A second resolve request on the same ticket is rejected, whatever it
      carries, and so the first resolution stands. */
  lemma ResolveOnlyOnce(t: Ticket, linked: Option<Incident>, notes: Field<string>, kind: Field<string>,
                        notes2: Field<string>, kind2: Field<string>, now: Timestamp, later: Timestamp)
    requires LinkedTo(t, linked) && t.status != TicketResolved
    ensures var first := TicketResolveAction(t, linked, notes, kind, now);
      && first.Ok?
      && LinkedTo(first.value.ticket, first.value.incident)
      && TicketResolveAction(first.value.ticket, first.value.incident, notes2, kind2, later)
         == Err(ApiError(BadRequest, AlreadyResolved))
  {
  }

  // ---------------------------------------------------------------------------
  // Report requests

  const CsvFormat: string := "csv"
  const PdfFormat: string := "pdf"
  const SummaryPrefix: string := "summary"
  const ProcessedPrefix: string := "processed"

  /** The `format` query parameter, lower-cased; anything but "csv" or "pdf"
      falls back to "csv". */
  function RequestedFormat(q: Option<string>): (fmt: string)
    ensures fmt == CsvFormat || fmt == PdfFormat
    ensures fmt == PdfFormat <==> q.Some? && Lower(q.value) == PdfFormat
  {
    var f := Lower(q.GetOr(CsvFormat));
    if f in {CsvFormat, PdfFormat} then f else CsvFormat
  }

  /** The prefix of the report's file name: "summary" for the gradebook
      transform (the default mode), compared after trimming and lower-casing,
      and "processed" for every other mode. */
  function ReportPrefix(mode: string): (prefix: string)
    ensures prefix == SummaryPrefix || prefix == ProcessedPrefix
    ensures prefix == SummaryPrefix <==> mode == "" || Lower(Strip(mode)) == DefaultProcessMode
  {
    var m := if mode != "" then Lower(Strip(mode)) else DefaultProcessMode;
    if m == DefaultProcessMode then SummaryPrefix else ProcessedPrefix
  }

  /** The default mode is already trimmed and lower-case. */
  lemma DefaultModeIsNormal()
    ensures Lower(Strip(DefaultProcessMode)) == DefaultProcessMode
  {
    StripNoOp(DefaultProcessMode);
    LowerOfNoUpper(DefaultProcessMode);
  }

  /** Storing a mode in its trimmed, lower-cased form keeps its prefix, as
      long as the mode is not blank. A blank but non-empty mode is not the
      default: it trims to "" and gets the processed prefix. */
  lemma ModeNormalisationKeepsPrefix(mode: string)
    ensures Strip(mode) != "" ==> ReportPrefix(Lower(Strip(mode))) == ReportPrefix(mode)
    ensures mode != "" && Strip(mode) == "" ==> ReportPrefix(mode) == ProcessedPrefix
  {
    var t := Strip(mode);
    if t != "" {
      TrimmedLowerIsFixed(t);
    }
  }

  /** A trimmed, non-empty text lower-cased is trimmed and lower-case. */
  lemma TrimmedLowerIsFixed(t: string)
    requires t != "" && !IsSpace(t[0]) && !IsSpace(t[|t| - 1])
    ensures Lower(Strip(Lower(t))) == Lower(t)
  {
    var n := Lower(t);
    assert n[0] == LowerChar(t[0]) && n[|n| - 1] == LowerChar(t[|t| - 1]);
    StripNoOp(n);
    LowerIdempotent(t);
    LowerOfNoUpper(n);
  }

  /** An upload whose mode is left empty, or is the default, gets the summary
      prefix. */
  lemma DefaultModeGetsSummary()
    ensures ReportPrefix("") == SummaryPrefix && ReportPrefix(DefaultProcessMode) == SummaryPrefix
  {
    DefaultModeIsNormal();
  }

  /** A stored job run as the report request sees it: its status and the
      upload it belongs to, if any. */
  datatype StoredRun = StoredRun(status: string, upload: Option<Upload>)

  datatype ReportQuery = ReportQuery(uploadId: Option<string>, jobRunId: Option<string>, format: Option<string>)

  /** What the report request goes on to serve: the upload, the run it was
      asked about (if it was asked by run), the format and the file prefix. */
  datatype ReportPlan = ReportPlan(upload: Upload, run: Option<StoredRun>, format: string, prefix: string)

  const RunWithoutUpload: string := "Job run not associated with an upload yet"
  const RunNotFound: string := "Job run not found"
  const IdRequired: string := "upload_id or job_run_id required"
  const UploadNotFound: string := "Upload not found"
  const StillGenerating: string := "Report still generating"
  /** Stands in for the server error page: the view itself writes no `error` text. */
  const MalformedId: string := "not a valid UUID"

  /** A run whose status is neither success nor failure has no report yet. */
  predicate Finished(run: StoredRun) {
    run.status == Pipeline.SuccessStatus || run.status == Pipeline.FailedStatus
  }

  function PlanFor(u: Upload, run: Option<StoredRun>, format: Option<string>): (r: Result<ReportPlan, ApiError>)
    ensures r.Err? <==> run.Some? && !Finished(run.value)
    ensures r.Err? ==> r.error == ApiError(Conflict, StillGenerating)
    ensures r.Ok? ==> r.value == ReportPlan(u, run, RequestedFormat(format), ReportPrefix(u.processMode))
  {
    if run.Some? && run.value.status !in [Pipeline.SuccessStatus, Pipeline.FailedStatus] then
      Err(ApiError(Conflict, StillGenerating))
    else Ok(ReportPlan(u, run, RequestedFormat(format), ReportPrefix(u.processMode)))
  }

  /** `reports_summary` up to the point where it serves a file: the run id,
      when given, takes precedence and may also name an upload directly;
      otherwise the upload id is looked up; a run that is still going is a
      conflict. `runs` and `uploads` are the database lookups; `wellFormed`
      says which texts the UUID columns accept. Looking up a text they do not
      accept raises a validation error that the view does not catch, which
      is a server error. */
  function PlanReport(q: ReportQuery, wellFormed: string -> bool, runs: string -> Option<StoredRun>,
                      uploads: string -> Option<Upload>): (r: Result<ReportPlan, ApiError>)
    ensures r.Ok? ==> (r.value.format == CsvFormat || r.value.format == PdfFormat)
                      && r.value.format == RequestedFormat(q.format)
                      && r.value.prefix == ReportPrefix(r.value.upload.processMode)
    ensures r.Ok? && r.value.run.Some? ==> Finished(r.value.run.value)
    ensures r.Err? ==> r.error.status in {BadRequest, NotFound, Conflict, ServerError}
    // the id consulted first decides whether the request fails before any lookup
    ensures r.Err? && r.error.status == ServerError
            <==> if Truthy(q.jobRunId) then !wellFormed(q.jobRunId.value)
                 else Truthy(q.uploadId) && !wellFormed(q.uploadId.value)
    ensures !Truthy(q.jobRunId) ==>
      (r.Ok? <==> Truthy(q.uploadId) && wellFormed(q.uploadId.value) && uploads(q.uploadId.value).Some?)
      && (r.Ok? ==> r.value == ReportPlan(uploads(q.uploadId.value).value, None, r.value.format, r.value.prefix))
    ensures Truthy(q.jobRunId) && wellFormed(q.jobRunId.value) && runs(q.jobRunId.value).Some? ==>
      var run := runs(q.jobRunId.value);
      && (r == Err(ApiError(Conflict, StillGenerating)) <==> run.value.upload.Some? && !Finished(run.value))
      && (r.Ok? <==> run.value.upload.Some? && Finished(run.value))
      && (r.Ok? ==> r.value.upload == run.value.upload.value && r.value.run == run)
  {
    if Truthy(q.jobRunId) then PlanByRun(q.jobRunId.value, q.format, wellFormed, runs, uploads)
    else if !Truthy(q.uploadId) then Err(ApiError(BadRequest, IdRequired))
    else if !wellFormed(q.uploadId.value) then Err(ApiError(ServerError, MalformedId))
    else
      match uploads(q.uploadId.value)
      case Some(u) => PlanFor(u, None, q.format)
      case None => Err(ApiError(NotFound, UploadNotFound))
  }

  /** The request by run id: the run's own upload, or, when no run has that
      id, an upload that has it. */
  function PlanByRun(runId: string, format: Option<string>, wellFormed: string -> bool,
                     runs: string -> Option<StoredRun>, uploads: string -> Option<Upload>): (r: Result<ReportPlan, ApiError>)
    ensures r.Ok? ==> r.value.format == RequestedFormat(format) && r.value.prefix == ReportPrefix(r.value.upload.processMode)
    ensures r.Ok? && r.value.run.Some? ==> Finished(r.value.run.value)
    ensures r.Err? ==> r.error.status in {BadRequest, NotFound, Conflict, ServerError}
    ensures r.Err? && r.error.status == ServerError <==> !wellFormed(runId)
    ensures wellFormed(runId) && runs(runId).None? ==>
      (r.Ok? <==> uploads(runId).Some?) && (r.Ok? ==> r.value.upload == uploads(runId).value && r.value.run.None?)
    ensures wellFormed(runId) && runs(runId).Some? ==>
      var run := runs(runId);
      && (r == Err(ApiError(Conflict, StillGenerating)) <==> run.value.upload.Some? && !Finished(run.value))
      && (r.Ok? <==> run.value.upload.Some? && Finished(run.value))
      && (r.Ok? ==> r.value.upload == run.value.upload.value && r.value.run == run)
  {
    if !wellFormed(runId) then Err(ApiError(ServerError, MalformedId))
    else
      match runs(runId)
      case Some(run) =>
        if run.upload.None? then Err(ApiError(BadRequest, RunWithoutUpload))
        else PlanFor(run.upload.value, Some(run), format)
      case None =>
        match uploads(runId)
        case Some(u) => PlanFor(u, None, format)
        case None => Err(ApiError(NotFound, RunNotFound))
  }

  /** When a run id is given the upload id is never consulted. */
  lemma RunIdTakesPrecedence(q: ReportQuery, uploadId: Option<string>, wellFormed: string -> bool,
                             runs: string -> Option<StoredRun>, uploads: string -> Option<Upload>)
    requires Truthy(q.jobRunId)
    ensures PlanReport(q, wellFormed, runs, uploads) == PlanReport(q.(uploadId := uploadId), wellFormed, runs, uploads)
  {
    var q' := q.(uploadId := uploadId);
    assert q'.jobRunId == q.jobRunId && q'.format == q.format;
    assert PlanReport(q', wellFormed, runs, uploads) == PlanByRun(q.jobRunId.value, q.format, wellFormed, runs, uploads);
  }
}
